=== FILE: README.md ===
# py-js in Dafny

py-js embeds a Python 3 interpreter in the Max and Pure Data visual
programming environments. A patch sends host *messages* (lists of atoms:
C longs, floats and symbols) to an external object. The object evaluates,
executes, imports, calls or assigns through CPython and sends the
results back out of its outlets. Each result is a list of atoms, and a
"success" or "failure" bang goes out on the right-hand outlet.

This project models five externals and the build tooling:

- **py (box external)**, in `source/projects/py/py.c`. This is the
  `BoxBridge` module. It covers the conversions between atoms and Python
  values, the output handlers for each Python type, the message handlers,
  the pipe, and the registry scan and `send`.
- **py (legacy external)**, in `source/py/py.c`. This is `LegacyBridge`.
  Each of its handlers is stated against the box variant, so the
  differences between the two are explicit.
- **pyjs**, the JavaScript-facing external, in `source/py/pyjs.c`. This is
  `JsBridge`. It returns one result atom list instead of firing outlets.
- **mxpy**, in `source/py/mxpy.c`. This is `MxBridge`. It turns atoms into
  a tuple, calls a Python function and fans the result out as messages.
- **Object life cycle and naming** for all three counters (box, legacy,
  pyjs). This is `Lifecycle`.
- **Pipe helpers** in `source/projects/py/tests/test_pipe.py`. This is
  `Pipeline`.
- **Builder package** `source/py/builder`:
  - products and the configure command line (`BuildCore`);
  - the factories (`BuildFactory`);
  - the module-patch table (`BuildPatch`);
  - the recipe/project/builder schema of `archive/models_ng4.py`
    (`BuildModels`);
  - command-line dispatch in `__main__.py` (`BuildCli`).

Shared pieces:

- `Wrappers`: `Option` and `Result`.
- `PyValues`: Python values, host atoms and output events.
- `Interpreter`: the CPython API as an `Oracle` datatype of function
  fields (run, call, compile, gettext, importModule, getAttr, isCallable),
  plus a `Host` for locating files.
- `PyStr`: the Python `str` operations the code uses, such as `split`,
  `join`, `splitlines`, `replace` and `lower`.
- `ODict`: an insertion-ordered `dict`.

The interpreter is a parameter of every handler. A property therefore
holds for every interpreter behaviour unless its `requires` names that
behaviour.

A reply from the box external is `Reply(code, trace)`:

- `code` is the C return value: `MAX_ERR_NONE` is `ErrNone` and
  `MAX_ERR_GENERIC` is `ErrGeneric`.
- `trace` is the sequence of outlet events: `Value(atoms)`, `Success` or
  `Failure`.

Where the code and its written description disagree, the model follows the
code:

- **Unsupported result types.** A Python result of a type with no output
  handler (None, for example) sends nothing on the box external. The
  external returns `MAX_ERR_GENERIC`, but no failure bang goes out.
- **Dicts.** A dict result goes through the list handler and then the dict
  handler, so it sends `Success` twice. An empty dict sends
  `[Failure, Success]`.
- **pyjs `code` and `eval`.** These ignore the return code of the output
  handler. Their code depends only on whether evaluation raised.
- **Legacy `eval`.** When evaluation raises, legacy `eval` sends no
  failure bang. It logs an error and returns.

## Model

| member | source | states |
|---|---|---|
| Conversion.AtomsToItems | source/projects/py/py.c:1228-1279 | each long, float or symbol atom becomes one list element; the list is as long as the message exactly when every atom has one of those types; every element can be converted back |
| Conversion.ListLikeIsListOrTuple | source/projects/py/py.c:1016-1017 | the list handler takes exactly lists and tuples: a sequence that is not str, bytes or bytearray |
| Conversion.ItemsToAtoms | source/projects/py/py.c:1049-1080 | the element loop succeeds exactly when no int element overflows a C long, and it yields one atom per long, float or str element |
| Conversion.ItemsToAtomsSnoc | source/projects/py/py.c:1049-1080 | one more element either extends the atoms of the prefix by its own atom or makes the whole conversion fail |
| Conversion.AtomsRoundTrip | source/projects/py/py.c:1238-1273 | converting a message to a Python list and back gives the message, minus atoms of unsupported types |
| Conversion.FloatOutput | source/projects/py/py.c:913-937 | a float result sends its value and then a success bang; any other type sends nothing |
| Conversion.LongOutput | source/projects/py/py.c:945-970 | an int that fits a C long is sent as a long atom and then success; an overflow sends only a failure bang and returns the error code |
| Conversion.StringOutput | source/projects/py/py.c:978-1002 | a str result is sent as one symbol and then success |
| Conversion.ListOutputCases | source/projects/py/py.c:1010-1100 | a list or tuple sends its atoms and then success, or sends only failure when it is empty or an element overflows; anything else sends nothing |
| Conversion.ListOfAtomsRoundTrip | source/projects/py/py.c:1228-1279 | a message converted to a Python list and sent back out comes out as its kept atoms, followed by success |
| Conversion.ListOutputBuffered | source/projects/py/py.c:1034-1089 | the handler with its fixed 128-atom array, and a dynamic array beyond that, sends exactly what the buffer-free definition sends; it grows exactly for lists longer than 128 |
| BoxBridge.FlattenScalarDict | source/projects/py/py.c:1121-1131 | a dict of scalar values flattens to key, ":" and value for each entry, in insertion order |
| BoxBridge.DictOutputCases | source/projects/py/py.c:1109-1170 | an empty dict sends failure and then success; a non-empty scalar dict sends its flattened atoms and two success bangs |
| BoxBridge.OutputCodeMeansSuccessLast | source/projects/py/py.c:1178-1216 | `py_handle_output` returns no error exactly when the last event it sends is a success bang |
| BoxBridge.OutputSilentIff | source/projects/py/py.c:1178-1216 | output sends nothing exactly for results of a type no handler accepts |
| BoxBridge.OutputShape | source/projects/py/py.c:1178-1216 | output sends at most one value, always before a success bang, and a failure bang only as its first event |
| BoxBridge.ScalarLikeSingletonList | source/projects/py/py.c:1178-1216 | a scalar result leaves the outlets exactly as a one-element list or tuple holding it would |
| BoxBridge.Eval | source/projects/py/py.c:1327-1350 | eval returns no error exactly when the expression evaluates; then it sends what the output handler sends for the value, and otherwise it sends one failure bang |
| BoxBridge.Exec | source/projects/py/py.c:1359-1389 | exec sends one bang, and it is success exactly when the statement runs without raising |
| BoxBridge.ExecFile | source/projects/py/py.c:1398-1446 | execfile sends one bang, and it keeps the old path when the file cannot be located |
| BoxBridge.ExecFileRunsNamedFile | source/projects/py/py.c:1406-1413 | execfile succeeds exactly when the named file is located and runs, and the located path becomes the current one |
| BoxBridge.Load | source/projects/py/py.c:2182-2186 | load succeeds only for a non-empty name that the host can locate |
| BoxBridge.Import | source/projects/py/py.c:1291-1314 | an empty name does nothing; otherwise the module is bound under its name and success goes out, or the namespace is left as it was and failure goes out |
| BoxBridge.Call | source/projects/py/py.c:1464-1545 | a failed call sends only failure; a successful one ends with a success bang |
| BoxBridge.CallEchoesArguments | source/projects/py/py.c:1477-1545 | calling a function that returns its argument list sends the kept arguments back, then two success bangs |
| BoxBridge.CallRetriesWithList | source/projects/py/py.c:1504-1519 | when the spread call raises TypeError, the function is called again with the arguments as one list |
| BoxBridge.AssignSpec | source/projects/py/py.c:1558-1613 | assign binds a name to the list of the remaining atoms and leaves every other name alone; with no atoms at all, or a first atom that is not a symbol, it fails and changes nothing |
| BoxBridge.EvalText | source/projects/py/py.c:1623-1680 | an error sends only a failure bang |
| BoxBridge.StatementFallback | source/projects/py/py.c:1641-1667 | text that does not parse as an expression but runs as a statement sends exactly one success bang |
| BoxBridge.CodeAgreesWithEval | source/projects/py/py.c:1687-1690 | `code` on one expression symbol sends what `eval` sends |
| BoxBridge.Anything | source/projects/py/py.c:1701-1741 | an empty selector is an error; only the `=` selector changes the namespace |
| BoxBridge.AnythingDelegates | source/projects/py/py.c:1701-1741 | a message with an unknown selector is `assign` for `=` and `code` on the whole message otherwise |
| BoxBridge.Pipe | source/projects/py/py.c:1750-1835 | a failed pipe sends only failure; a successful one ends with success |
| BoxBridge.PipeAppliesWords | source/projects/py/py.c:1770-1778 | the pipe succeeds exactly when the word-wise pipe does, and it sends that value |
| BoxBridge.ScanBoxes | source/projects/py/py.c:1874-1906 | the registry only holds boxes with non-empty scripting names |
| BoxBridge.ScanFindsLastBox | source/projects/py/py.c:1846-1906 | a name is in the scanned registry exactly when some box carries it, and it maps to the last such box |
| BoxBridge.Send | source/projects/py/py.c:1917-2015 | a non-empty registry is kept; success means the message reached an object |
| BoxBridge.SendReachesNamedObject | source/projects/py/py.c:1954-1993 | a send to a registered name delivers the remaining atoms to that object |
| BoxBridge.SendScansEmptyRegistry | source/projects/py/py.c:1942-1944 | an empty registry is filled by a scan first, and delivery happens exactly when the scan finds the name |
| Lifecycle.New | source/projects/py/py.c:396-510 | a new object gets a fresh id and raises the count by one; without a `name` attribute, it is named `__main__` exactly when it is the first live object |
| Lifecycle.NewPreservesInv | source/projects/py/py.c:619-652 | creating an object keeps the count equal to the number of live objects, the interpreter up exactly while objects live, the box registry present exactly while objects live, and the names of objects created without a `name` attribute distinct |
| Lifecycle.Free | source/py/py.c:329-351 | freeing removes exactly that object and leaves the others and their names unchanged |
| Lifecycle.FreePreservesInv | source/projects/py/py.c:660-703 | freeing keeps the count equal to the number of live objects, finalizes the interpreter and drops the registry exactly when the count reaches zero, and keeps the names distinct |
| Lifecycle.CountIsLiveObjects | source/projects/py/py.c:726-729 | the `count` message reports the number of live objects |
| Lifecycle.LastFreeResets | source/py/pyjs.c:108-122 | freeing the last object finalizes the engine and drops the registry; the next object created without a `name` attribute is named `__main__` again |
| Lifecycle.SharedObjNameOverwritten | source/projects/py/py.c:147-175 | the shared builtins module's object name is overwritten by each new object, so the first object then reads the second's name |
| Lifecycle.ObjNameOwn | source/projects/py/py.c:161 | an object can always read its own name |
| Lifecycle.ObjNameOwnStable | source/projects/py/py.c:147-175 | among objects created without a `name` attribute, each live object's own name differs from every other's, and it survives the creation and freeing of other objects |
| LegacyBridge.OutputMatchesBox | source/py/py.c:581-593 | the legacy output handler sends what the box one sends, except that it has no dict handler and sends nothing for a dict |
| LegacyBridge.Import | source/py/py.c:653-672 | legacy import changes the namespace and sends the bangs exactly as box import does |
| LegacyBridge.EvalFailureIsSilent | source/py/py.c:674-688 | a legacy eval that raises sends nothing where the box variant sends failure |
| LegacyBridge.EvalWithFailure | source/py/py.c:674-688 | the corrected legacy eval sends a failure bang when evaluation raises |
| LegacyBridge.EvalWithFailureAnnounces | source/py/py.c:674-688 | the corrected legacy eval is silent only when evaluation succeeded, and otherwise sends what the box variant sends |
| LegacyBridge.Exec | source/py/py.c:690-715 | legacy exec sends what box exec sends |
| LegacyBridge.ExecFile | source/py/py.c:717-761 | legacy execfile sends exactly one bang; it remembers the located path, or keeps the old one when the name cannot be located, and succeeds exactly when a name was given and the file at the remembered path runs |
| LegacyBridge.ExecFileRerunsStaleFile | source/py/py.c:90-127 | when the new name cannot be located, legacy execfile reruns the previous file and reports success, where the box variant reports failure |
| LegacyBridge.Call | source/py/py.c:765-842 | a legacy call ends with a success bang or sends only failure |
| LegacyBridge.CallMatchesBox | source/py/py.c:807-832 | legacy call sends what box call sends, except that a dict result sends only success |
| LegacyBridge.Assign | source/py/py.c:844-890 | legacy assign changes the namespace and sends the bangs exactly as box assign does |
| LegacyBridge.Code | source/py/py.c:892-940 | legacy code sends at most one bang when it sends no value |
| LegacyBridge.CodeMatchesBox | source/py/py.c:892-940 | legacy code sends what box code sends, except for dict expressions, where it sends nothing |
| LegacyBridge.Load | source/py/py.c:1208-1220 | an empty name with no remembered file does nothing; an empty name with one re-runs it through execfile; a non-empty name is execfile of that name; load succeeds exactly when the file it resolves to runs |
| LegacyBridge.LoadRerunsStoredFile | source/py/py.c:1208-1220 | `load` with no name runs the remembered file again and reports whether it ran |
| LegacyBridge.Send | source/py/py.c:995-1096 | a non-empty registry is kept |
| JsBridge.FloatFirstIsLongFirst | source/py/pyjs.c:404-454 | pyjs tests for float before long, but it converts every element as the box external does |
| JsBridge.JsItemsToAtoms | source/py/pyjs.c:404-454 | the pyjs element loop yields the atoms of the box external's loop |
| JsBridge.OutputMatchesBox | source/py/pyjs.c:531-568 | the pyjs return value is the value the box external would send; codes agree except for None, which pyjs accepts, and dicts, for which the box external always reports success |
| JsBridge.CodeMsg | source/py/pyjs.c:572-621 | a failed code message returns no value |
| JsBridge.CodeIgnoresHandlerFailure | source/py/pyjs.c:590-614 | an expression whose result no handler accepts still reports no error from pyjs, while the box external fails |
| JsBridge.CodeMatchesBox | source/py/pyjs.c:572-621 | the pyjs code result is the value the box external sends |
| JsBridge.Import | source/py/pyjs.c:624-643 | import succeeds exactly for a non-empty importable name and binds it; on failure the namespace is unchanged |
| JsBridge.Eval | source/py/pyjs.c:646-662 | eval succeeds exactly when evaluation does, and returns the box external's value |
| JsBridge.Exec | source/py/pyjs.c:709-733 | exec succeeds exactly for a non-empty statement that runs |
| JsBridge.ExecFile | source/py/pyjs.c:665-706 | execfile remembers the located path, or keeps the old one when the name cannot be located (pyjs.c:207-249), and succeeds exactly when a name was given and the file at the remembered path runs |
| JsBridge.ExecFileRerunsStaleFile | source/py/pyjs.c:207-249 | when the new name cannot be located, pyjs execfile reruns the previous file and reports no error, where the box external reports failure |
| JsBridge.EvalToJson | source/py/pyjs.c:736-788 | the call succeeds exactly when it returns a value, and that value is one symbol |
| JsBridge.EvalToJsonIsDumps | source/py/pyjs.c:748-774 | the symbol is the text `json.dumps` returns for the value; any other outcome is an error |
| MxBridge.AtomsToTuple | source/py/mxpy.c:63-73 | the tuple has one element per atom, in order |
| MxBridge.AtomRoundTrip | source/py/mxpy.c:42-89 | float and symbol atoms survive the trip to Python and back, but a long atom becomes None and comes back as the symbol `error` |
| MxBridge.AtomToPyWithLongs | source/py/mxpy.c:42-61 | the corrected translation turns a long atom into an int |
| MxBridge.AtomWithLongsRoundTrip | source/py/mxpy.c:75-89 | with the corrected translation every atom survives the trip |
| MxBridge.RoundToFloatNearest | source/py/mxpy.c:84 | casting an int to a 32-bit float lands within half a unit in the last place |
| MxBridge.RoundToFloatExact | source/py/mxpy.c:84 | ints below 2^24 survive the cast exactly |
| MxBridge.FirstInexactInteger | source/py/mxpy.c:84 | 2^24 + 1 is the first int that the cast changes |
| MxBridge.ListAtoms | source/py/mxpy.c:91-105 | a list becomes one atom per element; anything else becomes no atoms |
| MxBridge.Emit | source/py/mxpy.c:107-138 | at most one message goes out per value |
| MxBridge.EmitCases | source/py/mxpy.c:107-138 | a message goes out exactly for scalars and non-empty lists; a list whose head is a symbol uses it as the selector |
| MxBridge.EmitAll | source/py/mxpy.c:175-185 | a tuple result sends at most one message per element |
| MxBridge.EvalTupleFansOut | source/py/mxpy.c:140-189 | a tuple of scalars sends one message per element; an uninitialised object sends nothing |
| MxBridge.New | source/py/mxpy.c:191-255 | fewer than two atoms, or a module that cannot be imported, creates no object |
| MxBridge.NewPassesTrailingAtoms | source/py/mxpy.c:236-243 | the atoms after the module and function names become the constructor's arguments |
| Pipeline.EvalAll | source/projects/py/tests/test_pipe.py:17 | all words evaluate exactly when each does, and the results line up with the words |
| Pipeline.PipeSnoc | source/projects/py/tests/test_pipe.py:22-26 | appending a function applies it to the old pipe's result |
| Pipeline.PipeAppend | source/projects/py/tests/test_pipe.py:22-26 | piping through two lists of functions is piping through the first and then the second |
| Pipeline.TopipeWordsIsPipe2Words | source/projects/py/tests/test_pipe.py:28-34 | on words that start with `pipe`, topipe is pipe2 on the remaining words |
| Pipeline.TopipeIsPipe2 | source/projects/py/tests/test_pipe.py:14-34 | `topipe("pipe " + line)` equals `pipe2(line)` for every line of words |
| Pipeline.TopipeWordsRuns | source/projects/py/tests/test_pipe.py:31-34 | topipe pipes the value of the second word through the values of the rest |
| Pipeline.TestPipe | source/projects/py/tests/test_pipe.py:36-38 | piping `5` through range, reversed and list is `list(reversed(range(5)))`, and it raises where a call raises |
| Pipeline.TopipeMessageSplits | source/projects/py/tests/test_pipe.py:41 | the message of the test splits into `pipe`, `5`, `range`, `reversed` and `list` |
| Pipeline.TestTopipe | source/projects/py/tests/test_pipe.py:40-41 | topipe on that message equals the direct pipe of 5 through range, reversed and list |
| PyStr.Split | source/py/builder/core.py:159-161 | `str.split(sep)` yields at least one part, and no part contains the separator |
| PyStr.JoinSplit | source/py/builder/core.py:159-161 | joining the parts of a split with the separator gives the original string |
| PyStr.SplitJoin | source/py/builder/core.py:159-161 | splitting a join of separator-free parts gives the parts back |
| PyStr.LastTwo | source/py/builder/factory.py:71 | the `[-2:]` slice keeps the last two elements, or all of them when there are fewer |
| PyStr.ReplaceChar | source/py/builder/core.py:163-166 | `replace` keeps the length and changes exactly the matching characters |
| PyStr.RemoveChar | source/py/builder/core.py:163-166 | removing a character leaves no occurrence of it |
| PyStr.Lower | source/py/builder/core.py:173-176 | `lower` keeps the length and maps exactly the ASCII capitals to small letters |
| PyStr.SplitWsWords | source/projects/py/tests/test_pipe.py:15 | `str.split()` yields non-empty words without whitespace |
| PyStr.SplitWsJoin | source/projects/py/tests/test_pipe.py:15 | splitting a space-join of words gives the words back |
| PyStr.SplitWsAppend | source/py/builder/core.py:353-358 | splitting two space-separated pieces gives the words of each, in order |
| PyStr.SplitLines | source/py/builder/patch.py:6 | `splitlines` yields lines without line breaks, and none at all exactly for the empty string |
| PyStr.SplitLinesJoin | source/py/builder/patch.py:6 | splitting a newline-join of lines without breaks gives the lines back |
| ODict.Get | source/py/builder/factory.py:16 | lookup misses exactly for absent keys |
| ODict.Put | source/py/builder/core.py:349-351 | assigning to a new key appends it to the key order; an existing key keeps its place |
| ODict.PutGet | source/py/builder/core.py:349-351 | after assigning, the key reads the new value and every other key reads as before |
| ODict.PutUnique | source/py/builder/core.py:349-351 | assignment keeps the keys distinct |
| ODict.PutAllGet | source/py/builder/core.py:122-129 | after `dict.update`, each updated key reads its last value in the argument and every other key reads as before |
| ODict.PutAllUnique | source/py/builder/core.py:122-129 | `dict.update` keeps the keys distinct |
| ODict.PutAllKeepsKeys | source/py/builder/core.py:122-129 | `dict.update` keeps every old key and adds exactly the new ones |
| BuildCore.Update | source/py/builder/core.py:122-129 | `Settings.update` rejects with TypeError exactly the arguments that are neither a dict nor a Settings |
| BuildCore.UpdateMerges | source/py/builder/core.py:122-129 | with a dict or a Settings, update succeeds and keeps keys distinct; a key it is given reads the last value given for it, and every other key reads as before |
| BuildCore.FormatAppend | source/py/builder/core.py:191-197 | formatting a template is formatting its parts one after another |
| BuildCore.NewProduct | source/py/builder/core.py:139-153 | a product keeps the given fields, and its build directory falls back to its name |
| BuildCore.Ver | source/py/builder/core.py:158-161 | `ver` has at most two dot-separated components |
| BuildCore.VerOfRelease | source/py/builder/core.py:158-161 | `ver` of a three-part version is major.minor |
| BuildCore.VerOfShort | source/py/builder/core.py:158-161 | `ver` of a one- or two-part version is the version itself |
| BuildCore.VerNodot | source/py/builder/core.py:163-166 | `ver_nodot` contains no dot |
| BuildCore.VerNodotOfRelease | source/py/builder/core.py:163-166 | `ver_nodot` of a three-part version is major followed by minor |
| BuildCore.DylibIsLibNameVer | source/py/builder/core.py:173-189 | the dylib name is `lib`, then `name_ver`, then `m` for Python 3.7 only, then `.dylib` |
| BuildCore.Url | source/py/builder/core.py:191-197 | a URL exists exactly when the formatted template is non-empty |
| BuildCore.PathNameAfterSlash | source/py/builder/core.py:178-183 | the path name is the part after the last slash |
| BuildCore.NameArchive | source/py/builder/core.py:178-183 | the archive name has no slash when there is a URL, and is `name-version.tgz` otherwise |
| BuildCore.ArchiveIsUrlFile | source/py/builder/core.py:178-183 | the archive name is the file name at the end of the URL |
| BuildCore.HasStaticLibs | source/py/builder/core.py:296-302 | static libraries are present exactly when there is at least one and every one exists under the prefix lib directory |
| BuildCore.DashKeys | source/py/builder/core.py:349-351 | configure option keys carry dashes, not underscores |
| BuildCore.DashKeysKeepsEntries | source/py/builder/core.py:349-351 | for distinct keys, every entry keeps its place and value and only its key is dashed |
| BuildCore.EnvWords | source/py/builder/core.py:344-345 | each environment entry becomes `KEY=value` |
| BuildCore.OptionWords | source/py/builder/core.py:338 | each option becomes `--` and its name with dashes |
| BuildCore.KwWords | source/py/builder/core.py:353-358 | each keyword becomes `--key='value'` |
| BuildCore.ConfigureWords | source/py/builder/core.py:335-359 | the configure command splits into the environment words, `./configure`, the options and then the keyword options |
| BuildFactory.Get | source/py/builder/factory.py:16 | `get` returns a setting only when it is present and truthy, and the default otherwise |
| BuildFactory.GetFalsyIsDefault | source/py/builder/factory.py:16 | a falsy setting gives the default |
| BuildFactory.GetVersion | source/py/builder/factory.py:55-58 | a version setting falls back to a non-empty default |
| BuildFactory.TarballArchive | source/py/builder/factory.py:21-46 | a product with a tarball URL archives as `name-version.tar.gz` |
| BuildFactory.PythonArchive | source/py/builder/factory.py:72 | the Python product archives as `Python-version.tgz` |
| BuildFactory.Bzip2Product | source/py/builder/factory.py:21-28 | bzip2 is fetched from sourceware |
| BuildFactory.Bzip2Archive | source/py/builder/factory.py:21-28 | the bzip2 archive is `bzip2-version.tar.gz` |
| BuildFactory.SslProduct | source/py/builder/factory.py:30-37 | openssl is fetched from openssl.org |
| BuildFactory.SslArchive | source/py/builder/factory.py:30-37 | the openssl archive is `openssl-version.tar.gz` |
| BuildFactory.XzProductAsWritten | source/py/builder/factory.py:39-46 | xz is fetched from tukaani.org |
| BuildFactory.XzVersionIgnored | source/py/builder/factory.py:39-46 | the version argument does not change the xz product: it is always 5.2.5 |
| BuildFactory.XzProduct | source/py/builder/factory.py:39-46 | the corrected xz product is fetched from tukaani.org |
| BuildFactory.XzProductUsesVersion | source/py/builder/factory.py:39-46 | the corrected xz product has the requested version and archive name |
| BuildFactory.BuildDirNoUnderscore | source/py/builder/factory.py:71 | a name without underscores is its own build directory |
| BuildFactory.BuildDirLastTwo | source/py/builder/factory.py:71 | the build directory is the last two underscore parts joined by a dash |
| BuildFactory.StaticLibOfRelease | source/py/builder/factory.py:73 | the static library of Python x.y.z is `libpythonx.y.a` |
| BuildFactory.PythonBuilderFactory | source/py/builder/factory.py:53-107 | an unknown builder name raises KeyError; a known one builds its class with the given settings |
| BuildFactory.PythonBuilderShape | source/py/builder/factory.py:68-104 | a Python builder builds Python with one static library and depends on bzip2, openssl and xz, in that order, at the configured versions |
| BuildFactory.PyjsBuilderFactory | source/py/builder/factory.py:114-130 | an unknown name raises KeyError; a builder that is made has no dependencies |
| BuildFactory.PyjsOnlyHomebrew | source/py/builder/factory.py:114-130 | only `homebrew_builder` can be made, because every other class needs the undefined `python_builder` |
| BuildPatch.Entries | source/py/builder/patch.py:4-10 | every line yields its category, head word and remaining words; a line with no word raises IndexError |
| BuildPatch.Split | source/py/builder/patch.py:4-10 | there is one entry per non-empty line |
| BuildPatch.WhitespaceLineFails | source/py/builder/patch.py:4-10 | a line of only whitespace raises IndexError |
| BuildPatch.SplitRendered | source/py/builder/patch.py:4-10 | splitting the rendered lines of entries gives the entries back |
| BuildPatch.StrWords | source/py/builder/patch.py:24-25 | `str(module)` splits into the module name and then its elements |
| BuildPatch.AsTuple | source/py/builder/patch.py:27-29 | the tuple is the name, the four mode flags and the version values, in order |
| BuildPatch.Resolve | source/py/builder/patch.py:120-144 | resolving a name fails exactly when the bindings lack it |
| BuildPatch.CoreWeakrefIsRebound | source/py/builder/patch.py:32-144 | `_weakref` is first bound as enabled but resolves to its disabled rebinding |
| BuildPatch.CoreIntended | source/py/builder/patch.py:120-144 | the corrected core has one module per core name |
| BuildPatch.CoreIntendedEnabled | source/py/builder/patch.py:120-144 | every corrected core module carries its own name and is enabled |
| BuildModels.ProjectFromFactory | source/py/builder/archive/models_ng4.py:92-100 | a `builders` setting raises TypeError; otherwise there is one builder per class given, falling back to the class's own list |
| BuildModels.ProjectBuildersFollowClasses | source/py/builder/archive/models_ng4.py:92-100 | each builder is unnamed, has its class in order and shares the settings |
| BuildModels.RecipeFromFactory | source/py/builder/archive/models_ng4.py:125-137 | the recipe is made exactly when there is no `projects` setting and no `builders` setting reaches a project; project i then has class i's name, no name of its own, and one builder per builder class of class i, in order |
| BuildModels.ProjectTrace | source/py/builder/archive/models_ng4.py:102-106 | building a project prints its own line and then one line per builder, in order |
| BuildModels.BuildOrder | source/py/builder/archive/models_ng4.py:139-143 | building a recipe visits its projects in order and, within each, its builders in order |
| BuildModels.FactoryRecipeBuildOrder | source/py/builder/archive/models_ng4.py:125-143 | a factory-made recipe runs each builder class of each project class, in class order |
| BuildCli.Dispatch1 | source/py/builder/__main__.py:57-71 | the action chosen is set, and no action earlier in the option order is set |
| BuildCli.Dispatch1NoneIffNoFlag | source/py/builder/__main__.py:57-71 | nothing is chosen exactly when no action flag is set |
| BuildCli.Dispatch | source/py/builder/__main__.py:73-83 | `func` is never dispatched; a call returns exactly when the builder's method returns, prints "has no method" exactly when the lookup fails or the call raises `AttributeError`, and any other exception ends the loop as the last call |
| BuildCli.DispatchAppend | source/py/builder/__main__.py:73-83 | dispatch handles the options one after another, and handles none after an option whose exception escapes |
| BuildCli.DispatchStopsAtRaise | source/py/builder/__main__.py:73-83 | an option whose method raises anything but `AttributeError` is the last one acted on: dispatch does what it did before it, then that raise, then nothing |
| BuildCli.DispatchSelects | source/py/builder/__main__.py:73-83 | an option key is acted on exactly when some occurrence of it is not `func`, has a truthy value, and comes before every option whose method's exception escapes |
| BuildCli.DispatchCallsSetActions | source/py/builder/__main__.py:73-83 | dispatching the action flags calls the method of each set action in option order, up to and including the first whose exception escapes |
| BuildCli.DispatchCallsAllSetActions | source/py/builder/__main__.py:73-83 | when every action method returns, dispatch calls exactly the set actions, in order |
| BuildCli.Dispatch1IsFirstDispatched | source/py/builder/__main__.py:57-83 | `dispatch1` chooses nothing exactly when `dispatch` calls nothing, and otherwise chooses the action of `dispatch`'s first call, whatever the methods do |
| BuildCli.FirstRaiseEndsDispatch | source/py/builder/__main__.py:73-83 | when the first set action raises an escaping exception (a failed `download` assertion, say), that raise is all `dispatch` does, so `--download --build` never builds |
| BuildCli.DoPyAll | source/py/builder/__main__.py:100-104 | an exception escaping one builder's dispatch ends `do_py_all`, so only its last call can be such a raise |
| BuildCli.DoPyAllParts | source/py/builder/__main__.py:100-104 | `do_py_all` makes the framework dispatch's calls; the shared dispatch's only when the framework dispatch did not raise; the static dispatch's only when neither did; each tagged with its builder |
| BuildCli.DoPyAllOrder | source/py/builder/__main__.py:100-104 | every framework call comes before every shared call, and every shared call before every static call |

## Left out

- The CPython C API is not modelled. It is the `Oracle` parameter: parsing,
  evaluation, calls, imports and attribute lookup are its fields, and the
  properties hold for every interpreter.
- Reference counting, the GIL, `PyErr_Clear` and the `free_now` flag are
  not modelled. They decide memory and thread safety, not what goes out.
- Floating point is not modelled. Floats are an opaque type `F`, and the
  double-to-float narrowing on output is not modelled. mxpy's int-to-float
  cast is modelled on integers only (round to nearest, 24-bit significand).
- Logging, error text and the log buffer are not modelled. They are console
  output.
- The code editor, `read`, file dialogs, `dblclick`, `assist`, the macOS
  home-directory setup, the scheduler and clock, and table access are not
  modelled. They are host UI or host services outside the message
  handlers.
- File lookup is not modelled. `locate_path_from_symbol` is a `Host`
  parameter that returns an optional path. The stray `goto` in its error
  branch is not modelled.
- BoxBridge.Anything: does not model an overflow of the 128-slot argument
  array.
- BoxBridge.Anything: the uninitialised slot an atom of another type
  leaves in that array is modelled as the original atom.
- Zero atoms: `call`, `assign`, `eval` and `exec` with zero atoms read
  past the end of the atom vector. This is modelled as "the first atom is
  not a symbol".
- Object identity is modelled as natural numbers. This covers pipe and
  scan targets and send receivers, and the registry maps names to them.
  The host's unique-symbol spelling is abstracted as `Unique(n)`.
- `Settings.copy` is not modelled. Settings are values, so a copy is the
  settings themselves.
- The default Python version is a parameter, `defaultPy`. core.py does not
  define `PYTHON_VERSION_STRING`.
- BuildFactory.GetVersion: requires every setting to be a string. The
  factory passes settings values straight through as versions, and other
  types are not modelled.
- BuildFactory.PythonBuilderFactory: requires the same string-valued
  settings as GetVersion.
- BuildFactory.PythonBuilderFactory: a keyword collision between the
  settings and the builder's own arguments is not modelled.
- Templates are formatted only for the `{name}` and `{version}` fields.
  Path joins are modelled as string joins with `/`.
- factory.py lines 1-8 import `PYTHON_VERSION_STRING`,
  `StaticExtFullBuilder` and `StaticPythonFullBuilder` from core.py, which
  defines none of them, so importing the module raises `ImportError` before
  any of its functions exists. Every `BuildFactory` member models its
  function as if those imports resolved. `get_static_python_recipe` also
  uses a `Recipe` it never imports and is left out.
- `python_builder` on factory.py line 126 is undefined. It is modelled as
  the `NameError` it raises.
- `do_pyjs_*` and `do_test` are not modelled. They run shell commands and
  IPython.
- BuildCli.Dispatch: what each builder method does (return, raise
  `AttributeError`, raise something else) is a fixed input per method name.
  It does not depend on what earlier calls did to the file system, which is
  not modelled. Subclasses of `AttributeError`, which `dispatch` also
  catches, are not told apart from other exceptions. Constructing the
  builder is taken to succeed.
- The argparse/Commander machinery is not modelled. The parsed options are
  an input.
- File existence is a parameter, `present`.
- Lifecycle.New: does not model the `name` attribute, which
  `attr_args_process` applies after the `__main__`/unique choice. An object
  given `@name` takes that name and that globals module, so with the
  attribute the first object need not be `__main__` and two objects can
  share a name.
- Lifecycle.NewPreservesInv: its distinct-names part holds only for objects
  created without the `name` attribute.
- Lifecycle.ObjNameOwnStable: names are distinct only among objects created
  without the `name` attribute.
- Lifecycle.LastFreeResets: the next object is `__main__` only when it is
  created without the `name` attribute.
- Lifecycle.New: does not model the `autoload` attribute, which runs the
  stored file at creation, or the `pythonpath` attribute, which extends
  `sys.path`. Both are interpreter effects the oracle does not track.
- Conversion.StringOutput: a str is modelled as a sequence of Unicode
  scalar values with no NUL. The failure path for a str that
  `PyUnicode_AsUTF8` cannot encode (a lone surrogate) is not modelled, and
  neither is `gensym` cutting a symbol at an embedded NUL.
- Conversion.ItemsToAtoms: the same str limits apply to str elements of a
  list. The legacy and pyjs loops inherit them.
- Conversion.ListOutputCases: does not state the failure for a str element
  that cannot be encoded, for the same reason.
- The namespace is tracked only as what the handlers write into it
  (`assign`, `import`, `=`). The oracle does not read it back, so no
  property links `assign x 1` to a later `eval x`.
- The box external's own namespace writes are not modelled: the dict
  handler binds `__py_maxmsp_out_dict` and `pipe` binds `__py_maxmsp_pipe`
  in the object's globals.
- PyStr.Lower: maps only the ASCII capitals. Python's `str.lower` also
  folds other Unicode letters; product names are ASCII.
- The root `py.c`, `test_py.c`, `build.py`, `pyjs_homebrew.py` and the
  mamba variants are not part of this model.

## Findings

| source | as written | input that shows it | evidently intended | confidence | as-written member | corrected member |
|---|---|---|---|---|---|---|
| source/py/py.c:717-761 | `py_execfile` ignores a failed lookup of the new file name and runs whatever path is still stored | after running `a.py`, send `execfile missing.py` | report failure and run nothing, as the box external does | not executed | LegacyBridge.ExecFileRerunsStaleFile | BoxBridge.ExecFileRunsNamedFile |
| source/py/pyjs.c:665-706 | `pyjs_execfile` ignores a failed lookup of the new file name and runs whatever path is still stored, as the legacy external does | after running `a.py`, send `execfile missing.py` | report an error and run nothing | not executed | JsBridge.ExecFileRerunsStaleFile | BoxBridge.ExecFileRunsNamedFile |
| source/projects/py/py.c:147-175 | every object writes its name into the one shared builtins module, so each new object overwrites the name earlier objects read | create two objects, then read the builtins key `PY_OBJ_NAME` from the first | each object reads its own name | not executed | Lifecycle.SharedObjNameOverwritten | Lifecycle.ObjNameOwnStable |
| source/py/py.c:674-688 | when evaluation raises, legacy `eval` logs and returns without a failure bang | `eval 1/0` | send a failure bang as every other handler does | not executed | LegacyBridge.EvalFailureIsSilent | LegacyBridge.EvalWithFailureAnnounces |
| source/py/mxpy.c:42-61 | `t_atom_to_PyObject` has no case for long atoms and returns None | an mxpy message carrying the long atom 3 | a long atom becomes a Python int | not executed | MxBridge.AtomRoundTrip | MxBridge.AtomWithLongsRoundTrip |
| source/py/builder/factory.py:39-46 | `get_xz_product` hard-codes version 5.2.5 and ignores its `xz_version` argument | `get_xz_product("5.2.4")` | use the requested version | not executed | BuildFactory.XzVersionIgnored | BuildFactory.XzProductUsesVersion |
| source/py/builder/patch.py:32-144 | `_weakref` is bound twice; the second binding, with every mode flag 0, replaces the first, which has every flag 1 | `core()` looks up `_weakref` | the core module `_weakref` stays enabled | not executed | BuildPatch.CoreWeakrefIsRebound | BuildPatch.CoreIntendedEnabled |

=== FILE: box_bridge.dfy ===
/** The message handlers of the `py` box external
    (source/projects/py/py.c): each turns an incoming message into calls on
    the interpreter and a trace of outlet events. */
module BoxBridge {
  import opened Wrappers
  import opened PyValues
  import opened Interpreter
  import opened Conversion
  import PyStr
  import Pipeline

  /** The interpreter-side helper `__py_maxmsp_out_dict`: each key, then
      `":"`, then the value's elements when it is exactly a list, set or
      tuple, or else the value itself. */
  function FlattenDict(entries: seq<(PyVal, PyVal)>): (r: seq<PyVal>)
    ensures |r| >= 2 * |entries|
  {
    if |entries| == 0 then []
    else
      var v := entries[0].1;
      [entries[0].0, Str(":")] + (if v.List? || v.Set? || v.Tuple? then v.items else [v])
        + FlattenDict(entries[1..])
  }

  predicate IsContainer(v: PyVal) {
    v.List? || v.Set? || v.Tuple?
  }

  /** With no container values the flattened list is `k, ":", v` per entry. */
  lemma {:induction false} FlattenScalarDict(entries: seq<(PyVal, PyVal)>)
    requires forall i :: 0 <= i < |entries| ==> !IsContainer(entries[i].1)
    ensures |FlattenDict(entries)| == 3 * |entries|
    ensures forall i :: 0 <= i < |entries| ==>
      FlattenDict(entries)[3 * i] == entries[i].0 &&
      FlattenDict(entries)[3 * i + 1] == Str(":") &&
      FlattenDict(entries)[3 * i + 2] == entries[i].1
    decreases |entries|
  {
    if |entries| > 0 {
      FlattenScalarDict(entries[1..]);
      var head := [entries[0].0, Str(":"), entries[0].1];
      assert FlattenDict(entries) == head + FlattenDict(entries[1..]);
      forall i | 1 <= i < |entries|
        ensures FlattenDict(entries)[3 * i] == entries[i].0
        ensures FlattenDict(entries)[3 * i + 1] == Str(":")
        ensures FlattenDict(entries)[3 * i + 2] == entries[i].1
      {
        assert entries[1..][i - 1] == entries[i];
        assert FlattenDict(entries)[3 * i] == FlattenDict(entries[1..])[3 * (i - 1)];
        assert FlattenDict(entries)[3 * i + 1] == FlattenDict(entries[1..])[3 * (i - 1) + 1];
        assert FlattenDict(entries)[3 * i + 2] == FlattenDict(entries[1..])[3 * (i - 1) + 2];
      }
    }
  }

  /** py_handle_dict_output: the flattened list goes through the list
      handler, and a success bang follows whatever that handler sent. */
  function DictOutput(v: PyVal): Reply
    requires v.Dict?
  {
    Reply(ErrNone, ListOutput(List(FlattenDict(v.entries))).trace + [Success])
  }

  /** py_handle_output: the first handler whose type check holds. None and
      unsupported types only return an error code. */
  function Output(v: PyVal): Reply {
    if FloatCheck(v) then FloatOutput(v)
    else if LongCheck(v) then LongOutput(v)
    else if UnicodeCheck(v) then StringOutput(v)
    else if SequenceCheck(v) && !v.Bytes? && !v.ByteArray? then ListOutput(v)
    else if DictCheck(v) then DictOutput(v)
    else Reply(ErrGeneric, [])
  }

  /** The return code says whether the last event was a success bang. */
  lemma OutputCodeMeansSuccessLast(v: PyVal)
    ensures Output(v).code == ErrNone <==>
      |Output(v).trace| > 0 && Output(v).trace[|Output(v).trace| - 1] == Success
  {
  }

  /** Only None, set, bytes, bytearray and other objects produce no event at
      all; every other result produces at least one bang. */
  lemma OutputSilentIff(v: PyVal)
    ensures Output(v).trace == [] <==>
      v.PyNone? || v.Set? || v.Bytes? || v.ByteArray? || v.Opaque?
  {
    if v.List? || v.Tuple? {
      ListOutputCases(v);
    }
  }

  /** Every output is at most one value message, always followed by a
      success bang, and failure bangs only ever come first. */
  lemma OutputShape(v: PyVal)
    ensures Values(Output(v).trace) <= 1
    ensures ValueThenSuccess(Output(v).trace)
    ensures forall i :: 0 < i < |Output(v).trace| ==> Output(v).trace[i] != Failure
  {
    var t := Output(v).trace;
    if v.Dict? {
      ListOutputCases(List(FlattenDict(v.entries)));
    } else if v.List? || v.Tuple? {
      ListOutputCases(v);
    }
    assert t == [] || t == [Failure] || t == [Failure, Success] ||
      (|t| == 2 && t[0].Value? && t[1] == Success) ||
      (|t| == 3 && t[0].Value? && t[1] == Success && t[2] == Success);
    if |t| > 0 {
      assert Values(t) == (if t[0].Value? then 1 else 0) + Values(t[1..]);
      if |t| > 1 {
        assert Values(t[1..]) == Values(t[2..]);
        if |t| > 2 {
          assert Values(t[2..]) == Values(t[3..]);
        }
      }
    }
  }

  /** A convertible scalar and the one-element list holding it send the same
      messages. */
  lemma ScalarLikeSingletonList(v: PyVal)
    requires Convertible(v) && !Overflows(v)
    ensures Output(v) == Output(List([v]))
    ensures Output(v) == Output(Tuple([v]))
  {
    assert [v][1..] == [];
    var a := LongFirstItem(v).a;
    assert ItemsToAtoms([v]) == Some([a] + []);
    assert [a] + [] == [a];
  }

  /** Keys and values are all convertible scalars that fit their atoms. */
  predicate ScalarEntries(entries: seq<(PyVal, PyVal)>) {
    forall i :: 0 <= i < |entries| ==>
      !IsContainer(entries[i].1) &&
      Convertible(entries[i].0) && !Overflows(entries[i].0) &&
      Convertible(entries[i].1) && !Overflows(entries[i].1)
  }

  /** An empty dict sends a failure bang and then a success bang, and still
      returns success; a dict with scalar values sends `k : v ...` as one list. */
  lemma DictOutputCases(entries: seq<(PyVal, PyVal)>)
    ensures |entries| == 0 ==> Output(Dict(entries)) == Reply(ErrNone, [Failure, Success])
    ensures |entries| > 0 && ScalarEntries(entries) ==>
      Output(Dict(entries)).code == ErrNone &&
      |Output(Dict(entries)).trace| == 3 &&
      Output(Dict(entries)).trace[0].Value? &&
      |Output(Dict(entries)).trace[0].atoms| == 3 * |entries| &&
      Output(Dict(entries)).trace[1..] == [Success, Success]
  {
    if |entries| > 0 && ScalarEntries(entries) {
      var flat := FlattenDict(entries);
      FlattenScalarDict(entries);
      forall j | 0 <= j < |flat|
        ensures Convertible(flat[j]) && !Overflows(flat[j])
      {
        var i := j / 3;
        assert j == 3 * i || j == 3 * i + 1 || j == 3 * i + 2;
      }
      AllConvertibleCount(flat);
      ListOutputCases(List(flat));
    }
  }

  lemma {:induction false} AllConvertibleCount(items: seq<PyVal>)
    requires forall i :: 0 <= i < |items| ==> Convertible(items[i])
    ensures CountConvertible(items) == |items|
    decreases |items|
  {
    if |items| > 0 {
      AllConvertibleCount(items[1..]);
    }
  }

  /** py_eval: the first atom's symbol as an expression. */
  function Eval(o: Oracle, args: seq<Atom>): (r: Reply)
    ensures r.code == ErrNone <==> o.run(FirstSym(args), EvalInput).Ok?
    ensures o.run(FirstSym(args), EvalInput).Err? ==> r == Reply(ErrGeneric, [Failure])
    ensures o.run(FirstSym(args), EvalInput).Ok? ==> r.trace == Output(o.run(FirstSym(args), EvalInput).value).trace
  {
    match o.run(FirstSym(args), EvalInput)
    case Ok(v) => Reply(ErrNone, Output(v).trace)
    case Err(_) => Reply(ErrGeneric, [Failure])
  }

  /** py_exec: the first atom's symbol as one statement. */
  function Exec(o: Oracle, args: seq<Atom>): (r: Reply)
    ensures r.trace == [Success] || r.trace == [Failure]
    ensures r.code == ErrNone <==> o.run(FirstSym(args), SingleInput).Ok?
  {
    if o.run(FirstSym(args), SingleInput).Ok? then Reply(ErrNone, [Success])
    else Reply(ErrGeneric, [Failure])
  }

  /** py_execfile: locate the named file, remember its path, and run it.
      Returns the object's remembered path (p_code_filepath) with the reply. */
  function ExecFile(o: Oracle, h: Host, filepath: string, s: string): (r: (string, Reply))
    ensures r.1.trace == [Success] || r.1.trace == [Failure]
    ensures h.locate(s).None? ==> r.0 == filepath
  {
    if s == "" then (filepath, Reply(ErrGeneric, [Failure]))
    else match h.locate(s)
      case None => (filepath, Reply(ErrGeneric, [Failure]))
      case Some(p) =>
        if p == "" then (p, Reply(ErrGeneric, [Failure]))
        else match h.contents(p)
          case None => (p, Reply(ErrGeneric, [Failure]))
          case Some(text) =>
            if o.run(text, FileInput).Ok? then (p, Reply(ErrNone, [Success]))
            else (p, Reply(ErrGeneric, [Failure]))
  }

  /** `execfile` succeeds exactly when the file the symbol names is found,
      opens, and runs; what runs is always that file, never one named
      earlier. */
  lemma ExecFileRunsNamedFile(o: Oracle, h: Host, filepath: string, s: string)
    ensures ExecFile(o, h, filepath, s).1.code == ErrNone <==>
      s != "" && h.locate(s).Some? && h.locate(s).value != "" &&
      h.contents(h.locate(s).value).Some? &&
      o.run(h.contents(h.locate(s).value).value, FileInput).Ok?
    ensures ExecFile(o, h, filepath, s).1.code == ErrNone ==> ExecFile(o, h, filepath, s).0 == h.locate(s).value
  {
  }

  /** py_load: read the file into the editor (not modelled), then execfile. */
  function Load(o: Oracle, h: Host, filepath: string, s: string): (r: (string, Reply))
    ensures r.1.code == ErrNone ==> s != "" && h.locate(s).Some?
  {
    ExecFile(o, h, filepath, s)
  }

  /** A handler's effect on the object's globals together with its reply. */
  datatype Step = Step(ns: Namespace, reply: Reply)

  /** py_import: binds the module under its own name; the empty symbol does
      nothing at all. */
  function Import(o: Oracle, ns: Namespace, s: string): (r: Step)
    ensures s == "" ==> r == Step(ns, Reply(ErrNone, []))
    ensures r.reply.code == ErrNone && s != "" <==> s != "" && o.importModule(s).Ok?
    ensures r.reply.code == ErrNone && s != "" ==> r.ns == ns[s := o.importModule(s).value] && r.reply.trace == [Success]
    ensures r.reply.code == ErrGeneric ==> r.ns == ns && r.reply.trace == [Failure]
  {
    if s == "" then Step(ns, Reply(ErrNone, []))
    else match o.importModule(s)
      case Ok(m) => Step(ns[s := m], Reply(ErrNone, [Success]))
      case Err(_) => Step(ns, Reply(ErrGeneric, [Failure]))
  }

  /** The trailing atoms of a message, from index 1 on. */
  function Rest(args: seq<Atom>): seq<Atom> {
    if |args| == 0 then [] else args[1..]
  }

  /** py_call: evaluate the first symbol to a callable and call it with the
      remaining atoms as positional arguments; when that raises TypeError,
      call it once more with the list of arguments as its only argument.
      Any result is sent through py_handle_output and then a success bang. */
  function Call(o: Oracle, args: seq<Atom>): (r: Reply)
    ensures r.code == ErrGeneric ==> r.trace == [Failure]
    ensures r.code == ErrNone ==> |r.trace| > 0 && r.trace[|r.trace| - 1] == Success
  {
    if |args| == 0 || !args[0].ASym? then Reply(ErrGeneric, [Failure])
    else match o.run(args[0].s, EvalInput)
      case Err(_) => Reply(ErrGeneric, [Failure])
      case Ok(f) =>
        var items := AtomsToItems(args[1..]);
        var res := match o.call(f, items)
          case Err(TypeError) => o.call(f, [List(items)])
          case other => other;
        match res
        case Err(_) => Reply(ErrGeneric, [Failure])
        case Ok(v) => Reply(ErrNone, Output(v).trace + [Success])
  }

  /** Calling a function that returns its positional arguments as a list
      sends the message's trailing atoms back out, then two success bangs. */
  lemma CallEchoesArguments(o: Oracle, name: string, f: PyVal, args: seq<Atom>)
    requires o.run(name, EvalInput) == Ok(f)
    requires forall xs :: o.call(f, xs) == Ok(List(xs))
    requires forall i :: 0 <= i < |args| ==> HostAtom(args[i])
    requires |Kept(args)| > 0
    ensures Call(o, [ASym(name)] + args) == Reply(ErrNone, [Value(Kept(args)), Success, Success])
  {
    assert ([ASym(name)] + args)[1..] == args;
    var items := AtomsToItems(args);
    AtomsRoundTrip(args);
    assert |items| > 0;
    assert o.call(f, items) == Ok(List(items));
    assert Output(List(items)) == ListOutput(List(items));
    assert ListOutput(List(items)) == Reply(ErrNone, [Value(Kept(args)), Success]);
  }

  /** A function that rejects positional arguments with TypeError is called
      again with the argument list, and that second call decides the reply. */
  lemma CallRetriesWithList(o: Oracle, name: string, f: PyVal, args: seq<Atom>)
    requires o.run(name, EvalInput) == Ok(f)
    requires o.call(f, AtomsToItems(args)) == Err(TypeError)
    ensures Call(o, [ASym(name)] + args) ==
      match o.call(f, [List(AtomsToItems(args))])
      case Ok(v) => Reply(ErrNone, Output(v).trace + [Success])
      case Err(_) => Reply(ErrGeneric, [Failure])
  {
    assert ([ASym(name)] + args)[1..] == args;
  }

  /** py_assign: binds the first symbol to the list of the trailing atoms;
      refused when any trailing atom has a tag other than long, float or
      symbol. */
  function Assign(ns: Namespace, args: seq<Atom>): Step {
    if |args| == 0 || !args[0].ASym? then Step(ns, Reply(ErrGeneric, [Failure]))
    else
      var items := AtomsToItems(args[1..]);
      if |items| != |args| - 1 then Step(ns, Reply(ErrGeneric, [Failure]))
      else Step(ns[args[0].s := List(items)], Reply(ErrNone, [Success]))
  }

  /** The assignment succeeds exactly for a symbol followed by translatable
      atoms; it binds only that name, and the bound list, sent back out,
      is the assigned atoms. */
  lemma AssignSpec(ns: Namespace, args: seq<Atom>)
    requires forall i :: 0 <= i < |args| ==> HostAtom(args[i])
    ensures var r := Assign(ns, args);
      (r.reply.code == ErrNone <==>
        |args| > 0 && args[0].ASym? && forall i :: 1 <= i < |args| ==> Translatable(args[i]))
    ensures var r := Assign(ns, args);
      r.reply.code == ErrGeneric ==> r.ns == ns && r.reply.trace == [Failure]
    ensures var r := Assign(ns, args);
      r.reply.code == ErrNone ==>
        r.reply.trace == [Success] &&
        args[0].s in r.ns &&
        (forall k :: k in ns && k != args[0].s ==> k in r.ns && r.ns[k] == ns[k]) &&
        (|args| > 1 ==> ListOutput(r.ns[args[0].s]) == Reply(ErrNone, [Value(args[1..]), Success]))
  {
    if |args| > 0 && args[0].ASym? {
      var rest := args[1..];
      assert forall i :: 1 <= i < |args| ==> rest[i - 1] == args[i];
      if |args| > 1 && |AtomsToItems(rest)| == |rest| {
        ListOfAtomsRoundTrip(rest);
      }
    }
  }

  /** py_eval_text: the atoms as source text, compiled as an expression, or
      as a statement when that is a syntax error. An expression's value goes
      to py_handle_output; a statement only sends a success bang. */
  function EvalText(o: Oracle, atoms: seq<Atom>): (r: Reply)
    ensures r.code == ErrGeneric ==> r.trace == [Failure]
  {
    var text := o.gettext(atoms);
    if text == "" then Reply(ErrGeneric, [Failure])
    else
      var mode := if o.compile(text, EvalInput) == Some(SyntaxError) then SingleInput else EvalInput;
      if o.compile(text, mode).Some? then Reply(ErrGeneric, [Failure])
      else match o.run(text, mode)
        case Err(_) => Reply(ErrGeneric, [Failure])
        case Ok(v) => if mode == SingleInput then Reply(ErrNone, [Success]) else Reply(ErrNone, Output(v).trace)
  }

  /** py_code */
  function Code(o: Oracle, args: seq<Atom>): Reply {
    EvalText(o, args)
  }

  /** A message that is not an expression runs as a statement and answers
      with exactly one success bang. */
  lemma StatementFallback(o: Oracle, args: seq<Atom>)
    requires o.gettext(args) != ""
    requires o.compile(o.gettext(args), EvalInput) == Some(SyntaxError)
    requires o.compile(o.gettext(args), SingleInput).None?
    requires o.run(o.gettext(args), SingleInput).Ok?
    ensures Code(o, args) == Reply(ErrNone, [Success])
  {
  }

  /** `code e` and `eval e` agree on a single symbol that is an expression. */
  lemma CodeAgreesWithEval(o: Oracle, e: string)
    requires e != "" && o.gettext([ASym(e)]) == e
    requires o.compile(e, EvalInput).None?
    ensures Code(o, [ASym(e)]).trace == Eval(o, [ASym(e)]).trace
  {
  }

  /** py_anything: an unknown selector. `=` is shorthand for `assign`; any
      other selector is evaluated, with its arguments, as source text. */
  function Anything(o: Oracle, ns: Namespace, sel: string, args: seq<Atom>): (r: Step)
    ensures sel == "" ==> r == Step(ns, Reply(ErrGeneric, []))
    ensures sel != "=" ==> r.ns == ns
  {
    if sel == "" then Step(ns, Reply(ErrGeneric, []))
    else if sel == "=" then
      var a := Assign(ns, args);
      Step(a.ns, Reply(ErrNone, a.reply.trace))
    else Step(ns, EvalText(o, [ASym(sel)] + args))
  }

  /** `= name atoms...` assigns like `assign name atoms...`, but always
      returns success; any other selector is `code` on the whole message. */
  lemma AnythingDelegates(o: Oracle, ns: Namespace, sel: string, args: seq<Atom>)
    ensures sel == "=" ==>
      Anything(o, ns, sel, args).ns == Assign(ns, args).ns &&
      Anything(o, ns, sel, args).reply.trace == Assign(ns, args).reply.trace &&
      Anything(o, ns, sel, args).reply.code == ErrNone
    ensures sel != "" && sel != "=" ==> Anything(o, ns, sel, args).reply == Code(o, [ASym(sel)] + args)
  {
  }

  /** py_pipe: the message as text, piped by `__py_maxmsp_pipe`. A str
      result is sent as a selector and banged twice; any other result goes
      through py_handle_output and is banged once more. */
  function Pipe(o: Oracle, args: seq<Atom>): (r: Reply)
    ensures r.code == ErrGeneric ==> r.trace == [Failure]
    ensures r.code == ErrNone ==> |r.trace| > 0 && r.trace[|r.trace| - 1] == Success
  {
    var text := o.gettext(args);
    if text == "" then Reply(ErrGeneric, [Failure])
    else match Pipeline.Pipe2(o, text)
      case Err(_) => Reply(ErrGeneric, [Failure])
      case Ok(Str(s)) => Reply(ErrNone, [Value([ASym(s)]), Success, Success])
      case Ok(v) => Reply(ErrNone, Output(v).trace + [Success])
  }

  /** The box's pipe message evaluates its first word and applies the
      functions named by the others, left to right. */
  lemma PipeAppliesWords(o: Oracle, args: seq<Atom>, words: seq<string>, x: PyVal, fs: seq<PyVal>)
    requires |words| > 0 && forall w :: w in words ==> |w| > 0 && PyStr.NoSpace(w)
    requires o.gettext(args) == PyStr.Join(words, " ")
    requires o.run(words[0], EvalInput) == Ok(x)
    requires Pipeline.EvalAll(o, words[1..]) == Ok(fs)
    ensures Pipe(o, args).code == ErrNone <==> Pipeline.Pipe(o, x, fs).Ok?
    ensures Pipeline.Pipe(o, x, fs).Ok? && !Pipeline.Pipe(o, x, fs).value.Str? ==>
      Pipe(o, args).trace == Output(Pipeline.Pipe(o, x, fs).value).trace + [Success]
  {
    PyStr.SplitWsJoin(words);
    assert PyStr.Join(words, " ") != "" by {
      JoinNonEmpty(words);
    }
    assert Pipeline.Pipe2(o, o.gettext(args)) == Pipeline.Pipe2Words(o, words);
    assert Pipeline.Pipe2Words(o, words) == Pipeline.Pipe(o, x, fs);
  }

  lemma JoinNonEmpty(words: seq<string>)
    requires |words| > 0 && |words[0]| > 0
    ensures |PyStr.Join(words, " ")| > 0
  {
  }

  /** An object in the patcher: its scripting name and identity. */
  datatype PatchBox = PatchBox(varname: string, obj: nat)

  /** The shared name-to-object registry. */
  type Registry = map<string, nat>

  /** py_scan_callback over the patcher's boxes in iteration order: every
      box with a non-empty scripting name is stored, a later box replacing an
      earlier one of the same name. */
  function ScanBoxes(boxes: seq<PatchBox>): (r: Registry)
    ensures forall name :: name in r ==> name != ""
    decreases |boxes|
  {
    if |boxes| == 0 then map[]
    else
      var m := ScanBoxes(boxes[..|boxes| - 1]);
      var b := boxes[|boxes| - 1];
      if b.varname != "" then m[b.varname := b.obj] else m
  }

  /** py_scan: the registry is cleared, then refilled from the patcher if the
      object has one. */
  function Scan(patcher: Option<seq<PatchBox>>): Registry {
    match patcher case None => map[] case Some(boxes) => ScanBoxes(boxes)
  }

  /** The index of the last box named `name`, or -1 when there is none. */
  function LastNamed(boxes: seq<PatchBox>, name: string): (k: int)
    ensures -1 <= k < |boxes|
    ensures k >= 0 ==> boxes[k].varname == name
    ensures forall j :: k < j < |boxes| ==> boxes[j].varname != name
    decreases |boxes|
  {
    if |boxes| == 0 then -1
    else if boxes[|boxes| - 1].varname == name then |boxes| - 1
    else LastNamed(boxes[..|boxes| - 1], name)
  }

  /** After a scan a name maps to the last box that carries it, and to
      nothing when no box carries it. */
  lemma {:induction false} ScanFindsLastBox(boxes: seq<PatchBox>, name: string)
    requires name != ""
    ensures name in ScanBoxes(boxes) <==> LastNamed(boxes, name) >= 0
    ensures name in ScanBoxes(boxes) ==> ScanBoxes(boxes)[name] == boxes[LastNamed(boxes, name)].obj
    decreases |boxes|
  {
    if |boxes| > 0 {
      var init := boxes[..|boxes| - 1];
      ScanFindsLastBox(init, name);
      if boxes[|boxes| - 1].varname != name {
        var k := LastNamed(init, name);
        assert k >= 0 ==> init[k] == boxes[k];
      }
    }
  }

  /** A message handed to object_method_typed; `selector` is None when the
      second atom has a tag the handler does not know. */
  datatype Delivery = Delivery(obj: nat, selector: Option<string>, args: seq<Atom>)

  datatype SendResult = SendResult(registry: Registry, code: Code, delivered: Option<Delivery>)

  /** The message `send` builds from the atoms after the receiver's name:
      a symbol is the selector, a float or an int is sent as a `float` or
      `int` message. */
  function SendMessage(obj: nat, args: seq<Atom>): Delivery
    requires |args| >= 2
  {
    match args[1]
    case ASym(s) => Delivery(obj, Some(s), args[2..])
    case AFloat(_) => Delivery(obj, Some("float"), args[1..])
    case ALong(_) => Delivery(obj, Some("int"), args[1..])
    case _ => Delivery(obj, None, args)
  }

  /** py_send: look the receiver up in the registry (scanning first when the
      registry is empty) and forward the message; `accepts` is whether the
      receiver's method reports no error. No bangs are sent. */
  function Send(reg: Registry, patcher: Option<seq<PatchBox>>, accepts: Delivery -> bool,
                args: seq<Atom>): (r: SendResult)
    ensures |reg| > 0 ==> r.registry == reg
    ensures r.code == ErrNone ==> r.delivered.Some?
    ensures r.delivered.Some? ==>
      (|args| >= 2 && args[0].ASym? &&
       args[0].s in r.registry && r.delivered.value.obj == r.registry[args[0].s])
  {
    if |args| < 2 || !args[0].ASym? then SendResult(reg, ErrGeneric, None)
    else
      var reg' := if |reg| == 0 then Scan(patcher) else reg;
      var name := args[0].s;
      if name !in reg' then SendResult(reg', ErrGeneric, None)
      else
        var d := SendMessage(reg'[name], args);
        SendResult(reg', if accepts(d) then ErrNone else ErrGeneric, Some(d))
  }

  /** `send name sel a b` reaches the named object as `sel a b`, and a
      number in second place becomes an `int` or `float` message. */
  lemma SendReachesNamedObject(reg: Registry, patcher: Option<seq<PatchBox>>,
                               accepts: Delivery -> bool, name: string, second: Atom, rest: seq<Atom>)
    requires name in reg
    ensures var r := Send(reg, patcher, accepts, [ASym(name), second] + rest);
      r.delivered.Some? && r.delivered.value.obj == reg[name] && r.registry == reg &&
      (second.ASym? ==> r.delivered.value.selector == Some(second.s) && r.delivered.value.args == rest) &&
      (second.ALong? ==> r.delivered.value.selector == Some("int") && r.delivered.value.args == [second] + rest) &&
      (second.AFloat? ==> r.delivered.value.selector == Some("float") && r.delivered.value.args == [second] + rest)
  {
    var args := [ASym(name), second] + rest;
    assert |reg| > 0 by {
      assert name in reg;
    }
    assert args[2..] == rest && args[1..] == [second] + rest;
  }

  /** An empty registry is filled by a scan before the lookup. */
  lemma SendScansEmptyRegistry(patcher: Option<seq<PatchBox>>, accepts: Delivery -> bool, args: seq<Atom>)
    requires |args| >= 2 && args[0].ASym?
    ensures Send(map[], patcher, accepts, args).registry == Scan(patcher)
    ensures Send(map[], patcher, accepts, args).delivered.Some? <==> args[0].s in Scan(patcher)
  {
  }
}

=== FILE: build_cli.dfy ===
/** The builder's command line: `dispatch1` runs the single highest-priority
    action flag, `dispatch` calls the method of every set flag in argument
    order, and `do_py_all` dispatches the three Python builders in turn. */
module BuildCli {
  import opened Wrappers
  import opened BuildCore

  /** The common action options, `-d -r -i -b -c -z`. */
  datatype Action = Download | Reset | Install | Build | Clean | Ziplib

  /** The position of an action in `dispatch1`'s `if`/`elif` chain. */
  function Rank(a: Action): nat {
    match a
    case Download => 0
    case Reset => 1
    case Install => 2
    case Build => 3
    case Clean => 4
    case Ziplib => 5
  }

  /** The parsed store-true flags. */
  datatype Flags = Flags(download: bool, reset: bool, install: bool, build: bool, clean: bool, ziplib: bool)

  predicate IsSet(f: Flags, a: Action) {
    match a
    case Download => f.download
    case Reset => f.reset
    case Install => f.install
    case Build => f.build
    case Clean => f.clean
    case Ziplib => f.ziplib
  }

  /** `dispatch1`: the action it runs, if any. */
  function Dispatch1(f: Flags): (r: Option<Action>)
    ensures r.Some? ==> IsSet(f, r.value)
    ensures r.Some? ==> forall a: Action :: Rank(a) < Rank(r.value) ==> !IsSet(f, a)
  {
    if f.download then Some(Download)
    else if f.reset then Some(Reset)
    else if f.install then Some(Install)
    else if f.build then Some(Build)
    else if f.clean then Some(Clean)
    else if f.ziplib then Some(Ziplib)
    else None
  }

  /** `dispatch1` does nothing exactly when no flag is set. */
  lemma Dispatch1NoneIffNoFlag(f: Flags)
    ensures Dispatch1(f).None? <==> forall a: Action :: !IsSet(f, a)
  {
    if Dispatch1(f).Some? {
      assert IsSet(f, Dispatch1(f).value);
    } else {
      forall a: Action ensures !IsSet(f, a) {
        match a
        case Download =>
        case Reset =>
        case Install =>
        case Build =>
        case Clean =>
        case Ziplib =>
      }
    }
  }

  /** The attribute name of an action's option and of its builder method. */
  function Name(a: Action): string {
    match a
    case Download => "download"
    case Reset => "reset"
    case Install => "install"
    case Build => "build"
    case Clean => "clean"
    case Ziplib => "ziplib"
  }

  /** The exceptions `dispatch` tells apart: it catches `AttributeError` and
      lets every other exception escape. */
  datatype Exc = AttributeError | OtherError(name: string)

  /** What looking an option's name up on a builder and calling it does: the
      builder has no such attribute, or the call returns, or it raises. */
  datatype Outcome = Missing | Returns | Raises(exc: Exc)

  /** An exception raised by the call for `k` that `dispatch` does not catch. */
  predicate Escapes(b: string -> Outcome, k: string) {
    b(k).Raises? && b(k).exc != AttributeError
  }

  /** What `dispatch` does with one set flag: the method returned; or the
      lookup or the call raised `AttributeError` and "has no method" is
      printed; or the call raised another exception, which ends `dispatch`. */
  datatype Call = Called(key: string) | NoMethod(key: string) | Raised(key: string, exc: Exc)

  /** A run of calls that ended in an exception `dispatch` does not catch. */
  predicate Aborted(calls: seq<Call>) {
    |calls| > 0 && calls[|calls| - 1].Raised?
  }

  /** The call `dispatch` makes for key `k` on a builder whose attributes
      behave as `b`. */
  function CallOf(b: string -> Outcome, k: string): Call {
    match b(k)
    case Missing => NoMethod(k)
    case Returns => Called(k)
    case Raises(e) => if e == AttributeError then NoMethod(k) else Raised(k, e)
  }

  /** An option `dispatch` acts on: not `func`, with a truthy value. */
  predicate Selected(arg: (string, SVal)) {
    arg.0 != "func" && Truthy(arg.1)
  }

  /** `dispatch(builder_class, args)`: `args` is `vars(args)` in order, and
      `b` says what each of the builder's attributes does when called. An
      exception other than `AttributeError` ends the loop and is the last call. */
  function Dispatch(b: string -> Outcome, args: seq<(string, SVal)>): (r: seq<Call>)
    ensures |r| <= |args|
    ensures forall i :: 0 <= i < |r| ==> r[i].key != "func"
    ensures forall i :: 0 <= i < |r| ==> (r[i].Called? <==> b(r[i].key) == Returns)
    ensures forall i :: 0 <= i < |r| ==>
              (r[i].NoMethod? <==> b(r[i].key) == Missing || b(r[i].key) == Raises(AttributeError))
    ensures forall i :: 0 <= i < |r| ==> (r[i].Raised? <==> Escapes(b, r[i].key))
    ensures forall i :: 0 <= i < |r| && r[i].Raised? ==> r[i].exc == b(r[i].key).exc
    ensures forall i :: 0 <= i < |r| - 1 ==> !r[i].Raised?
    decreases |args|
  {
    if |args| == 0 then []
    else
      var head := DispatchOne(b, args[0]);
      if Aborted(head) then head else head + Dispatch(b, args[1..])
  }

  /** One turn of `dispatch`'s loop. */
  function DispatchOne(b: string -> Outcome, arg: (string, SVal)): seq<Call> {
    if Selected(arg) then [CallOf(b, arg.0)] else []
  }

  lemma DispatchCons(b: string -> Outcome, arg: (string, SVal), rest: seq<(string, SVal)>)
    ensures Dispatch(b, [arg] + rest)
            == if Aborted(DispatchOne(b, arg)) then DispatchOne(b, arg) else DispatchOne(b, arg) + Dispatch(b, rest)
  {
    assert ([arg] + rest)[1..] == rest;
  }

  lemma AbortedAppend(h: seq<Call>, x: seq<Call>)
    requires !Aborted(h)
    ensures Aborted(h + x) <==> Aborted(x)
  {
    if |x| > 0 {
      assert (h + x)[|h + x| - 1] == x[|x| - 1];
    } else {
      assert h + x == h;
    }
  }

  /** Dispatching a concatenation dispatches the second part only when the
      first did not end in an escaping exception. */
  lemma {:induction false} DispatchAppend(b: string -> Outcome, a: seq<(string, SVal)>, c: seq<(string, SVal)>)
    ensures Dispatch(b, a + c)
            == if Aborted(Dispatch(b, a)) then Dispatch(b, a) else Dispatch(b, a) + Dispatch(b, c)
    decreases |a|
  {
    if |a| == 0 {
      assert a + c == c;
    } else {
      var head := DispatchOne(b, a[0]);
      assert (a + c)[0] == a[0] && (a + c)[1..] == a[1..] + c;
      if !Aborted(head) {
        DispatchAppend(b, a[1..], c);
        AbortedAppend(head, Dispatch(b, a[1..]));
      }
    }
  }

  /** An option whose call raises an escaping exception is the last one
      `dispatch` acts on: no later option is looked at. */
  lemma DispatchStopsAtRaise(b: string -> Outcome, args: seq<(string, SVal)>, i: nat)
    requires i < |args| && Selected(args[i]) && Escapes(b, args[i].0)
    ensures var before := Dispatch(b, args[..i]);
      Dispatch(b, args) == if Aborted(before) then before else before + [Raised(args[i].0, b(args[i].0).exc)]
  {
    assert args == args[..i] + args[i..];
    DispatchAtRaise(b, args[..i], args[i..]);
  }

  lemma DispatchAtRaise(b: string -> Outcome, pre: seq<(string, SVal)>, rest: seq<(string, SVal)>)
    requires |rest| > 0 && Selected(rest[0]) && Escapes(b, rest[0].0)
    ensures var before := Dispatch(b, pre);
      Dispatch(b, pre + rest) == if Aborted(before) then before else before + [Raised(rest[0].0, b(rest[0].0).exc)]
  {
    DispatchAppend(b, pre, rest);
    assert DispatchOne(b, rest[0]) == [Raised(rest[0].0, b(rest[0].0).exc)];
  }

  /** The keys `dispatch` acts on. */
  function Keys(calls: seq<Call>): (ks: seq<string>)
    ensures |ks| == |calls| && forall i :: 0 <= i < |calls| ==> ks[i] == calls[i].key
  {
    seq(|calls|, i requires 0 <= i < |calls| => calls[i].key)
  }

  /** `dispatch` gets as far as option `i`: no option before it that
      `dispatch` acts on raises an exception that escapes. */
  predicate Reaches(b: string -> Outcome, args: seq<(string, SVal)>, i: nat)
    requires i <= |args|
  {
    forall j :: 0 <= j < i && Selected(args[j]) ==> !Escapes(b, args[j].0)
  }

  /** A key is acted on exactly when some occurrence of it is not `func`, has
      a truthy value, and is reached before any escaping exception. */
  lemma {:induction false} DispatchSelects(b: string -> Outcome, args: seq<(string, SVal)>, k: string)
    ensures k in Keys(Dispatch(b, args))
            <==> exists i :: 0 <= i < |args| && args[i].0 == k && Selected(args[i]) && Reaches(b, args, i)
    decreases |args|
  {
    if |args| > 0 {
      DispatchKeysStep(b, args, k);
      DispatchOneKeys(b, args[0], k);
      if Aborted(DispatchOne(b, args[0])) {
        FirstRaiseSelectsFirst(b, args, k);
      } else {
        DispatchSelects(b, args[1..], k);
        SelectsShift(b, args, k);
      }
    }
  }

  lemma DispatchKeysStep(b: string -> Outcome, args: seq<(string, SVal)>, k: string)
    requires |args| > 0
    ensures var head := DispatchOne(b, args[0]);
      k in Keys(Dispatch(b, args))
      <==> k in Keys(head) || (!Aborted(head) && k in Keys(Dispatch(b, args[1..])))
  {
    var head := DispatchOne(b, args[0]);
    if !Aborted(head) {
      var rest := Dispatch(b, args[1..]);
      assert Keys(head + rest) == Keys(head) + Keys(rest);
    }
  }

  /** When the first option raises an escaping exception, it is the only one
      reached. */
  lemma FirstRaiseSelectsFirst(b: string -> Outcome, args: seq<(string, SVal)>, k: string)
    requires |args| > 0 && Selected(args[0]) && Escapes(b, args[0].0)
    ensures (exists i :: 0 <= i < |args| && args[i].0 == k && Selected(args[i]) && Reaches(b, args, i))
            <==> args[0].0 == k
  {
    assert Reaches(b, args, 0);
    forall i | 0 < i < |args| ensures !Reaches(b, args, i) {
      assert 0 < i && Selected(args[0]) && Escapes(b, args[0].0);
    }
  }

  /** When the first option does not end `dispatch`, the options reached
      after it are those reached by dispatching the rest. */
  lemma SelectsShift(b: string -> Outcome, args: seq<(string, SVal)>, k: string)
    requires |args| > 0 && !(Selected(args[0]) && Escapes(b, args[0].0))
    ensures var tail := args[1..];
      (exists i :: 0 <= i < |args| && args[i].0 == k && Selected(args[i]) && Reaches(b, args, i))
      <==> (args[0].0 == k && Selected(args[0]))
           || (exists i :: 0 <= i < |tail| && tail[i].0 == k && Selected(tail[i]) && Reaches(b, tail, i))
  {
    var tail := args[1..];
    assert Reaches(b, args, 0);
    if exists i :: 0 <= i < |args| && args[i].0 == k && Selected(args[i]) && Reaches(b, args, i) {
      var i :| 0 <= i < |args| && args[i].0 == k && Selected(args[i]) && Reaches(b, args, i);
      if i > 0 {
        assert tail[i - 1] == args[i];
        ReachesShift(b, args, i);
      }
    }
    if exists i :: 0 <= i < |tail| && tail[i].0 == k && Selected(tail[i]) && Reaches(b, tail, i) {
      var i :| 0 <= i < |tail| && tail[i].0 == k && Selected(tail[i]) && Reaches(b, tail, i);
      assert args[i + 1] == tail[i];
      ReachesShift(b, args, i + 1);
    }
  }

  lemma ReachesShift(b: string -> Outcome, args: seq<(string, SVal)>, i: nat)
    requires 1 <= i <= |args| && !(Selected(args[0]) && Escapes(b, args[0].0))
    ensures Reaches(b, args, i) <==> Reaches(b, args[1..], i - 1)
  {
    var tail := args[1..];
    if Reaches(b, args, i) {
      forall j | 0 <= j < i - 1 && Selected(tail[j]) ensures !Escapes(b, tail[j].0) {
        assert tail[j] == args[j + 1];
      }
    }
    if Reaches(b, tail, i - 1) {
      forall j | 0 <= j < i && Selected(args[j]) ensures !Escapes(b, args[j].0) {
        if j > 0 {
          assert args[j] == tail[j - 1];
        }
      }
    }
  }

  lemma DispatchOneKeys(b: string -> Outcome, arg: (string, SVal), k: string)
    ensures k in Keys(DispatchOne(b, arg)) <==> arg.0 == k && Selected(arg)
  {
    var d := DispatchOne(b, arg);
    if Selected(arg) {
      assert Keys(d) == [arg.0];
    } else {
      assert d == [];
    }
  }

  /** The actions in the order the options are declared, which is also
      `dispatch1`'s order. */
  const Actions: seq<Action> := [Download, Reset, Install, Build, Clean, Ziplib]

  /** The actions among `acts` whose flag is set, in order. */
  function SetActions(f: Flags, acts: seq<Action>): (r: seq<Action>)
    ensures |r| <= |acts|
  {
    if |acts| == 0 then [] else (if IsSet(f, acts[0]) then [acts[0]] else []) + SetActions(f, acts[1..])
  }

  /** An action is kept exactly when it is among `acts` and its flag is set. */
  lemma {:induction false} SetActionsMembers(f: Flags, acts: seq<Action>, a: Action)
    ensures a in SetActions(f, acts) <==> a in acts && IsSet(f, a)
    decreases |acts|
  {
    if |acts| > 0 {
      SetActionsMembers(f, acts[1..], a);
      assert acts == [acts[0]] + acts[1..];
    }
  }

  /** The `(key, value)` pairs `vars(args)` holds for the options of `acts`. */
  function ActionArgs(f: Flags, acts: seq<Action>): (r: seq<(string, SVal)>)
    ensures |r| == |acts|
  {
    if |acts| == 0 then [] else [(Name(acts[0]), SBool(IsSet(f, acts[0])))] + ActionArgs(f, acts[1..])
  }

  /** `vars(args)` for a subcommand: argparse's `func` default, then the
      common options in declaration order. */
  function FlagArgs(f: Flags, func: SVal): seq<(string, SVal)> {
    [("func", func)] + ActionArgs(f, Actions)
  }

  /** The builder methods of `acts` called in turn, up to and including the
      first whose exception escapes. */
  function ActionCalls(b: string -> Outcome, acts: seq<Action>): (r: seq<Call>)
    ensures |r| <= |acts|
    ensures forall i :: 0 <= i < |r| ==> r[i] == CallOf(b, Name(acts[i]))
  {
    if |acts| == 0 then []
    else
      var c := CallOf(b, Name(acts[0]));
      if c.Raised? then [c] else [c] + ActionCalls(b, acts[1..])
  }

  /** `dispatch` over the action flags calls the method of each set flag in
      option order, and stops after the first whose exception escapes. */
  lemma {:induction false} DispatchCallsSetActions(f: Flags, acts: seq<Action>, b: string -> Outcome)
    ensures Dispatch(b, ActionArgs(f, acts)) == ActionCalls(b, SetActions(f, acts))
    decreases |acts|
  {
    if |acts| > 0 {
      var a, rest := acts[0], acts[1..];
      assert acts == [a] + rest;
      DispatchActionCons(f, a, rest, b);
      DispatchCallsSetActions(f, rest, b);
      SetActionsCons(f, a, rest);
      if IsSet(f, a) {
        ActionCallsCons(b, a, SetActions(f, rest));
      } else {
        assert SetActions(f, acts) == SetActions(f, rest);
      }
    }
  }

  /** One action option's turn of `dispatch`. */
  lemma DispatchActionCons(f: Flags, a: Action, rest: seq<Action>, b: string -> Outcome)
    ensures var tail := Dispatch(b, ActionArgs(f, rest));
      Dispatch(b, ActionArgs(f, [a] + rest))
      == if !IsSet(f, a) then tail
         else if CallOf(b, Name(a)).Raised? then [CallOf(b, Name(a))]
         else [CallOf(b, Name(a))] + tail
  {
    var arg := (Name(a), SBool(IsSet(f, a)));
    assert ([a] + rest)[0] == a && ([a] + rest)[1..] == rest;
    assert ActionArgs(f, [a] + rest) == [arg] + ActionArgs(f, rest);
    DispatchCons(b, arg, ActionArgs(f, rest));
    if !IsSet(f, a) {
      assert DispatchOne(b, arg) == [];
      assert [] + Dispatch(b, ActionArgs(f, rest)) == Dispatch(b, ActionArgs(f, rest));
    }
  }

  lemma ActionCallsCons(b: string -> Outcome, a: Action, rest: seq<Action>)
    ensures ActionCalls(b, [a] + rest)
            == if CallOf(b, Name(a)).Raised? then [CallOf(b, Name(a))] else [CallOf(b, Name(a))] + ActionCalls(b, rest)
  {
    assert ([a] + rest)[0] == a && ([a] + rest)[1..] == rest;
  }

  function CalledAll(acts: seq<Action>): (r: seq<Call>)
    ensures |r| == |acts| && forall i :: 0 <= i < |acts| ==> r[i] == Called(Name(acts[i]))
  {
    if |acts| == 0 then [] else [Called(Name(acts[0]))] + CalledAll(acts[1..])
  }

  /** When every action method returns, `dispatch` calls exactly the method
      of each set flag, in option order. */
  lemma {:induction false} DispatchCallsAllSetActions(f: Flags, acts: seq<Action>, b: string -> Outcome)
    requires forall a: Action :: b(Name(a)) == Returns
    ensures Dispatch(b, ActionArgs(f, acts)) == CalledAll(SetActions(f, acts))
  {
    DispatchCallsSetActions(f, acts, b);
    ActionCallsReturning(b, SetActions(f, acts));
  }

  lemma {:induction false} ActionCallsReturning(b: string -> Outcome, acts: seq<Action>)
    requires forall a: Action :: b(Name(a)) == Returns
    ensures ActionCalls(b, acts) == CalledAll(acts)
    decreases |acts|
  {
    if |acts| > 0 {
      ActionCallsReturning(b, acts[1..]);
    }
  }

  /** `dispatch1` runs the first action whose flag is set. */
  lemma Dispatch1IsFirstSet(f: Flags)
    ensures var set_ := SetActions(f, Actions);
      Dispatch1(f) == if set_ == [] then None else Some(set_[0])
  {
    var acts := Actions;
    assert acts == [Download] + acts[1..] && acts[1..] == [Reset] + acts[2..] && acts[2..] == [Install] + acts[3..];
    assert acts[3..] == [Build] + acts[4..] && acts[4..] == [Clean] + acts[5..] && acts[5..] == [Ziplib] + [];
    SetActionsCons(f, Download, acts[1..]);
    SetActionsCons(f, Reset, acts[2..]);
    SetActionsCons(f, Install, acts[3..]);
    SetActionsCons(f, Build, acts[4..]);
    SetActionsCons(f, Clean, acts[5..]);
    SetActionsCons(f, Ziplib, []);
  }

  lemma SetActionsCons(f: Flags, a: Action, rest: seq<Action>)
    ensures SetActions(f, [a] + rest) == (if IsSet(f, a) then [a] else []) + SetActions(f, rest)
  {
    assert ([a] + rest)[1..] == rest;
  }

  /** The single action `dispatch1` runs is the first one `dispatch` calls,
      whatever the builder's methods do, and `dispatch1` does nothing exactly
      when `dispatch` calls nothing. */
  lemma Dispatch1IsFirstDispatched(f: Flags, func: SVal, b: string -> Outcome)
    ensures Dispatch1(f).None? <==> Dispatch(b, FlagArgs(f, func)) == []
    ensures Dispatch1(f).Some? ==> Dispatch(b, FlagArgs(f, func))[0] == CallOf(b, Name(Dispatch1(f).value))
  {
    DispatchCons(b, ("func", func), ActionArgs(f, Actions));
    DispatchCallsSetActions(f, Actions, b);
    Dispatch1IsFirstSet(f);
  }

  /** When the first set action's method raises an exception that escapes,
      that call is all `dispatch` does: `--download --build` with a failing
      download never builds. */
  lemma FirstRaiseEndsDispatch(f: Flags, func: SVal, b: string -> Outcome)
    requires Dispatch1(f).Some? && Escapes(b, Name(Dispatch1(f).value))
    ensures Dispatch(b, FlagArgs(f, func)) == [Raised(Name(Dispatch1(f).value), b(Name(Dispatch1(f).value)).exc)]
  {
    DispatchCons(b, ("func", func), ActionArgs(f, Actions));
    DispatchCallsSetActions(f, Actions, b);
    Dispatch1IsFirstSet(f);
  }

  /** The three Python builders `do_py_all` dispatches. */
  datatype PyBuilder = FrameworkPython | SharedPython | StaticPython

  /** `do_py_all`: each builder's calls, tagged with the builder, in the order
      Framework, Shared, Static; an exception escaping one builder's dispatch
      escapes `do_py_all` too, so it is the last call made. */
  function DoPyAll(behaviourOf: PyBuilder -> string -> Outcome, args: seq<(string, SVal)>): (r: seq<(PyBuilder, Call)>)
    ensures forall i :: 0 <= i < |r| - 1 ==> !r[i].1.Raised?
  {
    var fw := Dispatch(behaviourOf(FrameworkPython), args);
    var sh := Dispatch(behaviourOf(SharedPython), args);
    var st := Dispatch(behaviourOf(StaticPython), args);
    TagRunRaisesLast(fw, sh, st);
    TagRun(fw, sh, st)
  }

  /** `do_py_all` makes the framework dispatch's calls; then, unless that
      dispatch ended in an escaping exception, the shared dispatch's; then,
      unless that one did, the static dispatch's; each tagged with its builder. */
  lemma DoPyAllParts(behaviourOf: PyBuilder -> string -> Outcome, args: seq<(string, SVal)>,
                      fw: seq<Call>, sh: seq<Call>, st: seq<Call>)
    requires fw == Dispatch(behaviourOf(FrameworkPython), args)
    requires sh == Dispatch(behaviourOf(SharedPython), args)
    requires st == Dispatch(behaviourOf(StaticPython), args)
    ensures |DoPyAll(behaviourOf, args)| == |fw| + (if Aborted(fw) then 0 else |sh| + (if Aborted(sh) then 0 else |st|))
    ensures forall i :: 0 <= i < |fw| ==> DoPyAll(behaviourOf, args)[i] == (FrameworkPython, fw[i])
    ensures !Aborted(fw) ==> forall i :: 0 <= i < |sh| ==> DoPyAll(behaviourOf, args)[|fw| + i] == (SharedPython, sh[i])
    ensures !Aborted(fw) && !Aborted(sh) ==>
              forall i :: 0 <= i < |st| ==> DoPyAll(behaviourOf, args)[|fw| + |sh| + i] == (StaticPython, st[i])
  {
    TagRunParts(DoPyAll(behaviourOf, args), fw, sh, st);
  }

  /** The three builders' calls tagged one after another, cut after the
      first dispatch that ended in an escaping exception. */
  function TagRun(fw: seq<Call>, sh: seq<Call>, st: seq<Call>): (r: seq<(PyBuilder, Call)>)
    ensures |r| == |fw| + (if Aborted(fw) then 0 else |sh| + (if Aborted(sh) then 0 else |st|))
    ensures r == TagAll(fw, sh, st)[..|r|]
  {
    if Aborted(fw) then Tag(FrameworkPython, fw)
    else if Aborted(sh) then Tag(FrameworkPython, fw) + Tag(SharedPython, sh)
    else TagAll(fw, sh, st)
  }

  lemma TagRunParts(r: seq<(PyBuilder, Call)>, fw: seq<Call>, sh: seq<Call>, st: seq<Call>)
    requires r == TagRun(fw, sh, st)
    ensures forall i :: 0 <= i < |fw| ==> r[i] == (FrameworkPython, fw[i])
    ensures !Aborted(fw) ==> forall i :: 0 <= i < |sh| ==> r[|fw| + i] == (SharedPython, sh[i])
    ensures !Aborted(fw) && !Aborted(sh) ==> forall i :: 0 <= i < |st| ==> r[|fw| + |sh| + i] == (StaticPython, st[i])
  {
    var t := TagAll(fw, sh, st);
    assert forall i :: 0 <= i < |r| ==> r[i] == t[i];
  }

  lemma TagRunRaisesLast(fw: seq<Call>, sh: seq<Call>, st: seq<Call>)
    requires forall i :: 0 <= i < |fw| - 1 ==> !fw[i].Raised?
    requires forall i :: 0 <= i < |sh| - 1 ==> !sh[i].Raised?
    requires forall i :: 0 <= i < |st| - 1 ==> !st[i].Raised?
    ensures RaisesOnlyLast(TagRun(fw, sh, st))
  {
    var tf, ts, tt := Tag(FrameworkPython, fw), Tag(SharedPython, sh), Tag(StaticPython, st);
    TagRaises(FrameworkPython, fw);
    TagRaises(SharedPython, sh);
    TagRaises(StaticPython, st);
    if !Aborted(fw) {
      RaisesOnlyLastAppend(tf, ts);
      if !Aborted(sh) {
        RaisesOnlyLastAppend(tf + ts, tt);
      }
    }
  }

  /** Only the last of the tagged calls `r` can be an escaping exception. */
  predicate RaisesOnlyLast(r: seq<(PyBuilder, Call)>) {
    forall i :: 0 <= i < |r| - 1 ==> !r[i].1.Raised?
  }

  /** The last of the tagged calls `r` is an escaping exception. */
  predicate EndsRaised(r: seq<(PyBuilder, Call)>) {
    |r| > 0 && r[|r| - 1].1.Raised?
  }

  lemma TagRaises(b: PyBuilder, calls: seq<Call>)
    requires forall i :: 0 <= i < |calls| - 1 ==> !calls[i].Raised?
    ensures RaisesOnlyLast(Tag(b, calls))
    ensures EndsRaised(Tag(b, calls)) <==> Aborted(calls)
  {
  }

  lemma RaisesOnlyLastAppend(x: seq<(PyBuilder, Call)>, y: seq<(PyBuilder, Call)>)
    requires RaisesOnlyLast(x) && !EndsRaised(x) && RaisesOnlyLast(y)
    ensures RaisesOnlyLast(x + y)
    ensures EndsRaised(x + y) <==> EndsRaised(y)
  {
    forall i | 0 <= i < |x + y| - 1 ensures !(x + y)[i].1.Raised? {
      if i >= |x| {
        assert (x + y)[i] == y[i - |x|];
      }
    }
    if |y| > 0 {
      assert (x + y)[|x + y| - 1] == y[|y| - 1];
    } else {
      assert x + y == x;
    }
  }

  /** The three builders' calls, each tagged with its builder, one after another. */
  function TagAll(fw: seq<Call>, sh: seq<Call>, st: seq<Call>): (r: seq<(PyBuilder, Call)>)
    ensures |r| == |fw| + |sh| + |st|
    ensures forall i :: 0 <= i < |fw| ==> r[i] == (FrameworkPython, fw[i])
    ensures forall i :: 0 <= i < |sh| ==> r[|fw| + i] == (SharedPython, sh[i])
    ensures forall i :: 0 <= i < |st| ==> r[|fw| + |sh| + i] == (StaticPython, st[i])
  {
    Tag(FrameworkPython, fw) + Tag(SharedPython, sh) + Tag(StaticPython, st)
  }

  function Tag(b: PyBuilder, calls: seq<Call>): (r: seq<(PyBuilder, Call)>)
    ensures |r| == |calls| && forall i :: 0 <= i < |calls| ==> r[i] == (b, calls[i])
  {
    seq(|calls|, i requires 0 <= i < |calls| => (b, calls[i]))
  }

  function Order(b: PyBuilder): nat {
    match b
    case FrameworkPython => 0
    case SharedPython => 1
    case StaticPython => 2
  }

  /** No call for a later builder comes before a call for an earlier one, and
      the framework builder's calls are its own dispatch, in order. */
  lemma DoPyAllOrder(behaviourOf: PyBuilder -> string -> Outcome, args: seq<(string, SVal)>)
    ensures var r := DoPyAll(behaviourOf, args);
      forall i, j :: 0 <= i < j < |r| ==> Order(r[i].0) <= Order(r[j].0)
    ensures var r := DoPyAll(behaviourOf, args);
      var n := |Dispatch(behaviourOf(FrameworkPython), args)|;
      forall i :: 0 <= i < n ==> r[i] == (FrameworkPython, Dispatch(behaviourOf(FrameworkPython), args)[i])
  {
    var fw := Dispatch(behaviourOf(FrameworkPython), args);
    var sh := Dispatch(behaviourOf(SharedPython), args);
    var st := Dispatch(behaviourOf(StaticPython), args);
    DoPyAllParts(behaviourOf, args, fw, sh, st);
    TagAllOrder(TagAll(fw, sh, st), fw, sh, st);
    var r := DoPyAll(behaviourOf, args);
    assert r == TagAll(fw, sh, st)[..|r|];
  }

  lemma TagAllOrder(r: seq<(PyBuilder, Call)>, fw: seq<Call>, sh: seq<Call>, st: seq<Call>)
    requires r == TagAll(fw, sh, st)
    ensures forall i, j :: 0 <= i < j < |r| ==> Order(r[i].0) <= Order(r[j].0)
  {
    forall i | 0 <= i < |r| ensures Order(r[i].0) == if i < |fw| then 0 else if i < |fw| + |sh| then 1 else 2 {
      if i < |fw| {
      } else if i < |fw| + |sh| {
        assert r[i] == r[|fw| + (i - |fw|)];
      } else {
        assert r[i] == r[|fw| + |sh| + (i - |fw| - |sh|)];
      }
    }
  }

}

=== FILE: build_core.dfy ===
/** The pure rules of the builder's core classes: `Settings` merging, the
    `Product` version and name properties, `Builder.has_static_libs` and the
    `./configure` command line `Builder.configure` assembles. */
module BuildCore {
  import opened Wrappers
  import opened PyStr
  import ODict

  /** A setting's value, as far as the rules here look at it. */
  datatype SVal = SStr(s: string) | SInt(i: int) | SBool(b: bool) | SList(items: seq<string>) | SNone

  /** Python truthiness. */
  predicate Truthy(v: SVal) {
    match v
    case SStr(s) => s != ""
    case SInt(i) => i != 0
    case SBool(b) => b
    case SList(items) => |items| > 0
    case SNone => false
  }

  /** The exceptions the build rules raise. */
  datatype BuildError = TypeError | KeyError | IndexError | NameError

  /** `Settings`: a namespace whose attribute dict keeps insertion order. */
  type Settings = ODict.Dict<SVal>

  /** What `Settings.update` may be handed. */
  datatype UpdateArg = FromDict(d: ODict.Dict<SVal>) | FromSettings(t: Settings) | FromOther

  /** `Settings.update`: a dict or another Settings is merged in, anything
      else raises `TypeError`. */
  function Update(s: Settings, other: UpdateArg): (r: Result<Settings, BuildError>)
    ensures r.Err? <==> other.FromOther?
    ensures r.Err? ==> r.error == TypeError
  {
    match other
    case FromDict(d) => Ok(ODict.PutAll(s, d))
    case FromSettings(t) => Ok(ODict.PutAll(s, t))
    case FromOther => Err(TypeError)
  }

  function Entries(other: UpdateArg): ODict.Dict<SVal>
    requires !other.FromOther?
  {
    if other.FromDict? then other.d else other.t
  }

  /** After a merge, a key the argument holds has the argument's value and
      every other key keeps its value; keys stay unique. */
  lemma UpdateMerges(s: Settings, other: UpdateArg, q: string)
    requires ODict.UniqueKeys(s)
    requires !other.FromOther?
    ensures Update(s, other).Ok?
    ensures ODict.UniqueKeys(Update(s, other).value)
    ensures ODict.Get(Update(s, other).value, q)
            == if q in ODict.Keys(Entries(other)) then ODict.LastGet(Entries(other), q) else ODict.Get(s, q)
  {
    ODict.PutAllGet(s, Entries(other), q);
    ODict.PutAllUnique(s, Entries(other));
  }

  /** A `str.format` template holding only the `{name}` and `{version}`
      fields. */
  datatype Piece = Lit(text: string) | NameField | VersionField

  type Template = seq<Piece>

  /** One piece filled in with the given field values. */
  function Fill(pc: Piece, name: string, version: string): string {
    match pc
    case Lit(x) => x
    case NameField => name
    case VersionField => version
  }

  /** The template as written in the source. */
  function Text(t: Template): string {
    if |t| == 0 then "" else Fill(t[0], "{name}", "{version}") + Text(t[1..])
  }

  /** `template.format(name=..., version=...)`; a template without fields
      is its own result. */
  function Format(t: Template, name: string, version: string): (r: string)
    ensures (forall i :: 0 <= i < |t| ==> t[i].Lit?) ==> r == Text(t)
  {
    if |t| == 0 then "" else Fill(t[0], name, version) + Format(t[1..], name, version)
  }

  lemma {:induction false} FormatAppend(a: Template, b: Template, name: string, version: string)
    ensures Format(a + b, name, version) == Format(a, name, version) + Format(b, name, version)
    decreases |a|
  {
    if |a| > 0 {
      assert (a + b)[0] == a[0] && (a + b)[1..] == a[1..] + b;
      FormatAppend(a[1..], b, name, version);
      var h := Fill(a[0], name, version);
      assert Format(a + b, name, version) == h + Format(a[1..] + b, name, version);
      assert Format(a, name, version) == h + Format(a[1..], name, version);
    } else {
      assert a + b == b;
    }
  }

  datatype Product = Product(
    name: string,
    version: string,
    buildDir: string,
    libsStatic: seq<string>,
    urlTemplate: Template,
    settings: Settings)

  /** `Product(...)`: an empty (or missing) build directory defaults to the
      product name and missing static libraries to the empty list. */
  function NewProduct(name: string, version: string, buildDir: string, libsStatic: seq<string>,
                      urlTemplate: Template, settings: Settings): (p: Product)
    ensures p.name == name && p.version == version && p.urlTemplate == urlTemplate
    ensures buildDir != "" ==> p.buildDir == buildDir
    ensures buildDir == "" ==> p.buildDir == name
    ensures p.libsStatic == libsStatic
  {
    Product(name, version, if buildDir != "" then buildDir else name, libsStatic, urlTemplate, settings)
  }

  /** `ver`: the first two dot-separated components, `3.9.1` -> `3.9`. */
  function Ver(p: Product): (r: string)
    ensures |Split(r, '.')| <= 2
  {
    var parts := Take(Split(p.version, '.'), 2);
    assert |parts| >= 1 by {
      assert |Split(p.version, '.')| >= 1;
    }
    assert forall x :: x in parts ==> '.' !in x by {
      assert parts <= Split(p.version, '.');
      forall x | x in parts ensures '.' !in x {
        var i :| 0 <= i < |parts| && parts[i] == x;
        assert Split(p.version, '.')[i] == x;
      }
    }
    SplitJoin(parts, '.');
    Join(parts, ".")
  }

  /** The major and minor components of a release version are kept and the
      rest dropped. */
  lemma VerOfRelease(p: Product, major: string, minor: string, rest: string)
    requires '.' !in major && '.' !in minor
    requires p.version == major + "." + minor + "." + rest
    ensures Ver(p) == major + "." + minor
  {
    SplitSepAfter(major, '.', minor + "." + rest);
    assert p.version == major + ['.'] + (minor + "." + rest);
    SplitSepAfter(minor, '.', rest);
    assert minor + "." + rest == minor + ['.'] + rest;
    var parts := Split(p.version, '.');
    assert parts == [major] + ([minor] + Split(rest, '.'));
    assert Take(parts, 2) == [major, minor];
    assert [major, minor][1..] == [minor];
    assert Join([major, minor], ".") == major + "." + minor;
  }

  /** A version of at most two components is its own `ver`. */
  lemma VerOfShort(p: Product)
    requires |Split(p.version, '.')| <= 2
    ensures Ver(p) == p.version
  {
    JoinSplit(p.version, '.');
    assert Take(Split(p.version, '.'), 2) == Split(p.version, '.');
  }

  /** `ver_nodot`: `ver` without its dot, `3.9.1` -> `39`. */
  function VerNodot(p: Product): (r: string)
    ensures '.' !in r
  {
    RemoveChar(Ver(p), '.')
  }

  lemma VerNodotOfRelease(p: Product, major: string, minor: string, rest: string)
    requires '.' !in major && '.' !in minor
    requires p.version == major + "." + minor + "." + rest
    ensures VerNodot(p) == major + minor
  {
    VerOfRelease(p, major, minor, rest);
    RemoveDot(major, minor);
  }

  lemma RemoveDot(major: string, minor: string)
    requires '.' !in major && '.' !in minor
    ensures RemoveChar(major + "." + minor, '.') == major + minor
  {
    var dm := "." + minor;
    assert major + "." + minor == major + dm;
    RemoveCharAppend(major, dm, '.');
    RemoveCharAbsent(major, '.');
    RemoveCharAbsent(minor, '.');
    assert dm[0] == '.' && dm[1..] == minor;
    assert RemoveChar(dm, '.') == RemoveChar(minor, '.');
  }

  /** `name_version`: `Python-3.9.1`. */
  function NameVersion(p: Product): string {
    p.name + "-" + p.version
  }

  /** `name_ver`: `python3.9`. */
  function NameVer(p: Product): string {
    Lower(p.name) + Ver(p)
  }

  /** `dylib`: Python 3.7's library carries the `m` ABI suffix. */
  function Dylib(p: Product): string {
    var v := if Ver(p) == "3.7" then "3.7m" else Ver(p);
    "lib" + Lower(p.name) + v + ".dylib"
  }

  /** The dynamic library is `lib` + `name_ver` (+ `m` for 3.7) + `.dylib`. */
  lemma DylibIsLibNameVer(p: Product)
    ensures Dylib(p) == "lib" + NameVer(p) + (if Ver(p) == "3.7" then "m" else "") + ".dylib"
  {
    if Ver(p) == "3.7" {
      assert "3.7m" == Ver(p) + "m";
    }
  }

  /** `url`: the filled-in template when one is set. */
  function Url(p: Product): (r: Option<string>)
    ensures r.Some? <==> Text(p.urlTemplate) != ""
  {
    if Text(p.urlTemplate) != "" then Some(Format(p.urlTemplate, p.name, p.version)) else None
  }

  /** A path component `pathlib` keeps: not empty and not `.`. */
  predicate Kept(c: string) {
    c != "" && c != "."
  }

  /** The last component `pathlib` keeps, or the empty string. */
  function LastKept(parts: seq<string>): (r: string)
    ensures r == "" || r in parts
    ensures r != "" ==> Kept(r)
  {
    if |parts| == 0 then ""
    else if Kept(parts[|parts| - 1]) then parts[|parts| - 1]
    else LastKept(parts[..|parts| - 1])
  }

  /** `PurePath(s).name` */
  function PathName(s: string): (r: string)
    ensures '/' !in r
  {
    LastKept(Split(s, '/'))
  }

  /** The last component after a slash is the path's name. */
  lemma PathNameAfterSlash(head: string, file: string)
    requires '/' !in file && Kept(file)
    ensures PathName(head + "/" + file) == file
  {
    SplitAround(head, '/', file);
    assert head + "/" + file == head + ['/'] + file;
    SplitNoSep(file, '/');
  }

  /** `name_archive`: the URL's file name when a template is set, otherwise
      `name_version` + `.tgz`. */
  function NameArchive(p: Product): (r: string)
    ensures Url(p).Some? ==> '/' !in r
    ensures Url(p).None? ==> r == NameVersion(p) + ".tgz"
  {
    match Url(p)
    case Some(u) => PathName(u)
    case None => NameVersion(p) + ".tgz"
  }

  /** A template ending in `/<file>` archives as `<file>`. */
  lemma ArchiveIsUrlFile(p: Product, head: string, file: string)
    requires Text(p.urlTemplate) != ""
    requires Format(p.urlTemplate, p.name, p.version) == head + "/" + file
    requires '/' !in file && Kept(file)
    ensures NameArchive(p) == file
  {
    PathNameAfterSlash(head, file);
  }

  /** `all(exists(prefix_lib / lib) for lib in libs)` */
  function AllExist(prefixLib: string, libs: seq<string>, present: string -> bool): (r: bool)
    ensures r <==> forall i :: 0 <= i < |libs| ==> present(prefixLib + "/" + libs[i])
  {
    if |libs| == 0 then true
    else present(prefixLib + "/" + libs[0]) && AllExist(prefixLib, libs[1..], present)
  }

  /** `Builder.has_static_libs`: the file system is the `present` parameter. */
  function HasStaticLibs(p: Product, prefixLib: string, present: string -> bool): (r: bool)
    ensures r <==> |p.libsStatic| > 0 && forall i :: 0 <= i < |p.libsStatic| ==> present(prefixLib + "/" + p.libsStatic[i])
  {
    if |p.libsStatic| > 0 then AllExist(prefixLib, p.libsStatic, present) else false
  }

  /** `_kwargs[key.replace('_', '-')] = kwargs[key]` for each key in order. */
  function DashKeys(kw: ODict.Dict<string>): (r: ODict.Dict<string>)
    ensures forall k :: k in ODict.Keys(r) ==> '_' !in k
    decreases |kw|
  {
    if |kw| == 0 then []
    else
      var init := DashKeys(kw[..|kw| - 1]);
      var k := ReplaceChar(kw[|kw| - 1].0, '_', '-');
      assert '_' !in k;
      ODict.Put(init, k, kw[|kw| - 1].1)
  }

  /** Renaming cannot merge two keys when none holds a dash. */
  lemma DashInjective(a: string, b: string)
    requires '-' !in a && '-' !in b
    requires ReplaceChar(a, '_', '-') == ReplaceChar(b, '_', '-')
    ensures a == b
  {
    assert |a| == |b|;
    forall i | 0 <= i < |a| ensures a[i] == b[i] {
      var ra := ReplaceChar(a, '_', '-');
      assert ra[i] == (if a[i] == '_' then '-' else a[i]);
      assert ra[i] == (if b[i] == '_' then '-' else b[i]);
    }
  }

  function DashEntry(e: (string, string)): (string, string) {
    (ReplaceChar(e.0, '_', '-'), e.1)
  }

  /** For keyword names (which hold no dash) the renaming keeps every entry,
      in order. */
  lemma {:induction false} DashKeysKeepsEntries(kw: ODict.Dict<string>)
    requires ODict.UniqueKeys(kw)
    requires forall i :: 0 <= i < |kw| ==> '-' !in kw[i].0
    ensures DashKeys(kw) == seq(|kw|, i requires 0 <= i < |kw| => DashEntry(kw[i]))
    decreases |kw|
  {
    if |kw| > 0 {
      var init := kw[..|kw| - 1];
      var last := kw[|kw| - 1];
      UniqueInit(kw);
      DashKeysKeepsEntries(init);
      var r0 := seq(|init|, i requires 0 <= i < |init| => DashEntry(init[i]));
      var k := DashEntry(last).0;
      if k in ODict.Keys(r0) {
        var j :| 0 <= j < |r0| && ODict.Keys(r0)[j] == k;
        DashInjective(init[j].0, last.0);
        UniqueDistinct(kw, j, |kw| - 1);
        assert false;
      }
      PutAbsent(r0, k, last.1);
      assert DashKeys(kw) == ODict.Put(r0, k, last.1);
    }
  }

  lemma {:induction false} UniqueInit<V>(d: ODict.Dict<V>)
    requires |d| > 0 && ODict.UniqueKeys(d)
    ensures ODict.UniqueKeys(d[..|d| - 1])
    decreases |d|
  {
    if |d| > 1 {
      UniqueInit(d[1..]);
      assert d[1..][..|d| - 2] == d[..|d| - 1][1..];
      assert ODict.Keys(d[..|d| - 1][1..]) <= ODict.Keys(d[1..]);
    }
  }

  lemma {:induction false} UniqueDistinct<V>(d: ODict.Dict<V>, i: nat, j: nat)
    requires ODict.UniqueKeys(d) && i < j < |d|
    ensures d[i].0 != d[j].0
    decreases i
  {
    if i == 0 {
      assert ODict.Keys(d[1..])[j - 1] == d[j].0;
    } else {
      UniqueDistinct(d[1..], i - 1, j - 1);
    }
  }

  lemma {:induction false} PutAbsent<V>(d: ODict.Dict<V>, k: string, v: V)
    requires k !in ODict.Keys(d)
    ensures ODict.Put(d, k, v) == d + [(k, v)]
    decreases |d|
  {
    if |d| > 0 {
      assert ODict.Keys(d)[0] == d[0].0;
      assert ODict.Keys(d) == [d[0].0] + ODict.Keys(d[1..]);
      PutAbsent(d[1..], k, v);
      assert d == [d[0]] + d[1..];
    }
  }

  /** The words of the environment prefix: `K=V`. */
  function EnvWords(env: ODict.Dict<string>): (r: seq<string>)
    ensures |r| == |env|
    ensures forall i :: 0 <= i < |env| ==> r[i] == env[i].0 + "=" + env[i].1
  {
    seq(|env|, i requires 0 <= i < |env| => env[i].0 + "=" + env[i].1)
  }

  /** The option flags: `--` and the option with `_` replaced by `-`. */
  function OptionWords(options: seq<string>): (r: seq<string>)
    ensures |r| == |options|
    ensures forall i :: 0 <= i < |options| ==> r[i] == "--" + ReplaceChar(options[i], '_', '-')
  {
    seq(|options|, i requires 0 <= i < |options| => "--" + ReplaceChar(options[i], '_', '-'))
  }

  /** The keyword flags: `--key='value'`. */
  function KwWords(kw: ODict.Dict<string>): (r: seq<string>)
    ensures |r| == |kw|
    ensures forall i :: 0 <= i < |kw| ==> r[i] == "--" + kw[i].0 + "='" + kw[i].1 + "'"
  {
    seq(|kw|, i requires 0 <= i < |kw| => "--" + kw[i].0 + "='" + kw[i].1 + "'")
  }

  /** `Builder.configure`: `env` is `default_env_vars`, whose entries become
      the `K=V` prefix (empty when there are none). */
  function Configure(env: ODict.Dict<string>, options: seq<string>, kwargs: ODict.Dict<string>): string {
    var prefix := if |env| > 0 then Join(EnvWords(env), " ") else "";
    prefix + " " + ConfigureScript + " " + Join(OptionWords(options), " ") + " " + Join(KwWords(DashKeys(kwargs)), " ")
  }

  const ConfigureScript: string := "./configure"

  lemma ConfigureScriptIsOneWord()
    ensures SplitWs(ConfigureScript) == [ConfigureScript]
  {
    var c := ConfigureScript;
    assert NoSpace(c) by {
      forall i | 0 <= i < |c| ensures !IsSpace(c[i]) {
        assert c[i] in {'.', '/', 'c', 'o', 'n', 'f', 'i', 'g', 'u', 'r', 'e'};
      }
    }
    RunLenOfPrefix(c, "");
    assert c + "" == c;
    assert c[..|c|] == c;
  }

  lemma NoSpaceConcat(a: string, b: string)
    requires NoSpace(a) && NoSpace(b)
    ensures NoSpace(a + b)
  {
    forall i | 0 <= i < |a + b| ensures !IsSpace((a + b)[i]) {
      if i >= |a| {
        assert (a + b)[i] == b[i - |a|];
      }
    }
  }

  lemma NoSpaceDash(s: string)
    requires NoSpace(s)
    ensures NoSpace(ReplaceChar(s, '_', '-'))
  {
  }

  /** Non-empty words without whitespace. */
  predicate Words(ws: seq<string>) {
    forall i :: 0 <= i < |ws| ==> |ws[i]| > 0 && NoSpace(ws[i])
  }

  lemma EnvWordsAreWords(env: ODict.Dict<string>)
    requires forall i :: 0 <= i < |env| ==> NoSpace(env[i].0) && NoSpace(env[i].1)
    ensures Words(EnvWords(env))
  {
    var ew := EnvWords(env);
    forall i | 0 <= i < |ew| ensures |ew[i]| > 0 && NoSpace(ew[i]) {
      NoSpaceConcat(env[i].0, "=");
      NoSpaceConcat(env[i].0 + "=", env[i].1);
    }
  }

  lemma OptionWordsAreWords(options: seq<string>)
    requires forall i :: 0 <= i < |options| ==> NoSpace(options[i])
    ensures Words(OptionWords(options))
  {
    var ow := OptionWords(options);
    forall i | 0 <= i < |ow| ensures |ow[i]| > 0 && NoSpace(ow[i]) {
      NoSpaceDash(options[i]);
      NoSpaceConcat("--", ReplaceChar(options[i], '_', '-'));
    }
  }

  lemma KwWordsAreWords(kw: ODict.Dict<string>)
    requires forall i :: 0 <= i < |kw| ==> NoSpace(kw[i].0) && NoSpace(kw[i].1)
    ensures Words(KwWords(kw))
  {
    var kwd := KwWords(kw);
    forall i | 0 <= i < |kwd| ensures |kwd[i]| > 0 && NoSpace(kwd[i]) {
      NoSpaceConcat("--", kw[i].0);
      NoSpaceConcat("--" + kw[i].0, "='");
      NoSpaceConcat("--" + kw[i].0 + "='", kw[i].1);
      NoSpaceConcat("--" + kw[i].0 + "='" + kw[i].1, "'");
    }
  }

  /** Word-splitting `a b c d` where each part is a space-joined word list. */
  lemma SplitFourParts(a: string, b: string, c: string, d: string)
    ensures SplitWs(a + " " + b + " " + c + " " + d) == SplitWs(a) + SplitWs(b) + SplitWs(c) + SplitWs(d)
  {
    SplitWsAppend(a + " " + b + " " + c, d);
    SplitWsAppend(a + " " + b, c);
    SplitWsAppend(a, b);
  }

  /** When no name or value holds whitespace, `str.split()` splits the command
      into exactly the environment words, `./configure`, the option flags and
      the keyword flags, in that order. */
  lemma ConfigureWords(env: ODict.Dict<string>, options: seq<string>, kwargs: ODict.Dict<string>)
    requires forall i :: 0 <= i < |env| ==> NoSpace(env[i].0) && NoSpace(env[i].1)
    requires forall i :: 0 <= i < |options| ==> NoSpace(options[i])
    requires forall i :: 0 <= i < |kwargs| ==> NoSpace(kwargs[i].0) && NoSpace(kwargs[i].1)
    ensures SplitWs(Configure(env, options, kwargs))
            == EnvWords(env) + [ConfigureScript] + OptionWords(options) + KwWords(DashKeys(kwargs))
  {
    var ew := EnvWords(env);
    var ow := OptionWords(options);
    var kwd := KwWords(DashKeys(kwargs));
    EnvWordsAreWords(env);
    OptionWordsAreWords(options);
    DashKeysNoSpace(kwargs);
    KwWordsAreWords(DashKeys(kwargs));
    var prefix := if |env| > 0 then Join(ew, " ") else "";
    assert SplitWs(prefix) == ew by {
      if |env| > 0 { SplitWsJoin(ew); } else { assert ew == []; }
    }
    SplitWsJoin(ow);
    SplitWsJoin(kwd);
    var os := Join(ow, " ");
    var ks := Join(kwd, " ");
    SplitFourParts(prefix, ConfigureScript, os, ks);
    ConfigureScriptIsOneWord();
  }

  lemma {:induction false} DashKeysNoSpace(kw: ODict.Dict<string>)
    requires forall i :: 0 <= i < |kw| ==> NoSpace(kw[i].0) && NoSpace(kw[i].1)
    ensures forall i :: 0 <= i < |DashKeys(kw)| ==> NoSpace(DashKeys(kw)[i].0) && NoSpace(DashKeys(kw)[i].1)
    decreases |kw|
  {
    if |kw| > 0 {
      var init := kw[..|kw| - 1];
      DashKeysNoSpace(init);
      NoSpaceDash(kw[|kw| - 1].0);
      PutKeepsNoSpace(DashKeys(init), ReplaceChar(kw[|kw| - 1].0, '_', '-'), kw[|kw| - 1].1);
    }
  }

  lemma {:induction false} PutKeepsNoSpace(d: ODict.Dict<string>, k: string, v: string)
    requires forall i :: 0 <= i < |d| ==> NoSpace(d[i].0) && NoSpace(d[i].1)
    requires NoSpace(k) && NoSpace(v)
    ensures forall i :: 0 <= i < |ODict.Put(d, k, v)| ==> NoSpace(ODict.Put(d, k, v)[i].0) && NoSpace(ODict.Put(d, k, v)[i].1)
    decreases |d|
  {
    if |d| > 0 && d[0].0 != k {
      PutKeepsNoSpace(d[1..], k, v);
      var r := ODict.Put(d, k, v);
      assert r == [d[0]] + ODict.Put(d[1..], k, v);
    }
  }
}

=== FILE: build_factory.dfy ===
/** The builder factory: the `get` helper, the dependency products, and the
    Python and pyjs builder factories with their name-derived build
    directories and static library names. */
module BuildFactory {
  import opened Wrappers
  import opened PyStr
  import ODict
  import opened BuildCore

  /** `get(d, k, default)`: `d[k]` when present and truthy, else `default`. */
  function Get(d: Settings, k: string, default: SVal): (r: SVal)
    ensures k !in ODict.Keys(d) ==> r == default
    ensures r != default ==> Truthy(r) && ODict.Get(d, k) == Some(r)
    ensures ODict.Get(d, k).Some? && Truthy(ODict.Get(d, k).value) ==> r == ODict.Get(d, k).value
  {
    match ODict.Get(d, k)
    case Some(v) => if Truthy(v) then v else default
    case None => default
  }

  /** A falsy value (`""`, `0`, `None`, `[]`) counts as missing. */
  lemma GetFalsyIsDefault(d: Settings, k: string, default: SVal)
    requires ODict.Get(d, k).Some? && !Truthy(ODict.Get(d, k).value)
    ensures Get(d, k, default) == default
  {
  }

  /** The version settings the factories read are strings when set. */
  predicate VersionsAreStrings(d: Settings) {
    forall k :: k in {"py_version", "bz2_version", "ssl_version", "xv_version"} ==>
      (var v := Get(d, k, SStr("")); v.SStr?)
  }

  /** A version setting, or its default. */
  function GetVersion(d: Settings, k: string, default: string): (r: string)
    requires VersionsAreStrings(d)
    requires k in {"py_version", "bz2_version", "ssl_version", "xv_version"}
    ensures default != "" ==> r != ""
    ensures k !in ODict.Keys(d) ==> r == default
  {
    var v := Get(d, k, SStr(""));
    assert v.SStr?;
    if v.s != "" then v.s else default
  }

  /** The `<dir>/{name}-{version}.tar.gz` template shape the dependencies use. */
  function Tarball(head: string): Template {
    [Lit(head + "/"), NameField, Lit("-"), VersionField, Lit(".tar.gz")]
  }

  const Bzip2Template: Template := Tarball("https://sourceware.org/pub/bzip2")
  const SslTemplate: Template := Tarball("https://www.openssl.org/source")
  const XzTemplate: Template := Tarball("http://tukaani.org/xz")
  const PythonTemplate: Template :=
    [Lit("https://www.python.org/ftp/python/"), VersionField, Lit("/Python-"), VersionField, Lit(".tgz")]

  /** A five-piece template formats piece by piece. */
  lemma FormatFive(t: Template, name: string, version: string)
    requires |t| == 5
    ensures Format(t, name, version)
            == Fill(t[0], name, version) + (Fill(t[1], name, version) + (Fill(t[2], name, version)
               + (Fill(t[3], name, version) + Fill(t[4], name, version))))
  {
    var t1 := t[1..];
    var t2 := t1[1..];
    var t3 := t2[1..];
    var t4 := t3[1..];
    assert t4[1..] == [];
    assert Format(t4, name, version) == Fill(t[4], name, version) + "";
    assert Format(t3, name, version) == Fill(t[3], name, version) + Format(t4, name, version);
    assert Format(t2, name, version) == Fill(t[2], name, version) + Format(t3, name, version);
    assert Format(t1, name, version) == Fill(t[1], name, version) + Format(t2, name, version);
  }

  /** A dependency product archives as `<name>-<version>.tar.gz`. */
  lemma TarballArchive(p: Product, head: string)
    requires p.urlTemplate == Tarball(head)
    requires '/' !in p.name && '/' !in p.version
    ensures NameArchive(p) == NameVersion(p) + ".tar.gz"
  {
    var t := p.urlTemplate;
    assert Text(t) == head + "/" + Text(t[1..]);
    var file := p.name + "-" + p.version + ".tar.gz";
    FormatFive(t, p.name, p.version);
    assert Format(t, p.name, p.version) == head + "/" + file;
    assert |file| > 1;
    ArchiveIsUrlFile(p, head, file);
  }

  /** The python.org archive name equals the default `name_version.tgz`. */
  lemma PythonArchive(p: Product)
    requires p.name == "Python" && p.urlTemplate == PythonTemplate
    requires '/' !in p.version
    ensures NameArchive(p) == NameVersion(p) + ".tgz"
  {
    assert "/Python-" == "/" + "Python-";
    assert '/' !in "Python-" && '/' !in ".tgz";
    VersionDirArchive(p, "https://www.python.org/ftp/python/", "Python-", ".tgz");
    assert "Python-" == p.name + "-";
  }

  /** A `<head>{version}/<stem>{version}<ext>` template archives as
      `<stem><version><ext>`. */
  lemma VersionDirArchive(p: Product, head: string, stem: string, ext: string)
    requires p.urlTemplate == [Lit(head), VersionField, Lit("/" + stem), VersionField, Lit(ext)]
    requires head != "" && |stem| > 1 && '/' !in stem && '/' !in ext && '/' !in p.version
    ensures NameArchive(p) == stem + p.version + ext
  {
    var t := p.urlTemplate;
    var file := stem + p.version + ext;
    FormatFive(t, p.name, p.version);
    assert Format(t, p.name, p.version) == (head + p.version) + "/" + file;
    assert Text(t) == head + Text(t[1..]);
    assert |file| > 1;
    ArchiveIsUrlFile(p, head + p.version, file);
  }

  function Bzip2Product(version: string, settings: Settings): (p: Product)
    ensures p.urlTemplate == Tarball("https://sourceware.org/pub/bzip2")
  {
    NewProduct("bzip2", version, "", ["libbz2.a"], Bzip2Template, settings)
  }

  function SslProduct(version: string, settings: Settings): (p: Product)
    ensures p.urlTemplate == Tarball("https://www.openssl.org/source")
  {
    NewProduct("openssl", version, "", ["libssl.a", "libcrypto.a"], SslTemplate, settings)
  }

  /** `get_xz_product` as written: the `xz_version` argument is never read. */
  function XzProductAsWritten(xzVersion: string, settings: Settings): (p: Product)
    ensures p.urlTemplate == Tarball("http://tukaani.org/xz")
  {
    NewProduct("xz", "5.2.5", "", ["libxz.a"], XzTemplate, settings)
  }

  /** Whatever version is asked for, the product is the 5.2.5 one: asking
      for 5.2.4 does not give 5.2.4. */
  lemma XzVersionIgnored(xzVersion: string, settings: Settings)
    ensures XzProductAsWritten(xzVersion, settings) == XzProductAsWritten("5.2.5", settings)
    ensures XzProductAsWritten("5.2.4", settings).version != "5.2.4"
  {
    assert "5.2.5"[4] != "5.2.4"[4];
  }

  /** `get_xz_product` as evidently intended: the product has the version
      asked for. */
  function XzProduct(xzVersion: string, settings: Settings): (p: Product)
    ensures p.urlTemplate == Tarball("http://tukaani.org/xz")
  {
    NewProduct("xz", xzVersion, "", ["libxz.a"], XzTemplate, settings)
  }

  /** The corrected xz product is the requested version and archives as such. */
  lemma XzProductUsesVersion(xzVersion: string, settings: Settings)
    requires '/' !in xzVersion
    ensures XzProduct(xzVersion, settings).version == xzVersion
    ensures NameArchive(XzProduct(xzVersion, settings)) == "xz-" + xzVersion + ".tar.gz"
  {
    TarballArchive(XzProduct(xzVersion, settings), "http://tukaani.org/xz");
  }

  /** Every dependency product archives as `<name>-<version>.tar.gz`. */
  lemma Bzip2Archive(version: string, settings: Settings)
    requires '/' !in version
    ensures NameArchive(Bzip2Product(version, settings)) == "bzip2-" + version + ".tar.gz"
  {
    var p := Bzip2Product(version, settings);
    TarballArchive(p, "https://sourceware.org/pub/bzip2");
    assert NameVersion(p) == "bzip2" + "-" + version;
  }

  lemma SslArchive(version: string, settings: Settings)
    requires '/' !in version
    ensures NameArchive(SslProduct(version, settings)) == "openssl-" + version + ".tar.gz"
  {
    var p := SslProduct(version, settings);
    TarballArchive(p, "https://www.openssl.org/source");
    assert NameVersion(p) == "openssl" + "-" + version;
  }

  /** `"-".join(name.split('_')[-2:])` */
  function BuildDir(name: string): string {
    Join(LastTwo(Split(name, '_')), "-")
  }

  /** A name without underscores is its own build directory. */
  lemma BuildDirNoUnderscore(name: string)
    requires '_' !in name
    ensures BuildDir(name) == name
  {
    SplitNoSep(name, '_');
  }

  /** The last two `_`-separated parts, joined by a dash. */
  lemma BuildDirLastTwo(prefix: string, a: string, b: string)
    requires '_' !in a && '_' !in b
    ensures BuildDir(a + "_" + b) == a + "-" + b
    ensures BuildDir(prefix + "_" + a + "_" + b) == a + "-" + b
  {
    SplitAround(a, '_', b);
    assert a + "_" + b == a + ['_'] + b;
    SplitNoSep(a, '_');
    SplitNoSep(b, '_');
    assert Split(a + "_" + b, '_') == [a, b];
    assert Join([a, b], "-") == a + "-" + b by {
      assert [a, b][1..] == [b];
    }
    var pa := Split(prefix, '_');
    SplitAround(prefix, '_', a + "_" + b);
    assert prefix + "_" + a + "_" + b == prefix + ['_'] + (a + "_" + b);
    var all := pa + [a, b];
    assert Split(prefix + "_" + a + "_" + b, '_') == all;
    assert LastTwo(all) == [a, b];
  }

  /** `f"libpython{'.'.join(py_version.split('.')[:-1])}.a"` */
  function StaticLib(pyVersion: string): string {
    "libpython" + Join(DropLast(Split(pyVersion, '.')), ".") + ".a"
  }

  /** A three-part version names the library after its first two parts. */
  lemma StaticLibOfRelease(major: string, minor: string, patch: string)
    requires '.' !in major && '.' !in minor && '.' !in patch
    ensures StaticLib(major + "." + minor + "." + patch) == "libpython" + major + "." + minor + ".a"
  {
    var v := major + "." + minor + "." + patch;
    SplitAround(major, '.', minor + "." + patch);
    assert v == major + ['.'] + (minor + "." + patch);
    SplitAround(minor, '.', patch);
    assert minor + "." + patch == minor + ['.'] + patch;
    SplitNoSep(major, '.');
    SplitNoSep(minor, '.');
    SplitNoSep(patch, '.');
    assert Split(v, '.') == [major, minor, patch];
    assert DropLast([major, minor, patch]) == [major, minor];
    assert [major, minor][1..] == [minor];
    assert Join([major, minor], ".") == major + "." + minor;
  }

  /** The builder classes the factories name. */
  datatype BuilderKind =
    | StaticPython | StaticPythonFull | SharedPython | SharedPythonForExt | SharedPythonForPkg | FrameworkPython
    | Bzip2 | Openssl | Xz
    | Homebrew | StaticExt | StaticExtFull | SharedExt | SharedPkg

  /** A constructed builder: its class, product, dependencies and settings. */
  datatype Builder = Builder(kind: BuilderKind, product: Product, dependsOn: seq<Builder>, settings: Settings)

  /** The class dict `python_builder_factory` indexes. */
  function PythonKind(name: string): Option<BuilderKind> {
    if name == "python_static" then Some(StaticPython)
    else if name == "python_static_full" then Some(StaticPythonFull)
    else if name == "python_shared" then Some(SharedPython)
    else if name == "python_shared_ext" then Some(SharedPythonForExt)
    else if name == "python_shared_pkg" then Some(SharedPythonForPkg)
    else if name == "python_framework" then Some(FrameworkPython)
    else None
  }

  /** `python_builder_factory(name, **settings)`; `defaultPy` is the
      `PYTHON_VERSION_STRING` default, which core.py does not define. */
  function PythonBuilderFactory(name: string, settings: Settings, defaultPy: string): (r: Result<Builder, BuildError>)
    requires VersionsAreStrings(settings)
    ensures r.Err? <==> PythonKind(name).None?
    ensures r.Err? ==> r.error == KeyError
    ensures r.Ok? ==> r.value.kind == PythonKind(name).value && r.value.settings == settings
  {
    var pyVersion := GetVersion(settings, "py_version", defaultPy);
    var bz2Version := GetVersion(settings, "bz2_version", "1.0.8");
    var sslVersion := GetVersion(settings, "ssl_version", "1.1.1g");
    var xzVersion := GetVersion(settings, "xv_version", "5.2.5");
    match PythonKind(name)
    case None => Err(KeyError)
    case Some(kind) =>
      var product := NewProduct("Python", pyVersion, BuildDir(name), [StaticLib(pyVersion)], PythonTemplate, []);
      var deps := [
        Builder(Bzip2, Bzip2Product(bz2Version, []), [], settings),
        Builder(Openssl, SslProduct(sslVersion, []), [], settings),
        Builder(Xz, XzProduct(xzVersion, []), [], settings)
      ];
      Ok(Builder(kind, product, deps, settings))
  }

  /** A Python builder builds "Python" in the directory its name derives,
      with one static library, and depends on bzip2, openssl and xz in that
      order, at the versions the settings give or their defaults. */
  lemma PythonBuilderShape(name: string, settings: Settings, defaultPy: string)
    requires VersionsAreStrings(settings)
    requires PythonKind(name).Some?
    ensures var r := PythonBuilderFactory(name, settings, defaultPy);
      && r.Ok?
      && r.value.product.name == "Python"
      && r.value.product.buildDir == BuildDir(name)
      && r.value.product.libsStatic == [StaticLib(GetVersion(settings, "py_version", defaultPy))]
      && |r.value.dependsOn| == 3
      && r.value.dependsOn[0].kind == Bzip2
      && r.value.dependsOn[1].kind == Openssl
      && r.value.dependsOn[2].kind == Xz
      && r.value.dependsOn[0].product.version == GetVersion(settings, "bz2_version", "1.0.8")
      && r.value.dependsOn[1].product.version == GetVersion(settings, "ssl_version", "1.1.1g")
      && r.value.dependsOn[2].product.version == GetVersion(settings, "xv_version", "5.2.5")
  {
    assert BuildDir(name) != "" by {
      assert name != "";
      if '_' !in name {
        BuildDirNoUnderscore(name);
      } else {
        var parts := LastTwo(Split(name, '_'));
        assert |parts| >= 1;
      }
    }
  }

  /** The class dict `pyjs_builder_factory` indexes: each class with the
      names of the Python builders it depends on. */
  function PyjsEntry(name: string): Result<(BuilderKind, seq<string>), BuildError> {
    if name == "homebrew_builder" then Ok((Homebrew, []))
    else if name == "static_ext_builder" then Ok((StaticExt, ["static_python_builder"]))
    else if name == "static_ext_full_builder" then Ok((StaticExtFull, ["static_python_builder_full"]))
    else if name == "shared_ext_builder" then Ok((SharedExt, ["shared_python_ext_builder"]))
    else if name == "shared_pkg_builder" then Ok((SharedPkg, ["shared_python_pkg_builder"]))
    else Err(KeyError)
  }

  /** `pyjs_builder_factory`: each dependency is built by calling
      `python_builder`, a name factory.py never defines, so the call raises
      `NameError` as soon as there is a dependency. */
  function PyjsBuilderFactory(name: string, pyVersion: string, settings: Settings): (r: Result<Builder, BuildError>)
    ensures PyjsEntry(name).Err? ==> r == Err(KeyError)
    ensures r.Ok? ==> r.value.dependsOn == [] && r.value.product.version == pyVersion
  {
    var entry :- PyjsEntry(name);
    if |entry.1| > 0 then Err(NameError)
    else Ok(Builder(entry.0, NewProduct("Python", pyVersion, "", [], [], []), [], settings))
  }

  /** Only the homebrew builder, which has no dependencies, can be made. */
  lemma PyjsOnlyHomebrew(name: string, pyVersion: string, settings: Settings)
    ensures PyjsBuilderFactory(name, pyVersion, settings).Ok? <==> name == "homebrew_builder"
  {
  }
}

=== FILE: build_models.dfy ===
/** The builder schema of archive/models_ng4.py: recipes hold projects,
    projects hold builders, each constructed from class lists by the
    `from_factory` class methods and visited in order by `build`. Its
    `Settings` class is the one `BuildCore.Update` models. */
module BuildModels {
  import opened Wrappers
  import ODict
  import opened BuildCore

  /** A project class: its name and its `builder_classes` attribute. */
  datatype ProjectClass = ProjectClass(className: string, builderClasses: seq<string>)

  datatype Builder = Builder(className: string, name: Option<string>, settings: Settings)
  datatype Project = Project(className: string, name: Option<string>, builders: seq<Builder>, settings: Settings)
  datatype Recipe = Recipe(name: Option<string>, projects: seq<Project>, settings: Settings)

  /** `builder_class(**settings)`: `from_factory` has already taken `name`,
      so the builder is unnamed. */
  function NewBuilder(className: string, settings: Settings): Builder {
    Builder(className, None, settings)
  }

  /** One builder per class, in order. */
  function Builders(classes: seq<string>, settings: Settings): (bs: seq<Builder>)
    ensures |bs| == |classes|
    ensures forall i :: 0 <= i < |classes| ==> bs[i] == NewBuilder(classes[i], settings)
  {
    seq(|classes|, i requires 0 <= i < |classes| => NewBuilder(classes[i], settings))
  }

  /** `Project.from_factory`: an empty (or missing) class list falls back
      to the class's own `builder_classes`; a `builders` setting collides
      with the constructor's own argument and raises `TypeError`. */
  function ProjectFromFactory(cls: ProjectClass, name: Option<string>, builderClasses: seq<string>, settings: Settings)
    : (r: Result<Project, BuildError>)
    ensures r.Err? <==> "builders" in ODict.Keys(settings)
    ensures r.Ok? ==> r.value.className == cls.className && r.value.name == name && r.value.settings == settings
    ensures r.Ok? && |builderClasses| > 0 ==> |r.value.builders| == |builderClasses|
    ensures r.Ok? && |builderClasses| == 0 ==> |r.value.builders| == |cls.builderClasses|
  {
    var classes := if |builderClasses| > 0 then builderClasses else cls.builderClasses;
    var bs := Builders(classes, settings);
    if "builders" in ODict.Keys(settings) then Err(TypeError)
    else Ok(Project(cls.className, name, bs, settings))
  }

  /** Exactly one builder per class, in the order given, each unnamed and
      sharing the project's settings. */
  lemma ProjectBuildersFollowClasses(cls: ProjectClass, name: Option<string>, builderClasses: seq<string>,
                                     settings: Settings, i: nat)
    requires "builders" !in ODict.Keys(settings)
    requires i < (if |builderClasses| > 0 then |builderClasses| else |cls.builderClasses|)
    ensures var p := ProjectFromFactory(cls, name, builderClasses, settings).value;
      && p.builders[i].className == (if |builderClasses| > 0 then builderClasses[i] else cls.builderClasses[i])
      && p.builders[i].name.None?
      && p.builders[i].settings == settings
  {
  }

  /** A project built from its class's own builder list. */
  function ClassProject(pc: ProjectClass, settings: Settings): Project {
    Project(pc.className, None, Builders(pc.builderClasses, settings), settings)
  }

  /** `Recipe.from_factory`: an empty class list falls back to the recipe
      class's own; a `builders` setting raises when the first project is
      made, a `projects` setting when the recipe is. */
  function RecipeFromFactory(ownClasses: seq<ProjectClass>, name: Option<string>, projectClasses: seq<ProjectClass>,
                             settings: Settings): (r: Result<Recipe, BuildError>)
    ensures r.Ok? ==> r.value.name == name && r.value.settings == settings
    ensures r.Ok? ==> |r.value.projects| == |if |projectClasses| > 0 then projectClasses else ownClasses|
    ensures "projects" in ODict.Keys(settings) ==> r.Err?
    ensures r.Ok? <==> "projects" !in ODict.Keys(settings)
                       && !(|if |projectClasses| > 0 then projectClasses else ownClasses| > 0 && "builders" in ODict.Keys(settings))
    ensures r.Ok? ==>
      var classes := if |projectClasses| > 0 then projectClasses else ownClasses;
      forall i :: 0 <= i < |classes| ==>
        && r.value.projects[i].className == classes[i].className
        && r.value.projects[i].name.None?
        && ClassNames(r.value.projects[i].builders) == classes[i].builderClasses
  {
    var classes := if |projectClasses| > 0 then projectClasses else ownClasses;
    if |classes| > 0 && "builders" in ODict.Keys(settings) then Err(TypeError)
    else if "projects" in ODict.Keys(settings) then Err(TypeError)
    else Ok(Recipe(name, seq(|classes|, i requires 0 <= i < |classes| => ClassProject(classes[i], settings)), settings))
  }

  /** What `build` prints, one line per object visited. */
  datatype Visit = VisitRecipe(recipe: Option<string>) | VisitProject(project: string) | VisitBuilder(builder: string)

  /** `Project.build`: the project line, then each builder in list order. */
  function ProjectTrace(p: Project): (t: seq<Visit>)
    ensures |t| == 1 + |p.builders|
    ensures t[0] == VisitProject(p.className)
    ensures forall j :: 0 <= j < |p.builders| ==> t[1 + j] == VisitBuilder(p.builders[j].className)
  {
    [VisitProject(p.className)] + BuilderLines(p.builders)
  }

  /** One builder line per builder. */
  function BuilderLines(bs: seq<Builder>): (t: seq<Visit>)
    ensures |t| == |bs| && forall j :: 0 <= j < |bs| ==> t[j] == VisitBuilder(bs[j].className)
  {
    seq(|bs|, j requires 0 <= j < |bs| => VisitBuilder(bs[j].className))
  }

  function ProjectsTrace(ps: seq<Project>): seq<Visit> {
    if |ps| == 0 then [] else ProjectTrace(ps[0]) + ProjectsTrace(ps[1..])
  }

  /** `Recipe.build`: the recipe line, then each project in list order. */
  function RecipeTrace(r: Recipe): (t: seq<Visit>)
    ensures |t| >= 1 && t[0] == VisitRecipe(r.name)
  {
    [VisitRecipe(r.name)] + ProjectsTrace(r.projects)
  }

  /** The builder classes a trace visits, in order. */
  function BuilderVisits(t: seq<Visit>): seq<string> {
    if |t| == 0 then []
    else (if t[0].VisitBuilder? then [t[0].builder] else []) + BuilderVisits(t[1..])
  }

  /** The project classes a trace visits, in order. */
  function ProjectVisits(t: seq<Visit>): seq<string> {
    if |t| == 0 then []
    else (if t[0].VisitProject? then [t[0].project] else []) + ProjectVisits(t[1..])
  }

  lemma {:induction false} VisitsAppend(a: seq<Visit>, b: seq<Visit>)
    ensures BuilderVisits(a + b) == BuilderVisits(a) + BuilderVisits(b)
    ensures ProjectVisits(a + b) == ProjectVisits(a) + ProjectVisits(b)
    decreases |a|
  {
    if |a| == 0 {
      assert a + b == b;
    } else {
      assert (a + b)[0] == a[0] && (a + b)[1..] == a[1..] + b;
      VisitsAppend(a[1..], b);
    }
  }

  /** The builder class names of a list of builders. */
  function ClassNames(bs: seq<Builder>): (ns: seq<string>)
    ensures |ns| == |bs| && forall j :: 0 <= j < |bs| ==> ns[j] == bs[j].className
  {
    seq(|bs|, j requires 0 <= j < |bs| => bs[j].className)
  }

  /** Each project's builders, one list after another. */
  function AllBuilders(ps: seq<Project>): seq<string> {
    if |ps| == 0 then [] else ClassNames(ps[0].builders) + AllBuilders(ps[1..])
  }

  function ProjectNames(ps: seq<Project>): (ns: seq<string>)
    ensures |ns| == |ps| && forall i :: 0 <= i < |ps| ==> ns[i] == ps[i].className
  {
    seq(|ps|, i requires 0 <= i < |ps| => ps[i].className)
  }

  lemma {:induction false} BuilderLinesOfProject(bs: seq<Builder>)
    ensures BuilderVisits(BuilderLines(bs)) == ClassNames(bs)
    ensures ProjectVisits(BuilderLines(bs)) == []
    decreases |bs|
  {
    var t := BuilderLines(bs);
    if |bs| > 0 {
      BuilderLinesOfProject(bs[1..]);
      assert t[1..] == BuilderLines(bs[1..]);
      assert ClassNames(bs) == [bs[0].className] + ClassNames(bs[1..]);
    }
  }

  lemma {:induction false} ProjectsTraceVisits(ps: seq<Project>)
    ensures BuilderVisits(ProjectsTrace(ps)) == AllBuilders(ps)
    ensures ProjectVisits(ProjectsTrace(ps)) == ProjectNames(ps)
    decreases |ps|
  {
    if |ps| > 0 {
      var p := ps[0];
      var lines := BuilderLines(p.builders);
      ProjectsTraceVisits(ps[1..]);
      VisitsAppend(ProjectTrace(p), ProjectsTrace(ps[1..]));
      VisitsAppend([VisitProject(p.className)], lines);
      BuilderLinesOfProject(p.builders);
      assert ProjectTrace(p) == [VisitProject(p.className)] + lines;
      assert BuilderVisits([VisitProject(p.className)]) == [] by {
        assert [VisitProject(p.className)][1..] == [];
      }
      assert ProjectVisits([VisitProject(p.className)]) == [p.className] by {
        assert [VisitProject(p.className)][1..] == [];
      }
      assert ProjectNames(ps) == [p.className] + ProjectNames(ps[1..]);
      assert ProjectsTrace(ps) == ProjectTrace(p) + ProjectsTrace(ps[1..]);
      assert BuilderVisits(ProjectTrace(p)) == ClassNames(p.builders);
      assert ProjectVisits(ProjectTrace(p)) == [p.className];
    } else {
      assert ProjectNames(ps) == [];
    }
  }

  /** `build` visits the projects in list order and, within each, its
      builders in list order. */
  lemma BuildOrder(r: Recipe)
    ensures ProjectVisits(RecipeTrace(r)) == ProjectNames(r.projects)
    ensures BuilderVisits(RecipeTrace(r)) == AllBuilders(r.projects)
  {
    ProjectsTraceVisits(r.projects);
    VisitsAppend([VisitRecipe(r.name)], ProjectsTrace(r.projects));
    assert [VisitRecipe(r.name)][1..] == [];
  }

  /** The class names, one class's builder list after another. */
  function AllClassBuilders(pcs: seq<ProjectClass>): seq<string> {
    if |pcs| == 0 then [] else pcs[0].builderClasses + AllClassBuilders(pcs[1..])
  }

  lemma {:induction false} ClassProjectsBuilders(pcs: seq<ProjectClass>, settings: Settings)
    ensures AllBuilders(seq(|pcs|, i requires 0 <= i < |pcs| => ClassProject(pcs[i], settings))) == AllClassBuilders(pcs)
    decreases |pcs|
  {
    var ps := seq(|pcs|, i requires 0 <= i < |pcs| => ClassProject(pcs[i], settings));
    if |pcs| > 0 {
      ClassProjectsBuilders(pcs[1..], settings);
      assert ps[1..] == seq(|pcs[1..]|, i requires 0 <= i < |pcs[1..]| => ClassProject(pcs[1..][i], settings));
      assert ClassNames(ps[0].builders) == pcs[0].builderClasses;
    }
  }

  /** Building a recipe made by the factory runs one builder per builder
      class of each project class, in class order. */
  lemma FactoryRecipeBuildOrder(ownClasses: seq<ProjectClass>, name: Option<string>,
                                projectClasses: seq<ProjectClass>, settings: Settings)
    requires RecipeFromFactory(ownClasses, name, projectClasses, settings).Ok?
    ensures BuilderVisits(RecipeTrace(RecipeFromFactory(ownClasses, name, projectClasses, settings).value))
            == AllClassBuilders(if |projectClasses| > 0 then projectClasses else ownClasses)
  {
    var classes := if |projectClasses| > 0 then projectClasses else ownClasses;
    var r := RecipeFromFactory(ownClasses, name, projectClasses, settings).value;
    BuildOrder(r);
    ClassProjectsBuilders(classes, settings);
  }
}

=== FILE: build_patch.dfy ===
/** The `Setup.local` helpers: the line splitter, `Module` rendering, and
    the module bindings the `core` list is built from. */
module BuildPatch {
  import opened Wrappers
  import PyStr
  import ODict
  import opened BuildCore

  /** One `(category, first token, remaining tokens)` triple. */
  datatype Entry = Entry(category: string, head: string, args: seq<string>)

  /** `[line for line in lines if line]` */
  function NonEmpty(lines: seq<string>): (r: seq<string>)
    ensures forall i :: 0 <= i < |r| ==> r[i] != "" && r[i] in lines
    ensures (forall i :: 0 <= i < |lines| ==> lines[i] != "") ==> r == lines
  {
    if |lines| == 0 then []
    else (if lines[0] == "" then [] else [lines[0]]) + NonEmpty(lines[1..])
  }

  /** A line's entry: its first token and the rest. */
  function ToEntry(line: string, category: string): (e: Entry)
    requires |PyStr.SplitWs(line)| > 0
    ensures [e.head] + e.args == PyStr.SplitWs(line)
  {
    var xs := PyStr.SplitWs(line);
    assert xs == [xs[0]] + xs[1..];
    Entry(category, xs[0], xs[1..])
  }

  /** Every line has a token. */
  predicate AllTokens(lines: seq<string>) {
    forall i :: 0 <= i < |lines| ==> |PyStr.SplitWs(lines[i])| > 0
  }

  /** One entry per line, in order; the first line without tokens raises
      `IndexError` at `xs[0]`. */
  function Entries(lines: seq<string>, category: string): (r: Result<seq<Entry>, BuildError>)
    ensures r.Ok? <==> AllTokens(lines)
    ensures r.Err? ==> r.error == IndexError
    ensures r.Ok? ==> |r.value| == |lines|
    ensures r.Ok? ==> forall i :: 0 <= i < |lines| ==>
      r.value[i].category == category && [r.value[i].head] + r.value[i].args == PyStr.SplitWs(lines[i])
  {
    if AllTokens(lines) then Ok(seq(|lines|, i requires 0 <= i < |lines| => ToEntry(lines[i], category)))
    else Err(IndexError)
  }

  /** `split(s, category)` */
  function Split(s: string, category: string): (r: Result<seq<Entry>, BuildError>)
    ensures r.Ok? ==> |r.value| == |NonEmpty(PyStr.SplitLines(s))|
  {
    Entries(NonEmpty(PyStr.SplitLines(s)), category)
  }

  /** A line holding only whitespace is not dropped by the filter and makes
      the split fail. */
  lemma WhitespaceLineFails(s: string, category: string, i: nat)
    requires i < |NonEmpty(PyStr.SplitLines(s))|
    requires PyStr.SplitWs(NonEmpty(PyStr.SplitLines(s))[i]) == []
    ensures Split(s, category) == Err(IndexError)
  {
  }

  /** A line break is whitespace, so whitespace-free words hold none. */
  lemma NoSpaceNoLineBreak(w: string)
    requires PyStr.NoSpace(w)
    ensures PyStr.NoLineBreak(w)
  {
    forall i | 0 <= i < |w| ensures !PyStr.IsLineBreak(w[i]) {
      assert !PyStr.IsSpace(w[i]);
    }
  }

  /** A line rendered from whitespace-free words. */
  function Render(e: Entry): string {
    PyStr.Join([e.head] + e.args, " ")
  }

  predicate WordEntry(e: Entry) {
    forall w :: w in [e.head] + e.args ==> |w| > 0 && PyStr.NoSpace(w)
  }

  lemma RenderNoLineBreak(e: Entry)
    requires WordEntry(e)
    ensures Render(e) != "" && PyStr.NoLineBreak(Render(e))
  {
    var ws := [e.head] + e.args;
    forall i | 0 <= i < |ws| ensures PyStr.NoLineBreak(ws[i]) {
      assert ws[i] in ws;
      NoSpaceNoLineBreak(ws[i]);
    }
    PyStr.JoinNoLineBreak(ws);
    assert e.head in ws;
    if |ws| == 1 {
      assert Render(e) == e.head;
    } else {
      assert Render(e) == e.head + " " + PyStr.Join(ws[1..], " ");
    }
  }

  /** The rendered lines of a sequence of entries. */
  function Lines(es: seq<Entry>): (r: seq<string>)
    ensures |r| == |es| && forall i :: 0 <= i < |es| ==> r[i] == Render(es[i])
  {
    seq(|es|, i requires 0 <= i < |es| => Render(es[i]))
  }

  lemma EntriesOfRendered(es: seq<Entry>, category: string)
    requires forall i :: 0 <= i < |es| ==> WordEntry(es[i]) && es[i].category == category
    ensures Entries(Lines(es), category) == Ok(es)
  {
    var lines := Lines(es);
    forall i | 0 <= i < |lines| ensures PyStr.SplitWs(lines[i]) == [es[i].head] + es[i].args {
      PyStr.SplitWsJoin([es[i].head] + es[i].args);
    }
    var r := Entries(lines, category);
    assert r.Ok?;
    forall i | 0 <= i < |es| ensures r.value[i] == es[i] {
      var x := [r.value[i].head] + r.value[i].args;
      assert x == [es[i].head] + es[i].args;
      assert x[0] == r.value[i].head && x[1..] == r.value[i].args;
      assert x[0] == es[i].head && x[1..] == es[i].args;
    }
    assert r.value == es;
  }

  /** Splitting the rendered lines of word entries gives the entries back. */
  lemma SplitRendered(es: seq<Entry>, category: string)
    requires forall i :: 0 <= i < |es| ==> WordEntry(es[i]) && es[i].category == category
    ensures Split(PyStr.Join(Lines(es), "\n"), category) == Ok(es)
  {
    var lines := Lines(es);
    forall i | 0 <= i < |lines| ensures lines[i] != "" && PyStr.NoLineBreak(lines[i]) {
      RenderNoLineBreak(es[i]);
    }
    PyStr.SplitLinesJoin(lines);
    assert NonEmpty(PyStr.SplitLines(PyStr.Join(lines, "\n"))) == lines;
    EntriesOfRendered(es, category);
  }

  /** `Module(name, mode, vers, elems)`: mode holds the four 0/1/2 flags. */
  datatype Module = Module(name: string, mode: (int, int, int, int), vers: ODict.Dict<int>, elems: seq<string>)

  /** `str(module)`: the name and the elements, space-separated. */
  function Str(m: Module): string {
    PyStr.Join([m.name] + m.elems, " ")
  }

  /** The rendered module splits back into its name and elements. */
  lemma StrWords(m: Module)
    requires forall w :: w in [m.name] + m.elems ==> |w| > 0 && PyStr.NoSpace(w)
    ensures PyStr.SplitWs(Str(m)) == [m.name] + m.elems
  {
    PyStr.SplitWsJoin([m.name] + m.elems);
  }

  /** An element of the tuple `as_tuple` builds. */
  datatype Item = TStr(s: string) | TInt(i: int)

  /** `(name,) + mode + tuple(vers.values())` */
  function AsTuple(m: Module): (t: seq<Item>)
    ensures |t| == 5 + |m.vers|
    ensures t[0] == TStr(m.name)
    ensures t[1] == TInt(m.mode.0) && t[2] == TInt(m.mode.1) && t[3] == TInt(m.mode.2) && t[4] == TInt(m.mode.3)
    ensures forall i :: 0 <= i < |m.vers| ==> t[5 + i] == TInt(m.vers[i].1)
  {
    [TStr(m.name), TInt(m.mode.0), TInt(m.mode.1), TInt(m.mode.2), TInt(m.mode.3)]
      + seq(|m.vers|, i requires 0 <= i < |m.vers| => TInt(m.vers[i].1))
  }

  /** The module-level assignments from `posix` to the second `_weakref`, in
      source order; the later assignments bind no name the `core` list uses. */
  const Bindings: seq<(string, Module)> := [
      ("posix", Module("posix", (1, 1, 1, 1), [("3.7", 1), ("3.8", 1), ("3.9", 1), ("3.10", 1)], ["-DPy_BUILD_CORE_BUILTIN", "-I$(srcdir)/Include/internal", "posixmodule.c"])),
      ("errno", Module("errno", (1, 1, 1, 1), [("3.7", 1), ("3.8", 1), ("3.9", 1), ("3.10", 1)], ["errnomodule.c"])),
      ("pwd", Module("pwd", (1, 1, 1, 1), [("3.7", 1), ("3.8", 1), ("3.9", 1), ("3.10", 1)], ["pwdmodule.c"])),
      ("_sre", Module("_sre", (1, 1, 1, 1), [("3.7", 1), ("3.8", 1), ("3.9", 1), ("3.10", 1)], ["-DPy_BUILD_CORE_BUILTIN", "_sre.c"])),
      ("_codecs", Module("_codecs", (1, 1, 1, 1), [("3.7", 1), ("3.8", 1), ("3.9", 1), ("3.10", 1)], ["_codecsmodule.c"])),
      ("_weakref", Module("_weakref", (1, 1, 1, 1), [("3.7", 1), ("3.8", 1), ("3.9", 1), ("3.10", 1)], ["_weakref.c"])),
      ("_functools", Module("_functools", (1, 1, 1, 1), [("3.7", 1), ("3.8", 1), ("3.9", 1), ("3.10", 1)], ["-DPy_BUILD_CORE_BUILTIN", "-I$(srcdir)/Include/internal", "_functoolsmodule.c"])),
      ("_operator", Module("_operator", (1, 1, 1, 1), [("3.7", 1), ("3.8", 1), ("3.9", 1), ("3.10", 1)], ["-DPy_BUILD_CORE_BUILTIN", "_operator.c"])),
      ("_collections", Module("_collections", (1, 1, 1, 1), [("3.7", 1), ("3.8", 1), ("3.9", 1), ("3.10", 1)], ["_collectionsmodule.c"])),
      ("_abc", Module("_abc", (1, 1, 1, 1), [("3.7", 1), ("3.8", 1), ("3.9", 1), ("3.10", 1)], ["-DPy_BUILD_CORE_BUILTIN", "_abc.c"])),
      ("itertools", Module("itertools", (1, 1, 1, 1), [("3.7", 1), ("3.8", 1), ("3.9", 1), ("3.10", 1)], ["itertoolsmodule.c"])),
      ("atexit", Module("atexit", (1, 1, 1, 1), [("3.7", 1), ("3.8", 1), ("3.9", 1), ("3.10", 1)], ["atexitmodule.c"])),
      ("_signal", Module("_signal", (1, 1, 1, 1), [("3.7", 1), ("3.8", 1), ("3.9", 1), ("3.10", 1)], ["-DPy_BUILD_CORE_BUILTIN", "-I$(srcdir)/Include/internal", "signalmodule.c"])),
      ("_stat", Module("_stat", (1, 1, 1, 1), [("3.7", 1), ("3.8", 1), ("3.9", 1), ("3.10", 1)], ["_stat.c"])),
      ("time", Module("time", (1, 1, 1, 1), [("3.7", 1), ("3.8", 1), ("3.9", 1), ("3.10", 1)], ["-DPy_BUILD_CORE_BUILTIN", "-I$(srcdir)/Include/internal", "timemodule.c"])),
      ("_thread", Module("_thread", (1, 1, 1, 1), [("3.7", 1), ("3.8", 1), ("3.9", 1), ("3.10", 1)], ["-DPy_BUILD_CORE_BUILTIN", "-I$(srcdir)/Include/internal", "_threadmodule.c"])),
      ("_locale", Module("_locale", (1, 1, 1, 1), [("3.7", 1), ("3.8", 1), ("3.9", 1), ("3.10", 1)], ["-DPy_BUILD_CORE_BUILTIN", "_localemodule.c"])),
      ("_io", Module("_io", (1, 1, 1, 1), [("3.7", 1), ("3.8", 1), ("3.9", 1), ("3.10", 1)], ["-DPy_BUILD_CORE_BUILTIN", "-I$(srcdir)/Include/internal", "-I$(srcdir)/Modules/_io", "_io/_iomodule.c", "_io/iobase.c", "_io/fileio.c", "_io/bytesio.c", "_io/bufferedio.c", "_io/textio.c", "_io/stringio.c"])),
      ("faulthandler", Module("faulthandler", (1, 1, 1, 1), [("3.7", 1), ("3.8", 1), ("3.9", 1), ("3.10", 1)], ["faulthandler.c"])),
      ("zipimport", Module("zipimport", (1, 1, 1, 1), [("3.7", 1), ("3.8", 0), ("3.9", 0), ("3.10", 0)], ["-DPy_BUILD_CORE", "zipimport.c"])),
      ("_tracemalloc", Module("_tracemalloc", (1, 1, 1, 1), [("3.7", 1), ("3.8", 1), ("3.9", 1), ("3.10", 1)], ["_tracemalloc.c"])),
      ("_peg_parser", Module("_peg_parser", (1, 1, 1, 1), [("3.7", 0), ("3.8", 0), ("3.9", 1), ("3.10", 1)], ["_peg_parser.c"])),
      ("_symtable", Module("_symtable", (1, 1, 1, 1), [("3.7", 1), ("3.8", 1), ("3.9", 1), ("3.10", 1)], ["symtablemodule.c"])),
      ("readline", Module("readline", (1, 1, 1, 1), [("3.7", 1), ("3.8", 1), ("3.9", 1), ("3.10", 1)], ["readline.c", "-lreadline", "-ltermcap"])),
      ("array", Module("array", (0, 0, 0, 0), [("3.7", 1), ("3.8", 1), ("3.9", 1), ("3.10", 1)], ["-DPy_BUILD_CORE_MODULE", "arraymodule.c"])),
      ("cmath", Module("cmath", (0, 0, 0, 0), [("3.7", 1), ("3.8", 1), ("3.9", 1), ("3.10", 1)], ["cmathmodule.c", "_math.c", "-DPy_BUILD_CORE_MODULE"])),
      ("math", Module("math", (0, 0, 0, 0), [("3.7", 1), ("3.8", 1), ("3.9", 1), ("3.10", 1)], ["mathmodule.c", "_math.c", "-DPy_BUILD_CORE_MODULE"])),
      ("_contextvars", Module("_contextvars", (0, 0, 0, 0), [("3.7", 1), ("3.8", 1), ("3.9", 1), ("3.10", 1)], ["_contextvarsmodule.c"])),
      ("_struct", Module("_struct", (0, 0, 0, 0), [("3.7", 1), ("3.8", 1), ("3.9", 1), ("3.10", 1)], ["-DPy_BUILD_CORE_MODULE", "_struct.c"])),
      ("_weakref", Module("_weakref", (0, 0, 0, 0), [("3.7", 1), ("3.8", 1), ("3.9", 1), ("3.10", 1)], ["_weakref.c"]))
    ]

  /** The names listed in `core`. */
  const CoreNames: seq<string> := [
      "posix",
      "errno",
      "pwd",
      "_sre",
      "_codecs",
      "_weakref",
      "_functools",
      "_operator",
      "_collections",
      "_abc",
      "itertools",
      "atexit",
      "_signal",
      "_stat",
      "time",
      "_thread",
      "_locale",
      "_io",
      "faulthandler",
      "zipimport",
      "_tracemalloc",
      "_peg_parser",
      "_symtable"
    ]

  /** A name evaluates to the module its last assignment bound. */
  function Resolve(bindings: seq<(string, Module)>, name: string): (r: Result<Module, BuildError>)
    ensures r.Err? <==> name !in ODict.Keys(bindings)
  {
    match ODict.LastGet(bindings, name)
    case Some(m) => Ok(m)
    case None => Err(NameError)
  }

  /** The `core` list as written: each name looked up where the list is
      built, after all the assignments. */
  function CoreAsWritten(): (r: seq<Result<Module, BuildError>>)
    ensures |r| == |CoreNames|
  {
    seq(|CoreNames|, i requires 0 <= i < |CoreNames| => Resolve(Bindings, CoreNames[i]))
  }

  /** The sixth core entry is the disabled rebinding of `_weakref`, not its
      core definition. */
  lemma CoreWeakrefIsRebound()
    ensures CoreNames[5] == "_weakref" && Bindings[5].0 == "_weakref"
    ensures Bindings[5].1.mode == (1, 1, 1, 1)
    ensures CoreAsWritten()[5].Ok? && CoreAsWritten()[5].value.mode == (0, 0, 0, 0)
  {
    assert Bindings[|Bindings| - 1].0 == "_weakref";
  }

  /** The `core` list as evidently intended: the modules defined in the core
      block, in order. */
  function CoreIntended(): (r: seq<Module>)
    ensures |r| == |CoreNames|
  {
    seq(|CoreNames|, i requires 0 <= i < |CoreNames| => Bindings[i].1)
  }

  /** Every intended core module is the one of that name and is enabled in
      all four build modes. */
  lemma CoreIntendedEnabled()
    ensures forall i :: 0 <= i < |CoreNames| ==> CoreIntended()[i].name == CoreNames[i]
    ensures forall i :: 0 <= i < |CoreNames| ==> CoreIntended()[i].mode == (1, 1, 1, 1)
  {
  }
}

=== FILE: conversion.dfy ===
/** The translations the two box externals share: host atoms to a Python
    list (py_atoms_to_list), and a result object to outlet messages (the
    float, long, string and list output handlers). */
module Conversion {
  import opened Wrappers
  import opened PyValues

  /** One atom as a list element: long, float and symbol atoms convert,
      atoms with any other tag are skipped. */
  function AtomItem(a: Atom): Option<PyVal> {
    match a
    case ALong(l) => Some(Int(l))
    case AFloat(f) => Some(Float(f))
    case ASym(s) => Some(Str(s))
    case _ => None
  }

  predicate Translatable(a: Atom) {
    a.ALong? || a.AFloat? || a.ASym?
  }

  /** The atoms that survive the translation, in order. */
  function Kept(atoms: seq<Atom>): (r: seq<Atom>)
    ensures forall a :: a in r ==> Translatable(a)
    ensures (forall i :: 0 <= i < |atoms| ==> Translatable(atoms[i])) ==> r == atoms
  {
    if |atoms| == 0 then []
    else (if Translatable(atoms[0]) then [atoms[0]] else []) + Kept(atoms[1..])
  }

  /** py_atoms_to_list on the atoms from `start_from` on. */
  function AtomsToItems(atoms: seq<Atom>): (items: seq<PyVal>)
    ensures |items| <= |atoms|
    ensures |items| == |atoms| <==> forall i :: 0 <= i < |atoms| ==> Translatable(atoms[i])
    ensures forall v :: v in items ==> Convertible(v)
  {
    if |atoms| == 0 then []
    else
      (match AtomItem(atoms[0]) case Some(v) => [v] case None => []) + AtomsToItems(atoms[1..])
  }

  /** The output sequences the list handler accepts: PySequence_Check holds
      and the object is not a str, bytes or bytearray. */
  predicate ListLike(v: PyVal) {
    SequenceCheck(v) && !UnicodeCheck(v) && !v.Bytes? && !v.ByteArray?
  }

  lemma ListLikeIsListOrTuple(v: PyVal)
    ensures ListLike(v) <==> v.List? || v.Tuple?
  {
  }

  /** The list handler's element loop: the atoms of the convertible
      elements in order, or None when an int does not fit a C long. */
  function ItemsToAtoms(items: seq<PyVal>): (r: Option<seq<Atom>>)
    ensures r.Some? <==> forall i :: 0 <= i < |items| ==> !Overflows(items[i])
    ensures r.Some? ==> |r.value| == CountConvertible(items)
    decreases |items|
  {
    if |items| == 0 then Some([])
    else
      var rest := ItemsToAtoms(items[1..]);
      match LongFirstItem(items[0])
      case Overflow => None
      case Drop => rest
      case Keep(a) => if rest.Some? then Some([a] + rest.value) else None
  }

  /** Converting one more element extends the converted prefix. */
  lemma {:induction false} ItemsToAtomsSnoc(items: seq<PyVal>, x: PyVal)
    ensures ItemsToAtoms(items + [x]) ==
      match (ItemsToAtoms(items), LongFirstItem(x))
      case (None, _) => None
      case (_, Overflow) => None
      case (Some(p), Drop) => Some(p)
      case (Some(p), Keep(a)) => Some(p + [a])
    decreases |items|
  {
    if |items| == 0 {
      assert items + [x] == [x];
      assert [x][1..] == [];
      match LongFirstItem(x) {
        case Keep(a) => assert [a] + [] == [] + [a];
        case _ =>
      }
    } else {
      assert (items + [x])[0] == items[0];
      assert (items + [x])[1..] == items[1..] + [x];
      ItemsToAtomsSnoc(items[1..], x);
      match (ItemsToAtoms(items[1..]), LongFirstItem(x)) {
        case (Some(p), Keep(a)) =>
          if LongFirstItem(items[0]).Keep? {
            assert [LongFirstItem(items[0]).a] + (p + [a]) == ([LongFirstItem(items[0]).a] + p) + [a];
          }
        case _ =>
      }
    }
  }

  /** Host atoms survive the trip into a Python list and back out through
      the list handler unchanged, except that atoms of other tags are gone. */
  lemma {:induction false} AtomsRoundTrip(atoms: seq<Atom>)
    requires forall i :: 0 <= i < |atoms| ==> HostAtom(atoms[i])
    ensures ItemsToAtoms(AtomsToItems(atoms)) == Some(Kept(atoms))
    decreases |atoms|
  {
    if |atoms| > 0 {
      var a := atoms[0];
      var rest := AtomsToItems(atoms[1..]);
      AtomsRoundTrip(atoms[1..]);
      assert Kept(atoms) == (if Translatable(a) then [a] else []) + Kept(atoms[1..]);
      if Translatable(a) {
        AtomItemRoundTrip(a);
        assert AtomsToItems(atoms) == [AtomItem(a).value] + rest;
        assert ([AtomItem(a).value] + rest)[1..] == rest;
      } else {
        assert AtomsToItems(atoms) == rest;
        assert Kept(atoms) == Kept(atoms[1..]);
      }
    }
  }

  /** One host atom converts to an element that the list handler turns back
      into the same atom. */
  lemma AtomItemRoundTrip(a: Atom)
    requires HostAtom(a) && Translatable(a)
    ensures AtomItem(a).Some? && LongFirstItem(AtomItem(a).value) == Keep(a)
  {
  }

  /** py_handle_float_output */
  function FloatOutput(v: PyVal): (r: Reply)
    ensures r.code == ErrNone
    ensures FloatCheck(v) ==> r.trace == [Value([AFloat(v.x)]), Success]
    ensures !FloatCheck(v) ==> r.trace == []
  {
    if FloatCheck(v) then Reply(ErrNone, [Value([AFloat(v.x)]), Success]) else Reply(ErrNone, [])
  }

  /** py_handle_long_output: ints and bools; an int outside the C long range
      takes the error path. */
  function LongOutput(v: PyVal): (r: Reply)
    ensures r.code == ErrGeneric <==> Overflows(v)
    ensures r.code == ErrGeneric ==> r.trace == [Failure]
    ensures LongCheck(v) && !Overflows(v) ==> r.trace == [Value([ALong(LongValue(v))]), Success]
    ensures !LongCheck(v) ==> r.trace == []
  {
    if LongCheck(v) then
      if FitsLong(LongValue(v)) then Reply(ErrNone, [Value([ALong(LongValue(v))]), Success])
      else Reply(ErrGeneric, [Failure])
    else Reply(ErrNone, [])
  }

  /** py_handle_string_output: the string becomes a message selector with no
      arguments. */
  function StringOutput(v: PyVal): (r: Reply)
    ensures r.code == ErrNone
    ensures UnicodeCheck(v) ==> r.trace == [Value([ASym(v.s)]), Success]
    ensures !UnicodeCheck(v) ==> r.trace == []
  {
    if UnicodeCheck(v) then Reply(ErrNone, [Value([ASym(v.s)]), Success]) else Reply(ErrNone, [])
  }

  /** py_handle_list_output: an empty sequence is an error, otherwise one
      list message of the converted elements. */
  function ListOutput(v: PyVal): Reply {
    if !ListLike(v) then Reply(ErrNone, [])
    else if |v.items| == 0 then Reply(ErrGeneric, [Failure])
    else match ItemsToAtoms(v.items)
      case None => Reply(ErrGeneric, [Failure])
      case Some(atoms) => Reply(ErrNone, [Value(atoms), Success])
  }

  /** What the list handler does, by cases: nothing for a non-sequence,
      a failure bang for an empty sequence or an unrepresentable int, and
      otherwise exactly the convertible elements, in order, then a bang. */
  lemma ListOutputCases(v: PyVal)
    ensures !ListLike(v) ==> ListOutput(v) == Reply(ErrNone, [])
    ensures ListLike(v) ==>
      (ListOutput(v).code == ErrNone <==>
        |v.items| > 0 && forall i :: 0 <= i < |v.items| ==> !Overflows(v.items[i]))
    ensures ListLike(v) && ListOutput(v).code == ErrGeneric ==> ListOutput(v).trace == [Failure]
    ensures ListLike(v) && ListOutput(v).code == ErrNone ==>
      |ListOutput(v).trace| == 2 && ListOutput(v).trace[1] == Success &&
      ListOutput(v).trace[0].Value? && |ListOutput(v).trace[0].atoms| == CountConvertible(v.items)
  {
  }

  /** A list message built from host atoms carries those atoms back out. */
  lemma ListOfAtomsRoundTrip(atoms: seq<Atom>)
    requires forall i :: 0 <= i < |atoms| ==> HostAtom(atoms[i])
    requires |AtomsToItems(atoms)| > 0
    ensures ListOutput(List(AtomsToItems(atoms))) == Reply(ErrNone, [Value(Kept(atoms)), Success])
  {
    AtomsRoundTrip(atoms);
  }

  /** The list handler with its atom buffer: the 128-slot static buffer, or a
      dynamic one of `length + 1` slots when the sequence is longer. It sends
      what ListOutput describes, switches to the dynamic buffer exactly when
      the sequence has more than 128 elements, and never writes past the
      buffer's capacity. */
  method ListOutputBuffered(v: PyVal) returns (rep: Reply, dynamic: bool)
    ensures rep == ListOutput(v)
    ensures dynamic <==> ListLike(v) && |v.items| > MaxAtoms
  {
    if !ListLike(v) {
      return Reply(ErrNone, []), false;
    }
    var items := v.items;
    if |items| == 0 {
      return Reply(ErrGeneric, [Failure]), false;
    }
    dynamic := |items| > MaxAtoms;
    var cap := if dynamic then |items| + 1 else MaxAtoms;
    var buf: seq<Atom> := [];
    var k := 0;
    while k < |items|
      invariant 0 <= |buf| <= k <= |items| <= cap
      invariant ItemsToAtoms(items[..k]) == Some(buf)
    {
      ItemsToAtomsSnoc(items[..k], items[k]);
      assert items[..k + 1] == items[..k] + [items[k]];
      match LongFirstItem(items[k]) {
        case Overflow =>
          assert Overflows(items[k]) && ItemsToAtoms(items).None?;
          return Reply(ErrGeneric, [Failure]), dynamic;
        case Drop =>
        case Keep(a) =>
          assert |buf| < cap;
          buf := buf + [a];
      }
      k := k + 1;
    }
    assert items[..k] == items;
    rep := Reply(ErrNone, [Value(buf), Success]);
  }
}

=== FILE: interpreter.dfy ===
/** The embedded interpreter and the host's text conversion, as an oracle:
    the model never evaluates Python, it only routes the oracle's answers. */
module Interpreter {
  import opened Wrappers
  import opened PyValues

  /** Py_eval_input, Py_single_input and Py_file_input. */
  datatype Mode = EvalInput | SingleInput | FileInput

  /** Every call into code the model cannot see.
      - compile: the exception Py_CompileString raises, None when it compiles;
      - run: PyRun_String (or compile followed by PyEval_EvalCode);
      - call: a call with the given positional arguments;
      - importModule: PyImport_ImportModule;
      - getAttr: PyObject_GetAttrString, None when it raises;
      - isCallable: PyCallable_Check;
      - gettext: the host's atom_gettext, rendering atoms as source text. */
  datatype Oracle = Oracle(
    compile: (string, Mode) -> Option<ExcKind>,
    run: (string, Mode) -> PyResult,
    call: (PyVal, seq<PyVal>) -> PyResult,
    importModule: string -> PyResult,
    getAttr: (PyVal, string) -> Option<PyVal>,
    isCallable: PyVal -> bool,
    gettext: seq<Atom> -> string
  )

  /** A per-object `globals` dictionary, as far as the C code writes to it;
      the oracle does not read it back. */
  type Namespace = map<string, PyVal>

  /** atom_getsym on the first atom: its name when it is a symbol, else the
      empty symbol. */
  function FirstSym(args: seq<Atom>): string {
    if |args| > 0 && args[0].ASym? then args[0].s else ""
  }

  /** The host's file lookup: `locate` is locatefile_extended followed by
      path_toabsolutesystempath (None when either fails), `contents` is what
      fopen and the interpreter read from an absolute path (None when the
      file cannot be opened). */
  datatype Host = Host(
    locate: string -> Option<string>,
    contents: string -> Option<string>
  )

  /** The path `execfile` runs in the externals whose file lookup returns
      nothing: the located path of `s`, or else the path remembered in
      `filepath` from an earlier call. */
  function StoredPath(h: Host, filepath: string, s: string): string {
    if s != "" && h.locate(s).Some? then h.locate(s).value else filepath
  }

  /** The file at `path` can be opened and runs without raising. */
  predicate RunsFile(o: Oracle, h: Host, path: string) {
    path != "" && h.contents(path).Some? && o.run(h.contents(path).value, FileInput).Ok?
  }
}

=== FILE: js_bridge.dfy ===
/** The `pyjs` external (source/py/pyjs.c), called from JavaScript: each
    method returns an error code and may set a return value, an atom array,
    instead of sending messages. */
module JsBridge {
  import opened Wrappers
  import opened PyValues
  import opened Interpreter
  import opened Conversion
  import BoxBridge

  /** A return code and the return value; None when the method left the
      return value untouched. */
  datatype JsReply = JsReply(code: Code, rv: Option<seq<Atom>>)

  /** pyjs's element conversion: float is tested before int. */
  function FloatFirstItem(v: PyVal): ItemConv {
    if FloatCheck(v) then Keep(AFloat(v.x))
    else if LongCheck(v) then
      (if FitsLong(LongValue(v)) then Keep(ALong(LongValue(v))) else Overflow)
    else if UnicodeCheck(v) then Keep(ASym(v.s))
    else Drop
  }

  /** No object is both a float and an int, so the order of the tests does
      not matter. */
  lemma FloatFirstIsLongFirst(v: PyVal)
    ensures FloatFirstItem(v) == LongFirstItem(v)
  {
  }

  /** pyjs_handle_list_output's element loop. */
  function JsItemsToAtoms(items: seq<PyVal>): (r: Option<seq<Atom>>)
    ensures r == ItemsToAtoms(items)
    decreases |items|
  {
    if |items| == 0 then Some([])
    else
      var rest := JsItemsToAtoms(items[1..]);
      match FloatFirstItem(items[0])
      case Overflow => None
      case Drop => rest
      case Keep(a) => if rest.Some? then Some([a] + rest.value) else None
  }

  function ListOutput(v: PyVal): JsReply {
    if !ListLike(v) then JsReply(ErrNone, None)
    else if |v.items| == 0 then JsReply(ErrGeneric, None)
    else match JsItemsToAtoms(v.items)
      case None => JsReply(ErrGeneric, None)
      case Some(atoms) => JsReply(ErrNone, Some(atoms))
  }

  /** pyjs_handle_output: None succeeds without a value; a dict returns the
      list handler's code on its flattened list. */
  function Output(v: PyVal): JsReply {
    if FloatCheck(v) then JsReply(ErrNone, Some([AFloat(v.x)]))
    else if LongCheck(v) then
      (if FitsLong(LongValue(v)) then JsReply(ErrNone, Some([ALong(LongValue(v))])) else JsReply(ErrGeneric, None))
    else if UnicodeCheck(v) then JsReply(ErrNone, Some([ASym(v.s)]))
    else if SequenceCheck(v) && !v.Bytes? && !v.ByteArray? then ListOutput(v)
    else if DictCheck(v) then ListOutput(List(BoxBridge.FlattenDict(v.entries)))
    else if v.PyNone? then JsReply(ErrNone, None)
    else JsReply(ErrGeneric, None)
  }

  /** The atoms of the first value message of a trace. */
  function FirstValue(t: seq<Event>): Option<seq<Atom>> {
    if |t| == 0 then None else if t[0].Value? then Some(t[0].atoms) else FirstValue(t[1..])
  }

  /** pyjs returns the very atoms the box external would send, for every
      result; the codes agree except on None, which pyjs accepts, and on a
      dict, where the box external always reports success. */
  lemma OutputMatchesBox(v: PyVal)
    ensures Output(v).rv == FirstValue(BoxBridge.Output(v).trace)
    ensures !v.PyNone? && !v.Dict? ==> Output(v).code == BoxBridge.Output(v).code
    ensures v.PyNone? ==> Output(v) == JsReply(ErrNone, None) && BoxBridge.Output(v).code == ErrGeneric
  {
    if v.Dict? {
      var l := List(BoxBridge.FlattenDict(v.entries));
      ListOutputCases(l);
      var t := Conversion.ListOutput(l).trace;
      if t == [Failure] {
        assert (t + [Success])[1..] == [Success];
        assert [Success][1..] == [] && t[1..] == [];
        assert FirstValue([Success]) == None;
      } else {
        assert t[0].Value?;
        assert (t + [Success])[0] == t[0];
      }
      assert FirstValue(t + [Success]) == FirstValue(t);
    } else if v.List? || v.Tuple? {
      ListOutputCases(v);
    }
  }

  /** pyjs_code: as the box external's eval_text, but the output handler's
      code is ignored and a statement sets no value. */
  function CodeMsg(o: Oracle, args: seq<Atom>): (r: JsReply)
    ensures r.code == ErrGeneric ==> r.rv.None?
  {
    var text := o.gettext(args);
    if text == "" then JsReply(ErrGeneric, None)
    else
      var mode := if o.compile(text, EvalInput) == Some(SyntaxError) then SingleInput else EvalInput;
      if o.compile(text, mode).Some? then JsReply(ErrGeneric, None)
      else match o.run(text, mode)
        case Err(_) => JsReply(ErrGeneric, None)
        case Ok(v) => if mode == SingleInput then JsReply(ErrNone, None) else JsReply(ErrNone, Output(v).rv)
  }

  /** `code` reports success whenever the text runs, even when its value
      cannot be converted; the box external's `code` then bangs failure. */
  lemma CodeIgnoresHandlerFailure(o: Oracle, args: seq<Atom>)
    requires o.gettext(args) != "" && o.compile(o.gettext(args), EvalInput).None?
    requires o.run(o.gettext(args), EvalInput) == Ok(List([]))
    ensures CodeMsg(o, args) == JsReply(ErrNone, None)
    ensures BoxBridge.Code(o, args).trace == [Failure]
  {
  }

  /** The value `code` returns is the first value message the box's `code`
      sends. */
  lemma CodeMatchesBox(o: Oracle, args: seq<Atom>)
    ensures CodeMsg(o, args).rv == FirstValue(BoxBridge.Code(o, args).trace)
  {
    var text := o.gettext(args);
    if text != "" && o.compile(text, EvalInput).None? && o.run(text, EvalInput).Ok? {
      OutputMatchesBox(o.run(text, EvalInput).value);
    }
  }

  /** pyjs_import: unlike the box externals, the empty symbol is an error. */
  function Import(o: Oracle, ns: Namespace, s: string): (r: (Namespace, Code))
    ensures r.1 == ErrNone <==> s != "" && o.importModule(s).Ok?
    ensures r.1 == ErrNone ==> r.0 == ns[s := o.importModule(s).value]
    ensures r.1 == ErrGeneric ==> r.0 == ns
  {
    if s == "" then (ns, ErrGeneric)
    else match o.importModule(s)
      case Ok(m) => (ns[s := m], ErrNone)
      case Err(_) => (ns, ErrGeneric)
  }

  /** pyjs_eval: the handler's code is ignored here too. */
  function Eval(o: Oracle, args: seq<Atom>): (r: JsReply)
    ensures r.code == ErrNone <==> o.run(FirstSym(args), EvalInput).Ok?
    ensures r.code == ErrNone ==> r.rv == FirstValue(BoxBridge.Eval(o, args).trace)
  {
    match o.run(FirstSym(args), EvalInput)
    case Ok(v) => OutputMatchesBox(v); JsReply(ErrNone, Output(v).rv)
    case Err(_) => JsReply(ErrGeneric, None)
  }

  /** pyjs_exec: the symbol is one statement; the empty symbol is an error. */
  function Exec(o: Oracle, s: string): (r: Code)
    ensures r == ErrNone <==> s != "" && o.run(s, SingleInput).Ok?
  {
    if s == "" then ErrGeneric
    else if o.run(s, SingleInput).Ok? then ErrNone else ErrGeneric
  }

  /** pyjs_execfile: like the older external, a symbol that cannot be
      located falls back to the path remembered from an earlier call. */
  function ExecFile(o: Oracle, h: Host, filepath: string, s: string): (r: (string, Code))
    ensures r.1 == ErrNone ==> s != "" && r.0 != "" && h.contents(r.0).Some?
    ensures r.0 == StoredPath(h, filepath, s)
    ensures r.1 == ErrNone <==> s != "" && RunsFile(o, h, StoredPath(h, filepath, s))
  {
    var path := StoredPath(h, filepath, s);
    if s == "" || path == "" then (path, ErrGeneric)
    else match h.contents(path)
      case None => (path, ErrGeneric)
      case Some(text) => (path, if o.run(text, FileInput).Ok? then ErrNone else ErrGeneric)
  }

  /** `execfile missing.py` after a successful `execfile a.py` runs a.py
      again and reports no error, where the box external reports failure. */
  lemma ExecFileRerunsStaleFile(o: Oracle, h: Host, prev: string, s: string, text: string)
    requires s != "" && prev != "" && h.locate(s).None?
    requires h.contents(prev) == Some(text) && o.run(text, FileInput).Ok?
    ensures ExecFile(o, h, prev, s) == (prev, ErrNone)
    ensures BoxBridge.ExecFile(o, h, prev, s).1.trace == [Failure]
  {
  }

  /** pyjs_eval_to_json: evaluate, then `json.dumps` the value; the JSON text
      comes back as a single symbol. */
  function EvalToJson(o: Oracle, args: seq<Atom>): (r: JsReply)
    ensures r.code == ErrNone <==> r.rv.Some?
    ensures r.rv.Some? ==> |r.rv.value| == 1 && r.rv.value[0].ASym?
  {
    match o.run(FirstSym(args), EvalInput)
    case Err(_) => JsReply(ErrGeneric, None)
    case Ok(v) =>
      match o.importModule("json")
      case Err(_) => JsReply(ErrGeneric, None)
      case Ok(json) =>
        match o.getAttr(json, "dumps")
        case None => JsReply(ErrGeneric, None)
        case Some(dumps) =>
          match o.call(dumps, [v])
          case Ok(Str(text)) => JsReply(ErrNone, Some([ASym(text)]))
          case _ => JsReply(ErrGeneric, None)
  }

  /** The returned symbol is exactly what `json.dumps` made of the value. */
  lemma EvalToJsonIsDumps(o: Oracle, args: seq<Atom>, v: PyVal, json: PyVal, dumps: PyVal, text: string)
    requires o.run(FirstSym(args), EvalInput) == Ok(v)
    requires o.importModule("json") == Ok(json)
    requires o.getAttr(json, "dumps") == Some(dumps)
    ensures o.call(dumps, [v]) == Ok(Str(text)) ==> EvalToJson(o, args) == JsReply(ErrNone, Some([ASym(text)]))
    ensures !o.call(dumps, [v]).Ok? || !o.call(dumps, [v]).value.Str? ==> EvalToJson(o, args) == JsReply(ErrGeneric, None)
  {
  }
}

=== FILE: legacy_bridge.dfy ===
/** The message handlers of the older `py` external (source/py/py.c). Its
    handlers return nothing, so a reply is just the trace of outlet events;
    conversions and the registry are those of the box external. */
module LegacyBridge {
  import opened Wrappers
  import opened PyValues
  import opened Interpreter
  import opened Conversion
  import BoxBridge

  /** py_handle_output: every handler is tried in turn on the same object,
      and each one acts only on its own type. */
  function Output(v: PyVal): seq<Event> {
    FloatOutput(v).trace + LongOutput(v).trace + StringOutput(v).trace + ListOutput(v).trace
  }

  /** The fan-out sends what the box external's dispatch sends, except that
      a dict sends nothing. */
  lemma OutputMatchesBox(v: PyVal)
    ensures Output(v) == if v.Dict? then [] else BoxBridge.Output(v).trace
  {
    if v.List? || v.Tuple? {
      ListOutputCases(v);
    }
  }

  /** py_import */
  function Import(o: Oracle, ns: Namespace, s: string): (r: (Namespace, seq<Event>))
    ensures r == (BoxBridge.Import(o, ns, s).ns, BoxBridge.Import(o, ns, s).reply.trace)
  {
    if s == "" then (ns, [])
    else match o.importModule(s)
      case Ok(m) => (ns[s := m], [Success])
      case Err(_) => (ns, [Failure])
  }

  /** py_eval as written: when the expression raises, the error is logged
      and no bang is sent. */
  function Eval(o: Oracle, args: seq<Atom>): seq<Event> {
    match o.run(FirstSym(args), EvalInput)
    case Ok(v) => Output(v)
    case Err(_) => []
  }

  /** A failing eval is silent: the patch cannot tell it from a None result. */
  lemma EvalFailureIsSilent(o: Oracle, args: seq<Atom>)
    requires o.run(FirstSym(args), EvalInput).Err?
    ensures Eval(o, args) == []
    ensures Failure !in Eval(o, args)
    ensures BoxBridge.Eval(o, args).trace == [Failure]
  {
  }

  /** Eval with the failure bang every other legacy handler sends on error;
      this is the behaviour the box external adopted. */
  function EvalWithFailure(o: Oracle, args: seq<Atom>): (r: seq<Event>)
    ensures o.run(FirstSym(args), EvalInput).Err? ==> r == [Failure]
  {
    match o.run(FirstSym(args), EvalInput)
    case Ok(v) => Output(v)
    case Err(_) => [Failure]
  }

  /** With the failure bang restored, silence means the expression was
      evaluated, and a successful non-dict result sends what the box
      external sends. */
  lemma EvalWithFailureAnnounces(o: Oracle, args: seq<Atom>)
    ensures EvalWithFailure(o, args) == [] ==> o.run(FirstSym(args), EvalInput).Ok?
    ensures o.run(FirstSym(args), EvalInput).Ok? && !o.run(FirstSym(args), EvalInput).value.Dict? ==>
      EvalWithFailure(o, args) == BoxBridge.Eval(o, args).trace
  {
    if o.run(FirstSym(args), EvalInput).Ok? {
      OutputMatchesBox(o.run(FirstSym(args), EvalInput).value);
    }
  }

  /** py_exec */
  function Exec(o: Oracle, args: seq<Atom>): (r: seq<Event>)
    ensures r == BoxBridge.Exec(o, args).trace
  {
    if o.run(FirstSym(args), SingleInput).Ok? then [Success] else [Failure]
  }

  /** py_execfile as written: a symbol that cannot be located leaves the
      remembered path as it was, and that earlier file is run instead. */
  function ExecFile(o: Oracle, h: Host, filepath: string, s: string): (r: (string, seq<Event>))
    ensures r.1 == [Success] || r.1 == [Failure]
    ensures r.0 == StoredPath(h, filepath, s)
    ensures r.1 == [Success] <==> s != "" && RunsFile(o, h, StoredPath(h, filepath, s))
  {
    var path := StoredPath(h, filepath, s);
    if s == "" || path == "" then (path, [Failure])
    else match h.contents(path)
      case None => (path, [Failure])
      case Some(text) => (path, if o.run(text, FileInput).Ok? then [Success] else [Failure])
  }

  /** `execfile missing.py` after a successful `execfile a.py` runs a.py
      again and reports success, where the box external reports failure. */
  lemma ExecFileRerunsStaleFile(o: Oracle, h: Host, prev: string, s: string, text: string)
    requires s != "" && prev != "" && h.locate(s).None?
    requires h.contents(prev) == Some(text) && o.run(text, FileInput).Ok?
    ensures ExecFile(o, h, prev, s) == (prev, [Success])
    ensures BoxBridge.ExecFile(o, h, prev, s).1.trace == [Failure]
  {
  }

  /** py_call: the box external's call, without a return code. */
  function Call(o: Oracle, args: seq<Atom>): (r: seq<Event>)
    ensures |r| > 0
    ensures r[|r| - 1] == Success || r == [Failure]
  {
    if |args| == 0 || !args[0].ASym? then [Failure]
    else match o.run(args[0].s, EvalInput)
      case Err(_) => [Failure]
      case Ok(f) =>
        var items := AtomsToItems(args[1..]);
        var res := match o.call(f, items)
          case Err(TypeError) => o.call(f, [List(items)])
          case other => other;
        match res
        case Err(_) => [Failure]
        case Ok(v) => Output(v) + [Success]
  }

  /** The value a call message produces, when it produces one. */
  function CallValue(o: Oracle, args: seq<Atom>): Option<PyVal> {
    if |args| == 0 || !args[0].ASym? then None
    else match o.run(args[0].s, EvalInput)
      case Err(_) => None
      case Ok(f) =>
        var items := AtomsToItems(args[1..]);
        var res := match o.call(f, items)
          case Err(TypeError) => o.call(f, [List(items)])
          case other => other;
        match res
        case Err(_) => None
        case Ok(v) => Some(v)
  }

  /** Legacy and box calls differ only when the result is a dict: the legacy
      external then sends nothing but the success bang. */
  lemma CallMatchesBox(o: Oracle, args: seq<Atom>)
    ensures CallValue(o, args).None? ==> Call(o, args) == [Failure]
    ensures CallValue(o, args).Some? && CallValue(o, args).value.Dict? ==> Call(o, args) == [Success]
    ensures !(CallValue(o, args).Some? && CallValue(o, args).value.Dict?) ==>
      Call(o, args) == BoxBridge.Call(o, args).trace
  {
    if CallValue(o, args).Some? {
      OutputMatchesBox(CallValue(o, args).value);
    }
  }

  /** py_assign: identical to the box external's. */
  function Assign(ns: Namespace, args: seq<Atom>): (r: (Namespace, seq<Event>))
    ensures r == (BoxBridge.Assign(ns, args).ns, BoxBridge.Assign(ns, args).reply.trace)
  {
    if |args| == 0 || !args[0].ASym? then (ns, [Failure])
    else
      var items := AtomsToItems(args[1..]);
      if |items| != |args| - 1 then (ns, [Failure])
      else (ns[args[0].s := List(items)], [Success])
  }

  /** py_code: as the box external's py_eval_text with no offset, except for
      the fan-out output. */
  function Code(o: Oracle, args: seq<Atom>): (r: seq<Event>)
    ensures |r| <= 1 ==> r == [] || r == [Success] || r == [Failure]
  {
    var text := o.gettext(args);
    if text == "" then [Failure]
    else
      var mode := if o.compile(text, EvalInput) == Some(SyntaxError) then SingleInput else EvalInput;
      if o.compile(text, mode).Some? then [Failure]
      else match o.run(text, mode)
        case Err(_) => [Failure]
        case Ok(v) => if mode == SingleInput then [Success] else Output(v)
  }

  /** The message's text is an expression whose value is a dict. */
  predicate DictExpression(o: Oracle, args: seq<Atom>) {
    var text := o.gettext(args);
    text != "" && o.compile(text, EvalInput).None? && o.run(text, EvalInput).Ok? &&
    o.run(text, EvalInput).value.Dict?
  }

  /** On anything but a dict result, legacy `code` sends what the box's does. */
  lemma CodeMatchesBox(o: Oracle, args: seq<Atom>)
    ensures !DictExpression(o, args) ==> Code(o, args) == BoxBridge.Code(o, args).trace
    ensures DictExpression(o, args) ==> Code(o, args) == []
  {
    var text := o.gettext(args);
    if text != "" && o.compile(text, EvalInput).None? && o.run(text, EvalInput).Ok? {
      OutputMatchesBox(o.run(text, EvalInput).value);
    }
  }

  /** py_load as written: with no symbol it reloads the remembered file, if
      there is one, and otherwise does nothing. */
  function Load(o: Oracle, h: Host, filepath: string, s: string): (r: (string, seq<Event>))
    ensures s == "" && filepath == "" ==> r == (filepath, [])
    ensures s == "" && filepath != "" ==> r == ExecFile(o, h, filepath, filepath)
    ensures s != "" ==> r == ExecFile(o, h, filepath, s)
    ensures r.1 == [Success] <==>
      (s != "" && RunsFile(o, h, StoredPath(h, filepath, s)))
      || (s == "" && filepath != "" && RunsFile(o, h, StoredPath(h, filepath, filepath)))
  {
    if s == "" then
      if filepath != "" then ExecFile(o, h, filepath, filepath) else (filepath, [])
    else ExecFile(o, h, filepath, s)
  }

  /** `load` with no symbol runs the remembered file again, under the path
      that file resolves to, and succeeds exactly when that file runs. */
  lemma LoadRerunsStoredFile(o: Oracle, h: Host, filepath: string, text: string)
    requires filepath != "" && h.locate(filepath) == Some(filepath)
    requires h.contents(filepath) == Some(text)
    ensures Load(o, h, filepath, "") == (filepath, if o.run(text, FileInput).Ok? then [Success] else [Failure])
  {
    assert StoredPath(h, filepath, filepath) == filepath;
  }

  /** py_send: the box external's lookup and forwarding; the return code is
      dropped. */
  function Send(reg: BoxBridge.Registry, patcher: Option<seq<BoxBridge.PatchBox>>,
                accepts: BoxBridge.Delivery -> bool, args: seq<Atom>)
    : (r: (BoxBridge.Registry, Option<BoxBridge.Delivery>))
    ensures |reg| > 0 ==> r.0 == reg
  {
    var s := BoxBridge.Send(reg, patcher, accepts, args);
    (s.registry, s.delivered)
  }
}

=== FILE: lifecycle.dfy ===
/** Object creation and destruction, shared by the `py` box externals and
    `pyjs`: a global count of live objects drives the interpreter's start
    and finalisation, the first object is named `__main__`, and the box
    externals keep an object registry alive while any object lives. */
module Lifecycle {
  import opened Wrappers
  import BoxBridge
  import opened PyValues

  /** An object's name: `__main__`, or a fresh symbol from symbol_unique
      (modelled as a counter, the host's spelling being its own). */
  datatype ObjName = Main | Unique(n: nat)

  datatype Engine = Down | Up

  /** The state one external keeps across its instances. `live` maps object
      identities to their names; `sharedObjName` is the PY_OBJ_NAME entry of
      the interpreter's builtins dict. */
  datatype World = World(
    count: nat,
    live: map<nat, ObjName>,
    engine: Engine,
    registry: Option<BoxBridge.Registry>,
    nextId: nat,
    nextUnique: nat,
    sharedObjName: Option<ObjName>
  )

  const Empty: World := World(0, map[], Down, None, 0, 0, None)

  /** Which external the world belongs to: the box externals own a registry,
      `pyjs` does not. */
  datatype Variant = BoxExternal | JsExternal

  predicate Distinct(live: map<nat, ObjName>) {
    forall a, b :: a in live && b in live && a != b ==> live[a] != live[b]
  }

  /** The counter counts the live objects, the interpreter runs exactly while
      one lives, a box external's registry exists exactly while one lives,
      and live objects have distinct names. */
  ghost predicate Inv(w: World, v: Variant) {
    && w.count == |w.live|
    && (w.engine == Up <==> w.count > 0)
    && (v == BoxExternal ==> (w.registry.Some? <==> w.count > 0))
    && (v == JsExternal ==> w.registry.None?)
    && (forall id :: id in w.live ==> id < w.nextId)
    && (forall id :: id in w.live && w.live[id].Unique? ==> w.live[id].n < w.nextUnique)
    && Distinct(w.live)
  }

  lemma EmptyInv(v: Variant)
    ensures Inv(Empty, v)
  {
  }

  /** py_new + py_init (and pyjs_new + pyjs_init): name the object, start the
      interpreter, publish the name as PY_OBJ_NAME, count the object, and
      create the registry when it is the first one. */
  function New(w: World, v: Variant): (r: (World, nat))
    ensures r.1 == w.nextId && r.1 in r.0.live
    ensures r.0.count == w.count + 1 && r.0.engine == Up
    ensures (r.0.live[r.1] == Main) <==> w.count == 0
  {
    var name := if w.count == 0 then Main else Unique(w.nextUnique);
    var id := w.nextId;
    var reg := if w.count + 1 == 1 && v == BoxExternal then Some(map[]) else w.registry;
    (World(w.count + 1, w.live[id := name], Up, reg, id + 1,
           if name.Unique? then w.nextUnique + 1 else w.nextUnique, Some(name)), id)
  }

  /** py_free (and pyjs_free): uncount the object; the last one frees the
      registry and finalises the interpreter. */
  function Free(w: World, id: nat): (r: World)
    requires id in w.live
    ensures id !in r.live
    ensures forall k :: k in w.live && k != id ==> k in r.live && r.live[k] == w.live[k]
  {
    var count := if w.count > 0 then w.count - 1 else 0;
    var live := w.live - {id};
    if count == 0 then World(0, live, Down, None, w.nextId, w.nextUnique, None)
    else World(count, live, w.engine, w.registry, w.nextId, w.nextUnique, w.sharedObjName)
  }

  lemma NewPreservesInv(w: World, v: Variant)
    requires Inv(w, v)
    ensures Inv(New(w, v).0, v)
  {
    var (w', id) := New(w, v);
    assert id !in w.live;
    assert |w'.live| == |w.live| + 1;
    if w.count == 0 {
      assert w.live == map[];
    }
    forall a, b | a in w'.live && b in w'.live && a != b
      ensures w'.live[a] != w'.live[b]
    {
    }
  }

  lemma FreePreservesInv(w: World, v: Variant, id: nat)
    requires Inv(w, v) && id in w.live
    ensures Inv(Free(w, id), v)
  {
    assert |w.live - {id}| == |w.live| - 1;
  }

  /** py_count: the counter, sent as an int. */
  function CountMessage(w: World): Reply {
    Reply(ErrNone, [Value([ALong(w.count)])])
  }

  /** The count an object reports is the number of live objects. */
  lemma CountIsLiveObjects(w: World, v: Variant)
    requires Inv(w, v)
    ensures CountMessage(w).trace == [Value([ALong(|w.live|)])]
  {
  }

  /** Once every object is gone the interpreter is down, the registry is gone,
      and the next object is `__main__` again. */
  lemma LastFreeResets(w: World, v: Variant, id: nat)
    requires Inv(w, v) && id in w.live && |w.live| == 1
    ensures Free(w, id).engine == Down && Free(w, id).registry.None?
    ensures var w2 := New(Free(w, id), v).0; w2.live[w.nextId] == Main
  {
  }

  /** The name each object reads back as PY_OBJ_NAME. PyEval_GetBuiltins
      returns the interpreter's single builtins dict, so this is the name of
      the most recently created object, whichever object asks. */
  function ObjNameSeen(w: World, id: nat): Option<ObjName>
    requires id in w.live
  {
    w.sharedObjName
  }

  /** Creating a second object changes the name the first one sees. */
  lemma SharedObjNameOverwritten()
    ensures var (w1, a) := New(Empty, BoxExternal);
      var (w2, b) := New(w1, BoxExternal);
      a in w2.live && w2.live[a] == Main && ObjNameSeen(w2, a) == Some(Unique(0))
  {
  }

  /** PY_OBJ_NAME as a per-object binding: each object reads its own name. */
  function ObjNameOwn(w: World, id: nat): (r: Option<ObjName>)
    requires id in w.live
    ensures r.Some?
  {
    Some(w.live[id])
  }

  /** With per-object bindings, creating and freeing other objects never
      changes the name an object reads, and no two objects read the same. */
  lemma ObjNameOwnStable(w: World, v: Variant, id: nat, other: nat)
    requires Inv(w, v) && id in w.live && other in w.live && other != id
    ensures ObjNameOwn(w, id) != ObjNameOwn(w, other)
    ensures id in New(w, v).0.live && ObjNameOwn(New(w, v).0, id) == ObjNameOwn(w, id)
    ensures id in Free(w, other).live && ObjNameOwn(Free(w, other), id) == ObjNameOwn(w, id)
  {
  }
}

=== FILE: mx_bridge.dfy ===
/** The `python` external (source/py/mxpy.c), a port of a Pd external: an
    object wraps one Python object, built at creation from a module and a
    callable, and its `eval` message calls a method of that object. */
module MxBridge {
  import opened Wrappers
  import opened PyValues
  import opened Interpreter

  /** A message on the single outlet: a float, a selector with arguments,
      or a list. */
  datatype MxMsg = MxFloat(x: F) | MxAnything(sel: string, args: seq<Atom>) | MxList(atoms: seq<Atom>)

  /** The C float with a given integral value; only applied to values that
      RoundToFloat has already rounded to float precision. */
  datatype Casts = Casts(ofInt: int -> F)

  const Two24: nat := 0x100_0000

  function Pow2(k: nat): (p: nat)
    ensures p >= 1
  {
    if k == 0 then 1 else 2 * Pow2(k - 1)
  }

  /** The number of low bits a 24-bit significand cannot hold. */
  function Shift(n: nat): nat {
    if n < Two24 then 0 else 1 + Shift(n / 2)
  }

  /** The multiple of `p` nearest to `n`, ties to an even multiple. */
  function RoundAt(n: nat, p: nat): nat
    requires p >= 1
  {
    var q := n / p;
    var r := n % p;
    (if 2 * r > p || (2 * r == p && q % 2 == 1) then q + 1 else q) * p
  }

  /** The float nearest to a natural number, ties to even, as an integer. */
  function RoundNat(n: nat): nat {
    RoundAt(n, Pow2(Shift(n)))
  }

  /** The C cast `(float)` of an integer. */
  function RoundToFloat(i: int): int {
    if i < 0 then -(RoundNat(-i) as int) else RoundNat(i)
  }

  /** The rounded value is within half a unit in the last place. */
  lemma RoundToFloatNearest(n: nat)
    ensures -(Pow2(Shift(n)) as int) <= 2 * (RoundNat(n) - n) <= Pow2(Shift(n))
  {
    RoundAtNearest(n, Pow2(Shift(n)));
  }

  lemma RoundAtNearest(n: nat, p: nat)
    requires p >= 1
    ensures -(p as int) <= 2 * (RoundAt(n, p) - n) <= p
  {
    var q := n / p;
    var r := n % p;
    var up := 2 * r > p || (2 * r == p && q % 2 == 1);
    RoundStep(n, p, q, r, up);
  }

  /** Every integer below 2^24 is a float exactly. */
  lemma RoundToFloatExact(n: nat)
    requires n < Two24
    ensures RoundNat(n) == n
  {
    assert Shift(n) == 0;
    assert Pow2(0) == 1;
    assert n / 1 == n && n % 1 == 0;
  }

  lemma RoundStep(n: nat, p: nat, q: nat, r: nat, up: bool)
    requires p >= 1 && q == n / p && r == n % p
    requires up ==> 2 * r >= p
    requires !up ==> 2 * r <= p
    ensures -(p as int) <= 2 * ((if up then q + 1 else q) * p - n) <= p
  {
    var qp := q * p;
    assert n == qp + r;
    if up {
      assert (q + 1) * p == qp + p;
    }
  }

  /** 2^24 + 1 is the smallest positive integer the cast changes. */
  lemma FirstInexactInteger()
    ensures RoundToFloat(Two24) == Two24
    ensures RoundToFloat(Two24 + 1) == Two24
  {
    assert Shift(Two24 / 2) == 0;
    assert Shift(Two24) == 1 && Shift(Two24 + 1) == 1;
    assert Pow2(1) == 2;
  }

  /** t_atom_to_PyObject: floats and symbols convert, A_NOTHING is None, and
      every other tag, ints included, becomes None with a warning. */
  function AtomToPy(a: Atom): PyVal {
    match a
    case AFloat(f) => Float(f)
    case ASym(s) => Str(s)
    case _ => PyNone
  }

  /** t_atom_list_to_PyObject_list: a tuple of the same length. */
  function AtomsToTuple(atoms: seq<Atom>): (t: PyVal)
    ensures t.Tuple? && |t.items| == |atoms|
    ensures forall i :: 0 <= i < |atoms| ==> t.items[i] == AtomToPy(atoms[i])
  {
    Tuple(seq(|atoms|, i requires 0 <= i < |atoms| => AtomToPy(atoms[i])))
  }

  /** PyLong_AsLong with its error result: -1 when the int does not fit. */
  function AsLong(v: PyVal): int
    requires LongCheck(v)
  {
    if FitsLong(LongValue(v)) then LongValue(v) else -1
  }

  /** PyObject_to_atom: True and False first, then float, int (through a
      float cast), str, and the symbol `error` for anything else. */
  function PyToAtom(v: PyVal): Atom {
    if v == Bool(true) then ALong(1)
    else if v == Bool(false) then ALong(0)
    else if FloatCheck(v) then AFloat(v.x)
    else if LongCheck(v) then ALong(RoundToFloat(AsLong(v)))
    else if UnicodeCheck(v) then ASym(v.s)
    else ASym("error")
  }

  /** Float and symbol atoms survive the trip into Python and back; an int
      atom comes back as the symbol `error`. */
  lemma AtomRoundTrip(a: Atom)
    ensures a.AFloat? || a.ASym? ==> PyToAtom(AtomToPy(a)) == a
    ensures a.ALong? ==> AtomToPy(a) == PyNone && PyToAtom(AtomToPy(a)) == ASym("error")
  {
  }

  /** The conversion with int atoms passed as ints, as the other externals
      of the repository do. */
  function AtomToPyWithLongs(a: Atom): (v: PyVal)
    ensures a.ALong? ==> v == Int(a.l)
    ensures !a.ALong? ==> v == AtomToPy(a)
  {
    match a
    case ALong(l) => Int(l)
    case _ => AtomToPy(a)
  }

  /** With ints passed through, every int atom a float can hold exactly
      survives the round trip too. */
  lemma AtomWithLongsRoundTrip(a: Atom)
    requires a.ALong? ==> -(Two24 as int) < a.l < Two24
    ensures a.AFloat? || a.ASym? || a.ALong? ==> PyToAtom(AtomToPyWithLongs(a)) == a
  {
    if a.ALong? {
      if a.l < 0 {
        RoundToFloatExact(-a.l);
      } else {
        RoundToFloatExact(a.l);
      }
    }
  }

  /** new_list_from_sequence: the atoms of a list's elements; anything but
      a list gives no atoms. */
  function ListAtoms(v: PyVal): (atoms: seq<Atom>)
    ensures v.List? ==> |atoms| == |v.items|
    ensures v.List? ==> forall i :: 0 <= i < |atoms| ==> atoms[i] == PyToAtom(v.items[i])
    ensures !v.List? ==> atoms == []
  {
    if v.List? then seq(|v.items|, i requires 0 <= i < |v.items| => PyToAtom(v.items[i])) else []
  }

  /** emit_outlet_message: at most one message per value. */
  function Emit(c: Casts, v: PyVal): (out: seq<MxMsg>)
    ensures |out| <= 1
  {
    if v == Bool(true) then [MxFloat(c.ofInt(1))]
    else if v == Bool(false) then [MxFloat(c.ofInt(0))]
    else if FloatCheck(v) then [MxFloat(v.x)]
    else if LongCheck(v) then [MxFloat(c.ofInt(RoundToFloat(AsLong(v))))]
    else if UnicodeCheck(v) then [MxAnything(v.s, [])]
    else if v.List? then
      var atoms := ListAtoms(v);
      if |atoms| == 0 then []
      else if atoms[0].ASym? then [MxAnything(atoms[0].s, atoms[1..])]
      else [MxList(atoms)]
    else []
  }

  /** A value sends a message exactly when it is a bool, float, int, str or
      non-empty list; a list headed by a str (or by an object that becomes
      the `error` symbol) is sent as a message with that selector. */
  lemma EmitCases(c: Casts, v: PyVal)
    ensures |Emit(c, v)| == 1 <==>
      LongCheck(v) || FloatCheck(v) || UnicodeCheck(v) || (v.List? && |v.items| > 0)
    ensures v.List? && |v.items| > 0 && PyToAtom(v.items[0]).ASym? ==>
      Emit(c, v) == [MxAnything(PyToAtom(v.items[0]).s, ListAtoms(v)[1..])]
    ensures v.List? && |v.items| > 0 && !PyToAtom(v.items[0]).ASym? ==>
      Emit(c, v) == [MxList(ListAtoms(v))]
  {
  }

  /** The messages a tuple result sends: one per element, in order. */
  function EmitAll(c: Casts, items: seq<PyVal>): (out: seq<MxMsg>)
    ensures |out| <= |items|
  {
    if |items| == 0 then [] else Emit(c, items[0]) + EmitAll(c, items[1..])
  }

  /** mxpy_eval: call the wrapped object's attribute named by the selector
      with the atoms as positional arguments; a tuple result sends one
      message per element. Every failure only prints a warning. */
  function Eval(o: Oracle, c: Casts, obj: Option<PyVal>, selector: string, args: seq<Atom>): seq<MxMsg> {
    match obj
    case None => []
    case Some(target) =>
      match o.getAttr(target, selector)
      case None => []
      case Some(f) =>
        if !o.isCallable(f) then []
        else match o.call(f, AtomsToTuple(args).items)
          case Err(_) => []
          case Ok(Tuple(items)) => EmitAll(c, items)
          case Ok(v) => Emit(c, v)
  }

  /** The `eval` message: the method is registered under that one selector,
      so it always calls the wrapped object's `eval` attribute. */
  function EvalMessage(o: Oracle, c: Casts, obj: Option<PyVal>, args: seq<Atom>): seq<MxMsg> {
    Eval(o, c, obj, "eval", args)
  }

  /** A tuple of scalars sends exactly one message per element; an object
      that failed to build sends nothing. */
  lemma EvalTupleFansOut(o: Oracle, c: Casts, obj: Option<PyVal>, args: seq<Atom>, items: seq<PyVal>)
    requires obj.Some? && o.getAttr(obj.value, "eval").Some?
    requires o.isCallable(o.getAttr(obj.value, "eval").value)
    requires o.call(o.getAttr(obj.value, "eval").value, AtomsToTuple(args).items) == Ok(Tuple(items))
    requires forall i :: 0 <= i < |items| ==> LongCheck(items[i]) || FloatCheck(items[i]) || UnicodeCheck(items[i])
    ensures |EvalMessage(o, c, obj, args)| == |items|
    ensures EvalMessage(o, c, None, args) == []
  {
    EmitAllScalars(c, items);
  }

  lemma {:induction false} EmitAllScalars(c: Casts, items: seq<PyVal>)
    requires forall i :: 0 <= i < |items| ==> LongCheck(items[i]) || FloatCheck(items[i]) || UnicodeCheck(items[i])
    ensures |EmitAll(c, items)| == |items|
    decreases |items|
  {
    if |items| > 0 {
      EmitCases(c, items[0]);
      EmitAllScalars(c, items[1..]);
    }
  }

  /** mxpy_new: import the module named by the first atom, fetch the
      attribute named by the second, and call it with the remaining atoms;
      the result is the wrapped object, None when any step fails. */
  function New(o: Oracle, args: seq<Atom>): (obj: Option<PyVal>)
    ensures |args| < 2 ==> obj.None?
    ensures obj.Some? ==> args[0].ASym? && o.importModule(args[0].s).Ok?
  {
    if |args| < 2 then None
    else match AtomToPy(args[0])
      case Str(name) =>
        (match o.importModule(name)
         case Err(_) => None
         case Ok(m) =>
           match o.getAttr(m, FirstSym(args[1..]))
           case None => None
           case Some(f) =>
             if !o.isCallable(f) then None
             else match o.call(f, AtomsToTuple(args[2..]).items)
               case Ok(v) => Some(v)
               case Err(_) => None)
      case _ => None
  }

  /** A successful construction passed the creation atoms after the first
      two, converted one for one, to the callable. */
  lemma NewPassesTrailingAtoms(o: Oracle, modName: string, m: PyVal, fname: string, f: PyVal,
                               rest: seq<Atom>, v: PyVal)
    requires o.importModule(modName) == Ok(m)
    requires o.getAttr(m, fname) == Some(f) && o.isCallable(f)
    requires o.call(f, seq(|rest|, i requires 0 <= i < |rest| => AtomToPy(rest[i]))) == Ok(v)
    ensures New(o, [ASym(modName), ASym(fname)] + rest) == Some(v)
  {
    var args := [ASym(modName), ASym(fname)] + rest;
    assert args[1..][0] == ASym(fname);
    assert args[2..] == rest;
  }
}

=== FILE: odict.dfy ===
/** A Python `dict` with string keys: an association list kept in insertion
    order, where assigning to a present key replaces its value in place and
    assigning to a new key appends it. */
module ODict {
  import opened Wrappers

  type Dict<V> = seq<(string, V)>

  function Keys<V>(d: Dict<V>): (ks: seq<string>)
    ensures |ks| == |d|
    ensures forall i :: 0 <= i < |d| ==> ks[i] == d[i].0
  {
    if |d| == 0 then [] else [d[0].0] + Keys(d[1..])
  }

  /** No key occurs twice. */
  predicate UniqueKeys<V>(d: Dict<V>)
    decreases |d|
  {
    |d| == 0 || (d[0].0 !in Keys(d[1..]) && UniqueKeys(d[1..]))
  }

  /** `d.get(k)`: the value stored under `k`, if any. */
  function Get<V>(d: Dict<V>, k: string): (r: Option<V>)
    ensures r.None? <==> k !in Keys(d)
  {
    if |d| == 0 then None
    else if d[0].0 == k then Some(d[0].1)
    else Get(d[1..], k)
  }

  /** `d[k] = v` */
  function Put<V>(d: Dict<V>, k: string, v: V): (r: Dict<V>)
    ensures k in Keys(d) ==> Keys(r) == Keys(d)
    ensures k !in Keys(d) ==> Keys(r) == Keys(d) + [k]
  {
    if |d| == 0 then [(k, v)]
    else if d[0].0 == k then [(k, v)] + d[1..]
    else [d[0]] + Put(d[1..], k, v)
  }

  /** Assigning stores the new value and leaves every other key's value as
      it was. */
  lemma {:induction false} PutGet<V>(d: Dict<V>, k: string, v: V, q: string)
    ensures Get(Put(d, k, v), q) == if q == k then Some(v) else Get(d, q)
    decreases |d|
  {
    if |d| > 0 && d[0].0 != k {
      PutGet(d[1..], k, v, q);
    }
  }

  /** Assigning keeps keys unique. */
  lemma {:induction false} PutUnique<V>(d: Dict<V>, k: string, v: V)
    requires UniqueKeys(d)
    ensures UniqueKeys(Put(d, k, v))
    decreases |d|
  {
    if |d| > 0 && d[0].0 != k {
      var r := Put(d, k, v);
      PutUnique(d[1..], k, v);
      assert r[1..] == Put(d[1..], k, v);
    } else if |d| > 0 {
      assert Put(d, k, v)[1..] == d[1..];
    }
  }

  /** `d.update(o)`: assigns the entries of `o` one after another. */
  function PutAll<V>(d: Dict<V>, o: Dict<V>): (r: Dict<V>)
    decreases |o|
  {
    if |o| == 0 then d
    else Put(PutAll(d, o[..|o| - 1]), o[|o| - 1].0, o[|o| - 1].1)
  }

  /** The value a sequence of assignments leaves under `k`: the last one. */
  function LastGet<V>(o: Dict<V>, k: string): (r: Option<V>)
    ensures r.None? <==> k !in Keys(o)
    decreases |o|
  {
    if |o| == 0 then None
    else if o[|o| - 1].0 == k then Some(o[|o| - 1].1)
    else
      assert Keys(o) == Keys(o[..|o| - 1]) + [o[|o| - 1].0];
      LastGet(o[..|o| - 1], k)
  }

  /** After `d.update(o)` a key of `o` holds the value `o` gave it last, and
      every other key keeps its value from `d`. */
  lemma {:induction false} PutAllGet<V>(d: Dict<V>, o: Dict<V>, q: string)
    ensures Get(PutAll(d, o), q) == if q in Keys(o) then LastGet(o, q) else Get(d, q)
    decreases |o|
  {
    if |o| > 0 {
      var init := o[..|o| - 1];
      var k := o[|o| - 1].0;
      var v := o[|o| - 1].1;
      var mid := PutAll(d, init);
      assert PutAll(d, o) == Put(mid, k, v);
      PutAllGet(d, init, q);
      PutGet(mid, k, v, q);
      KeysSnoc(o, q);
    }
  }

  lemma KeysSnoc<V>(o: Dict<V>, q: string)
    requires |o| > 0
    ensures q in Keys(o) <==> q == o[|o| - 1].0 || q in Keys(o[..|o| - 1])
  {
    assert Keys(o) == Keys(o[..|o| - 1]) + [o[|o| - 1].0];
  }

  /** An update keeps keys unique. */
  lemma {:induction false} PutAllUnique<V>(d: Dict<V>, o: Dict<V>)
    requires UniqueKeys(d)
    ensures UniqueKeys(PutAll(d, o))
    decreases |o|
  {
    if |o| > 0 {
      var init := o[..|o| - 1];
      PutAllUnique(d, init);
      PutUnique(PutAll(d, init), o[|o| - 1].0, o[|o| - 1].1);
    }
  }

  /** Keys are never lost by an update, and the new keys follow the old. */
  lemma {:induction false} PutAllKeepsKeys<V>(d: Dict<V>, o: Dict<V>)
    ensures Keys(d) <= Keys(PutAll(d, o))
    ensures forall q :: q in Keys(PutAll(d, o)) <==> q in Keys(d) || q in Keys(o)
    decreases |o|
  {
    if |o| > 0 {
      var init := o[..|o| - 1];
      PutAllKeepsKeys(d, init);
      assert Keys(o) == Keys(init) + [o[|o| - 1].0];
    }
  }
}

=== FILE: pipeline.dfy ===
/** The `pipe` message: a whitespace-separated line whose first word is a
    value and whose remaining words name functions, applied left to right
    (`5 range reversed list` is `list(reversed(range(5)))`). */
module Pipeline {
  import opened Wrappers
  import opened PyValues
  import opened Interpreter
  import PyStr

  /** `pipe(x, funcs)`: feed `x` through each function in turn; the first
      call that raises stops the pipe. */
  function Pipe(o: Oracle, x: PyVal, fs: seq<PyVal>): PyResult
    decreases |fs|
  {
    if |fs| == 0 then Ok(x)
    else
      var y :- o.call(fs[0], [x]);
      Pipe(o, y, fs[1..])
  }

  /** Evaluates each word in turn, stopping at the first that raises. */
  function EvalAll(o: Oracle, words: seq<string>): (r: Result<seq<PyVal>, ExcKind>)
    ensures r.Ok? ==> |r.value| == |words|
    ensures r.Ok? <==> forall i :: 0 <= i < |words| ==> o.run(words[i], EvalInput).Ok?
    ensures r.Ok? ==> forall i :: 0 <= i < |words| ==> o.run(words[i], EvalInput) == Ok(r.value[i])
    decreases |words|
  {
    if |words| == 0 then Ok([])
    else
      var v :- o.run(words[0], EvalInput);
      var vs :- EvalAll(o, words[1..]);
      Ok([v] + vs)
  }

  /** `pipe2` (and the box object's `__py_maxmsp_pipe`) on the split words:
      every word is evaluated before the first function is called. */
  function Pipe2Words(o: Oracle, words: seq<string>): PyResult {
    if |words| == 0 then Err(IndexError)
    else
      var x :- o.run(words[0], EvalInput);
      var fs :- EvalAll(o, words[1..]);
      Pipe(o, x, fs)
  }

  function Pipe2(o: Oracle, arg: string): PyResult {
    Pipe2Words(o, PyStr.SplitWs(arg))
  }

  /** `topipe` on the split words: the first word must be `pipe`. */
  function TopipeWords(o: Oracle, words: seq<string>): PyResult {
    if |words| == 0 then Err(IndexError)
    else if words[0] != "pipe" then Err(AssertionError)
    else if |words| == 1 then Err(IndexError)
    else
      var x :- o.run(words[1], EvalInput);
      var fs :- EvalAll(o, words[2..]);
      Pipe(o, x, fs)
  }

  function Topipe(o: Oracle, arg: string): PyResult {
    TopipeWords(o, PyStr.SplitWs(arg))
  }

  /** Appending a function to the pipe applies it to the old pipe's result. */
  lemma {:induction false} PipeSnoc(o: Oracle, x: PyVal, fs: seq<PyVal>, f: PyVal)
    ensures Pipe(o, x, fs + [f]) ==
      (match Pipe(o, x, fs) case Ok(y) => o.call(f, [y]) case Err(e) => Err(e))
    decreases |fs|
  {
    if |fs| == 0 {
      assert ([] + [f])[1..] == [];
    } else {
      assert (fs + [f])[0] == fs[0] && (fs + [f])[1..] == fs[1..] + [f];
      match o.call(fs[0], [x]) {
        case Ok(y) => PipeSnoc(o, y, fs[1..], f);
        case Err(_) =>
      }
    }
  }

  /** A pipe of two parts is the second part run on the first part's result. */
  lemma {:induction false} PipeAppend(o: Oracle, x: PyVal, fs: seq<PyVal>, gs: seq<PyVal>)
    ensures Pipe(o, x, fs + gs) ==
      (match Pipe(o, x, fs) case Ok(y) => Pipe(o, y, gs) case Err(e) => Err(e))
    decreases |fs|
  {
    if |fs| == 0 {
      assert fs + gs == gs;
    } else {
      assert (fs + gs)[0] == fs[0] && (fs + gs)[1..] == fs[1..] + gs;
      match o.call(fs[0], [x]) {
        case Ok(y) => PipeAppend(o, y, fs[1..], gs);
        case Err(_) =>
      }
    }
  }

  /** `topipe("pipe " + line)` and `pipe2(line)` agree on every line of words. */
  lemma TopipeIsPipe2(o: Oracle, words: seq<string>)
    requires forall w :: w in words ==> |w| > 0 && PyStr.NoSpace(w)
    ensures Topipe(o, PyStr.Join(["pipe"] + words, " ")) == Pipe2(o, PyStr.Join(words, " "))
  {
    var all := ["pipe"] + words;
    assert forall w :: w in all ==> |w| > 0 && PyStr.NoSpace(w) by {
      WordNoSpace("pipe");
    }
    PyStr.SplitWsJoin(all);
    PyStr.SplitWsJoin(words);
    assert all[1..] == words;
    TopipeWordsIsPipe2Words(o, all);
  }

  lemma TopipeWordsIsPipe2Words(o: Oracle, all: seq<string>)
    requires |all| > 0 && all[0] == "pipe"
    ensures TopipeWords(o, all) == Pipe2Words(o, all[1..])
  {
    if |all| > 1 {
      assert all[1..][0] == all[1] && all[1..][1..] == all[2..];
    }
  }

  lemma WordNoSpace(w: string)
    requires forall i :: 0 <= i < |w| ==> 'a' <= w[i] <= 'z' || '0' <= w[i] <= '9'
    ensures PyStr.NoSpace(w)
  {
  }

  lemma EvalThree(o: Oracle, a: string, b: string, c: string, va: PyVal, vb: PyVal, vc: PyVal)
    requires o.run(a, EvalInput) == Ok(va)
    requires o.run(b, EvalInput) == Ok(vb)
    requires o.run(c, EvalInput) == Ok(vc)
    ensures EvalAll(o, [a, b, c]) == Ok([va, vb, vc])
  {
    assert [a, b, c][1..] == [b, c] && [b, c][1..] == [c] && [c][1..] == [];
    assert EvalAll(o, [c][1..]) == Ok([]);
    assert [vc] + [] == [vc];
    assert EvalAll(o, [c]) == Ok([vc]);
    assert [vb] + [vc] == [vb, vc];
    assert [va] + [vb, vc] == [va, vb, vc];
    assert EvalAll(o, [b, c]) == Ok([vb, vc]);
  }

  /** `test_pipe`: piping `5` through `range`, `reversed` and `list` is
      `list(reversed(range(5)))`, and it raises as soon as one call does. */
  lemma TestPipe(o: Oracle, five: PyVal, range: PyVal, reversed: PyVal, list: PyVal)
    ensures Pipe(o, five, [range, reversed, list]) ==
      (match o.call(range, [five])
       case Err(e) => Err(e)
       case Ok(a) =>
         match o.call(reversed, [a])
         case Err(e) => Err(e)
         case Ok(b) => o.call(list, [b]))
  {
    PipeSnoc(o, five, [range, reversed], list);
    assert [range, reversed] + [list] == [range, reversed, list];
    PipeSnoc(o, five, [range], reversed);
    assert [range] + [reversed] == [range, reversed];
    assert [range][1..] == [];
  }

  /** The words of the `test_topipe` message. */
  const TopipeMessage := ["pipe", "5", "range", "reversed", "list"]

  lemma TopipeMessageJoin(words: seq<string>)
    requires words == TopipeMessage
    ensures PyStr.Join(words, " ") == "pipe 5 range reversed list"
  {
    TopipeMessageTail(words[2..]);
    assert words[1..] == ["5"] + words[2..];
    PyStr.JoinCons("5", words[2..], " ");
    assert words == ["pipe"] + words[1..];
    PyStr.JoinCons("pipe", words[1..], " ");
  }

  lemma TopipeMessageTail(words: seq<string>)
    requires words == ["range", "reversed", "list"]
    ensures PyStr.Join(words, " ") == "range reversed list"
  {
    assert PyStr.Join(words[2..], " ") == "list";
    assert PyStr.Join(words[1..], " ") == "reversed list";
  }

  lemma TopipeMessageSplits(msg: string)
    requires msg == "pipe 5 range reversed list"
    ensures PyStr.SplitWs(msg) == TopipeMessage
  {
    TopipeMessageJoin(TopipeMessage);
    WordNoSpace("pipe");
    WordNoSpace("5");
    WordNoSpace("range");
    WordNoSpace("reversed");
    WordNoSpace("list");
    PyStr.SplitWsJoin(TopipeMessage);
  }

  /** `test_topipe`: a message that splits into the words of
      `pipe 5 range reversed list` (as that message does, by
      `TopipeMessageSplits`) evaluates `5` and the three function names and
      pipes the value through them. */
  lemma TestTopipe(o: Oracle, msg: string, five: PyVal, range: PyVal, reversed: PyVal, list: PyVal)
    requires PyStr.SplitWs(msg) == TopipeMessage
    requires o.run("5", EvalInput) == Ok(five)
    requires o.run("range", EvalInput) == Ok(range)
    requires o.run("reversed", EvalInput) == Ok(reversed)
    requires o.run("list", EvalInput) == Ok(list)
    ensures Topipe(o, msg) == Pipe(o, five, [range, reversed, list])
  {
    var words := TopipeMessage;
    assert words[0] == "pipe" && words[1] == "5";
    assert words[2..] == ["range", "reversed", "list"];
    EvalThree(o, "range", "reversed", "list", range, reversed, list);
    TopipeWordsRuns(o, words, five, [range, reversed, list]);
  }

  /** `topipe` on `pipe x f...` pipes the value of `x` through the `f`s. */
  lemma TopipeWordsRuns(o: Oracle, words: seq<string>, x: PyVal, fs: seq<PyVal>)
    requires |words| >= 2 && words[0] == "pipe"
    requires o.run(words[1], EvalInput) == Ok(x)
    requires EvalAll(o, words[2..]) == Ok(fs)
    ensures TopipeWords(o, words) == Pipe(o, x, fs)
  {
  }
}

=== FILE: pystr.dfy ===
/** The Python `str` and list-slice operations the build tooling relies on,
    with Python's own edge cases: `split` with a separator keeps empty parts,
    `split()` without one drops runs of whitespace, slices clamp. */
module PyStr {

  /** `sep.join(xs)` */
  function Join(xs: seq<string>, sep: string): string {
    if |xs| == 0 then ""
    else if |xs| == 1 then xs[0]
    else xs[0] + sep + Join(xs[1..], sep)
  }

  /** `s.split(c)` for a one-character separator: one more part than there
      are separators, possibly empty parts, never an empty list. */
  function Split(s: string, c: char): (parts: seq<string>)
    ensures |parts| >= 1
    ensures forall p :: p in parts ==> c !in p
    decreases |s|
  {
    if |s| == 0 then [""]
    else if s[0] == c then [""] + Split(s[1..], c)
    else
      var rest := Split(s[1..], c);
      [[s[0]] + rest[0]] + rest[1..]
  }

  lemma JoinCons(a: string, xs: seq<string>, sep: string)
    requires |xs| >= 1
    ensures Join([a] + xs, sep) == a + sep + Join(xs, sep)
  {
    assert ([a] + xs)[1..] == xs;
  }

  /** Joining the parts of a split with the separator gives back the string. */
  lemma {:induction false} JoinSplit(s: string, c: char)
    ensures Join(Split(s, c), [c]) == s
    decreases |s|
  {
    if |s| == 0 {
    } else if s[0] == c {
      JoinSplit(s[1..], c);
      JoinCons("", Split(s[1..], c), [c]);
      assert s == [c] + s[1..];
    } else {
      var rest := Split(s[1..], c);
      JoinSplit(s[1..], c);
      if |rest| == 1 {
        assert Split(s, c) == [[s[0]] + rest[0]];
        assert s == [s[0]] + s[1..];
      } else {
        assert Split(s, c) == [[s[0]] + rest[0]] + rest[1..];
        JoinCons([s[0]] + rest[0], rest[1..], [c]);
        JoinCons(rest[0], rest[1..], [c]);
        assert rest == [rest[0]] + rest[1..];
        assert s == [s[0]] + s[1..];
      }
    }
  }

  lemma {:induction false} SplitNoSep(x: string, c: char)
    requires c !in x
    ensures Split(x, c) == [x]
    decreases |x|
  {
    if |x| > 0 {
      SplitNoSep(x[1..], c);
      assert x == [x[0]] + x[1..];
    }
  }

  lemma {:induction false} SplitSepAfter(x: string, c: char, t: string)
    requires c !in x
    ensures Split(x + [c] + t, c) == [x] + Split(t, c)
    decreases |x|
  {
    var s := x + [c] + t;
    if |x| == 0 {
      assert s[0] == c && s[1..] == t;
    } else {
      assert s[0] == x[0] && s[1..] == x[1..] + [c] + t;
      SplitSepAfter(x[1..], c, t);
      assert x == [x[0]] + x[1..];
    }
  }

  /** Splitting a join gives back the parts when no part holds the separator. */
  lemma {:induction false} SplitJoin(xs: seq<string>, c: char)
    requires |xs| >= 1
    requires forall x :: x in xs ==> c !in x
    ensures Split(Join(xs, [c]), c) == xs
    decreases |xs|
  {
    if |xs| == 1 {
      SplitNoSep(xs[0], c);
    } else {
      SplitJoin(xs[1..], c);
      SplitSepAfter(xs[0], c, Join(xs[1..], [c]));
      assert xs == [xs[0]] + xs[1..];
    }
  }

  /** Splitting at one occurrence of the separator splits both sides. */
  lemma {:induction false} SplitAround(x: string, c: char, y: string)
    ensures Split(x + [c] + y, c) == Split(x, c) + Split(y, c)
    decreases |x|
  {
    var s := x + [c] + y;
    if |x| == 0 {
      assert s[0] == c && s[1..] == y;
    } else {
      assert s[0] == x[0] && s[1..] == x[1..] + [c] + y;
      SplitAround(x[1..], c, y);
    }
  }

  /** `xs[:n]` */
  function Take<T>(xs: seq<T>, n: nat): (r: seq<T>)
    ensures |r| <= n && |r| <= |xs|
    ensures r <= xs
  {
    if n <= |xs| then xs[..n] else xs
  }

  /** `xs[:-1]` */
  function DropLast<T>(xs: seq<T>): (r: seq<T>)
    ensures |xs| > 0 ==> |r| == |xs| - 1
    ensures r <= xs
  {
    if |xs| == 0 then [] else xs[..|xs| - 1]
  }

  /** `xs[-2:]` */
  function LastTwo<T>(xs: seq<T>): (r: seq<T>)
    ensures |r| == if |xs| < 2 then |xs| else 2
    ensures forall i :: 0 <= i < |r| ==> r[i] == xs[|xs| - |r| + i]
  {
    if |xs| <= 2 then xs else xs[|xs| - 2..]
  }

  /** `s.replace(a, b)` for one-character strings */
  function ReplaceChar(s: string, a: char, b: char): (r: string)
    ensures |r| == |s|
    ensures forall i :: 0 <= i < |s| ==> r[i] == if s[i] == a then b else s[i]
  {
    if |s| == 0 then "" else [if s[0] == a then b else s[0]] + ReplaceChar(s[1..], a, b)
  }

  /** `s.replace(c, "")` */
  function RemoveChar(s: string, c: char): (r: string)
    ensures c !in r
    ensures |r| <= |s|
  {
    if |s| == 0 then "" else (if s[0] == c then "" else [s[0]]) + RemoveChar(s[1..], c)
  }

  lemma {:induction false} RemoveCharAppend(a: string, b: string, c: char)
    ensures RemoveChar(a + b, c) == RemoveChar(a, c) + RemoveChar(b, c)
    decreases |a|
  {
    if |a| == 0 {
      assert a + b == b;
    } else {
      assert (a + b)[0] == a[0] && (a + b)[1..] == a[1..] + b;
      RemoveCharAppend(a[1..], b, c);
    }
  }

  lemma {:induction false} RemoveCharAbsent(a: string, c: char)
    requires c !in a
    ensures RemoveChar(a, c) == a
    decreases |a|
  {
    if |a| > 0 {
      RemoveCharAbsent(a[1..], c);
      assert a == [a[0]] + a[1..];
    }
  }

  /** `s.lower()` on ASCII letters */
  function Lower(s: string): (r: string)
    ensures |r| == |s|
    ensures forall i :: 0 <= i < |s| ==> r[i] == if 'A' <= s[i] <= 'Z' then (s[i] as int + 32) as char else s[i]
  {
    if |s| == 0 then ""
    else [if 'A' <= s[0] <= 'Z' then (s[0] as int + 32) as char else s[0]] + Lower(s[1..])
  }

  /** `str.isspace` for one character. */
  predicate IsSpace(ch: char) {
    || ch == ' '
    || ('\t' <= ch <= '\r')
    || ('\U{1c}' <= ch <= '\U{1f}')
    || ch == '\U{85}' || ch == '\U{a0}' || ch == '\U{1680}'
    || ('\U{2000}' <= ch <= '\U{200a}')
    || ch == '\U{2028}' || ch == '\U{2029}' || ch == '\U{202f}' || ch == '\U{205f}' || ch == '\U{3000}'
  }

  predicate NoSpace(s: string) {
    forall i :: 0 <= i < |s| ==> !IsSpace(s[i])
  }

  /** The length of the leading run of non-space characters. */
  function RunLen(s: string): (k: nat)
    ensures k <= |s|
    ensures NoSpace(s[..k])
    ensures k < |s| ==> IsSpace(s[k])
  {
    if |s| == 0 || IsSpace(s[0]) then 0 else 1 + RunLen(s[1..])
  }

  /** `s.split()`: the maximal runs of non-space characters, in order. */
  function SplitWs(s: string): seq<string>
    decreases |s|
  {
    if |s| == 0 then []
    else if IsSpace(s[0]) then SplitWs(s[1..])
    else
      var k := RunLen(s);
      [s[..k]] + SplitWs(s[k..])
  }

  /** Every word is non-empty and free of whitespace. */
  lemma {:induction false} SplitWsWords(s: string)
    ensures forall t :: t in SplitWs(s) ==> |t| > 0 && NoSpace(t)
    decreases |s|
  {
    if |s| > 0 {
      if IsSpace(s[0]) {
        SplitWsWords(s[1..]);
      } else {
        SplitWsWords(s[RunLen(s)..]);
      }
    }
  }

  lemma {:induction false} RunLenOfPrefix(t: string, u: string)
    requires NoSpace(t)
    requires |u| == 0 || IsSpace(u[0])
    ensures RunLen(t + u) == |t|
    decreases |t|
  {
    if |t| > 0 {
      assert (t + u)[1..] == t[1..] + u;
      RunLenOfPrefix(t[1..], u);
    } else {
      assert t + u == u;
    }
  }

  /** Joining non-empty, space-free tokens with single spaces and splitting
      on whitespace gives back the tokens. */
  lemma {:induction false} SplitWsJoin(toks: seq<string>)
    requires forall t :: t in toks ==> |t| > 0 && NoSpace(t)
    ensures SplitWs(Join(toks, " ")) == toks
    decreases |toks|
  {
    if |toks| == 1 {
      SplitWsWord(toks[0]);
    } else if |toks| > 1 {
      var t := toks[0];
      var rest := toks[1..];
      assert Join(toks, " ") == t + " " + Join(rest, " ");
      SplitWsAppend(t, Join(rest, " "));
      SplitWsWord(t);
      assert forall u :: u in rest ==> u in toks;
      SplitWsJoin(rest);
      assert toks == [t] + rest;
    }
  }

  /** A single word splits into itself. */
  lemma SplitWsWord(t: string)
    requires |t| > 0 && NoSpace(t)
    ensures SplitWs(t) == [t]
  {
    RunLenOfPrefix(t, "");
    assert t + "" == t;
    assert t[..|t|] == t && t[|t|..] == "";
  }

  lemma {:induction false} RunLenAppend(a: string, t: string)
    requires RunLen(a) < |a|
    ensures RunLen(a + t) == RunLen(a)
    decreases |a|
  {
    if !IsSpace(a[0]) {
      assert (a + t)[1..] == a[1..] + t;
      RunLenAppend(a[1..], t);
    }
  }

  /** A space between two strings separates their words. */
  lemma {:induction false} SplitWsAppend(a: string, b: string)
    ensures SplitWs(a + " " + b) == SplitWs(a) + SplitWs(b)
    decreases |a|
  {
    if |a| == 0 {
      SplitWsLeadingSpace(a, b);
    } else if IsSpace(a[0]) {
      SplitWsLeadingSpace(a, b);
      SplitWsAppend(a[1..], b);
    } else if RunLen(a) < |a| {
      SplitWsAppendRun(a, b);
      SplitWsAppend(a[RunLen(a)..], b);
    } else {
      SplitWsAppendWord(a, b);
    }
  }

  /** Leading whitespace is skipped. */
  lemma SplitWsLeadingSpace(a: string, b: string)
    requires |a| == 0 || IsSpace(a[0])
    ensures |a| == 0 ==> SplitWs(a + " " + b) == SplitWs(b)
    ensures |a| > 0 ==> SplitWs(a + " " + b) == SplitWs(a[1..] + " " + b) && SplitWs(a) == SplitWs(a[1..])
  {
    var s := a + " " + b;
    if |a| == 0 {
      assert s == " " + b && s[1..] == b;
    } else {
      assert s[0] == a[0] && s[1..] == a[1..] + " " + b;
    }
  }

  /** The first word of `a` is the first word of `a + " " + b`. */
  lemma SplitWsAppendRun(a: string, b: string)
    requires |a| > 0 && !IsSpace(a[0]) && RunLen(a) < |a|
    ensures var k := RunLen(a);
      SplitWs(a + " " + b) == [a[..k]] + SplitWs(a[k..] + " " + b)
  {
    var s := a + " " + b;
    var k := RunLen(a);
    RunLenAppend(a, " " + b);
    assert s == a + (" " + b);
    assert s[..k] == a[..k];
    assert s[k..] == a[k..] + " " + b;
  }

  /** A word followed by a space splits off whole. */
  lemma SplitWsAppendWord(a: string, b: string)
    requires |a| > 0 && !IsSpace(a[0]) && RunLen(a) == |a|
    ensures SplitWs(a + " " + b) == SplitWs(a) + SplitWs(b)
  {
    var s := a + " " + b;
    var k := RunLen(a);
    assert a[..k] == a && a[k..] == "";
    RunLenOfPrefix(a, " " + b);
    assert s == a + (" " + b);
    assert s[..k] == a;
    assert s[k..] == " " + b && s[k..][1..] == b;
  }

  /** The line boundaries of `str.splitlines`. */
  predicate IsLineBreak(ch: char) {
    || ch == '\n' || ch == '\r' || ch == '\U{b}' || ch == '\U{c}'
    || ('\U{1c}' <= ch <= '\U{1e}')
    || ch == '\U{85}' || ch == '\U{2028}' || ch == '\U{2029}'
  }

  predicate NoLineBreak(s: string) {
    forall i :: 0 <= i < |s| ==> !IsLineBreak(s[i])
  }

  function LineLen(s: string): (k: nat)
    ensures k <= |s|
    ensures NoLineBreak(s[..k])
    ensures k < |s| ==> IsLineBreak(s[k])
  {
    if |s| == 0 || IsLineBreak(s[0]) then 0 else 1 + LineLen(s[1..])
  }

  /** `s.splitlines()`: `\r\n` is one boundary and a final boundary does not
      start another line. */
  function SplitLines(s: string): (lines: seq<string>)
    ensures forall l :: l in lines ==> NoLineBreak(l)
    ensures |lines| == 0 <==> |s| == 0
    decreases |s|
  {
    if |s| == 0 then []
    else
      var k := LineLen(s);
      if k == |s| then [s]
      else
        var skip := if s[k] == '\r' && k + 1 < |s| && s[k + 1] == '\n' then 2 else 1;
        [s[..k]] + SplitLines(s[k + skip..])
  }

  lemma {:induction false} LineLenOfPrefix(t: string, u: string)
    requires NoLineBreak(t)
    requires |u| == 0 || IsLineBreak(u[0])
    ensures LineLen(t + u) == |t|
    decreases |t|
  {
    if |t| > 0 {
      assert (t + u)[1..] == t[1..] + u;
      LineLenOfPrefix(t[1..], u);
    } else {
      assert t + u == u;
    }
  }

  /** Joining non-empty lines without line breaks by `\n` and splitting into
      lines gives back the lines. */
  lemma {:induction false} SplitLinesJoin(lines: seq<string>)
    requires forall i :: 0 <= i < |lines| ==> lines[i] != "" && NoLineBreak(lines[i])
    ensures SplitLines(Join(lines, "\n")) == lines
    decreases |lines|
  {
    if |lines| == 1 {
      var l := lines[0];
      LineLenOfPrefix(l, "");
      assert l + "" == l;
    } else if |lines| > 1 {
      var rest := Join(lines[1..], "\n");
      SplitLinesCons(lines[0], rest);
      SplitLinesJoin(lines[1..]);
      assert lines == [lines[0]] + lines[1..];
    }
  }

  /** A line followed by `\n` splits off as the first line. */
  lemma SplitLinesCons(l: string, rest: string)
    requires NoLineBreak(l)
    ensures SplitLines(l + "\n" + rest) == [l] + SplitLines(rest)
  {
    var s := l + "\n" + rest;
    LineLenOfPrefix(l, "\n" + rest);
    assert s == l + ("\n" + rest);
    assert s[|l|] == '\n';
    assert s[..|l|] == l;
    assert s[|l| + 1..] == rest;
  }

  lemma NoLineBreakConcat(a: string, b: string)
    requires NoLineBreak(a) && NoLineBreak(b)
    ensures NoLineBreak(a + b)
  {
    forall i | 0 <= i < |a + b| ensures !IsLineBreak((a + b)[i]) {
      if i >= |a| {
        assert (a + b)[i] == b[i - |a|];
      }
    }
  }

  /** Words without line breaks joined by spaces make one line. */
  lemma {:induction false} JoinNoLineBreak(ws: seq<string>)
    requires forall i :: 0 <= i < |ws| ==> NoLineBreak(ws[i])
    ensures NoLineBreak(Join(ws, " "))
    decreases |ws|
  {
    if |ws| > 1 {
      JoinNoLineBreak(ws[1..]);
      NoLineBreakConcat(ws[0], " ");
      NoLineBreakConcat(ws[0] + " ", Join(ws[1..], " "));
    }
  }
}

=== FILE: pyvalues.dfy ===
/** The two value worlds the bridge connects: the host's tagged atoms and the
    interpreter's objects, with the CPython type predicates the C code tests. */
module PyValues {
  import opened Wrappers

  /** A C float or double carried by an atom or a Python float. No float
      arithmetic is modelled, so the type is left abstract. */
  type F(==, 0)

  /** Capacity of the static atom buffers (PY_MAX_ATOMS in py.h). */
  const MaxAtoms: nat := 128

  /** Range of a C `long` on the LP64 targets the externals are built for. */
  const LongMin: int := -0x8000_0000_0000_0000
  const LongMax: int := 0x7FFF_FFFF_FFFF_FFFF

  predicate FitsLong(i: int) {
    LongMin <= i <= LongMax
  }

  /** A host atom, by its type tag: A_LONG, A_FLOAT, A_SYM, A_NOTHING, and any
      other tag (A_OBJ, A_DOLLAR, ...). */
  datatype Atom = ALong(l: int) | AFloat(f: F) | ASym(s: string) | ANothing | AOther

  /** A host atom as the host produces it: a long atom holds a C long. */
  predicate HostAtom(a: Atom) {
    a.ALong? ==> FitsLong(a.l)
  }

  /** An interpreter object, by its exact built-in type. `Set` items are in
      iteration order; `Opaque` stands for every other object (functions,
      modules, instances), told apart by identity. */
  datatype PyVal =
    | Int(i: int)
    | Bool(b: bool)
    | Float(x: F)
    | Str(s: string)
    | Bytes(data: seq<bv8>)
    | ByteArray(data: seq<bv8>)
    | List(items: seq<PyVal>)
    | Tuple(items: seq<PyVal>)
    | Set(items: seq<PyVal>)
    | Dict(entries: seq<(PyVal, PyVal)>)
    | PyNone
    | Opaque(id: nat)

  /** PyFloat_Check */
  predicate FloatCheck(v: PyVal) {
    v.Float?
  }

  /** PyLong_Check: `bool` is a subclass of `int`. */
  predicate LongCheck(v: PyVal) {
    v.Int? || v.Bool?
  }

  /** PyUnicode_Check */
  predicate UnicodeCheck(v: PyVal) {
    v.Str?
  }

  /** PySequence_Check: str, bytes, bytearray, list and tuple are sequences;
      set and dict are not. */
  predicate SequenceCheck(v: PyVal) {
    v.Str? || v.Bytes? || v.ByteArray? || v.List? || v.Tuple?
  }

  /** PyDict_Check */
  predicate DictCheck(v: PyVal) {
    v.Dict?
  }

  /** The integer value of an int or bool. */
  function LongValue(v: PyVal): int
    requires LongCheck(v)
  {
    if v.Bool? then (if v.b then 1 else 0) else v.i
  }

  /** The kinds of exception the model tells apart. */
  datatype ExcKind =
    | SyntaxError
    | TypeError
    | IndexError
    | KeyError
    | AttributeError
    | AssertionError
    | OtherExc

  type PyResult = Result<PyVal, ExcKind>

  /** What an object sends out of its outlets: a message on the left outlet,
      a bang on the success outlet or a bang on the failure outlet. */
  datatype Event = Value(atoms: seq<Atom>) | Success | Failure

  /** The C handlers' return code (MAX_ERR_NONE or MAX_ERR_GENERIC). */
  datatype Code = ErrNone | ErrGeneric

  datatype Reply = Reply(code: Code, trace: seq<Event>)

  /** Each value message is immediately followed by a success bang. */
  ghost predicate ValueThenSuccess(t: seq<Event>) {
    forall i :: 0 <= i < |t| && t[i].Value? ==> i + 1 < |t| && t[i + 1] == Success
  }

  /** The number of value messages in a trace. */
  function Values(t: seq<Event>): nat {
    if |t| == 0 then 0 else (if t[0].Value? then 1 else 0) + Values(t[1..])
  }

  /** What one element of an output sequence becomes. */
  datatype ItemConv = Keep(a: Atom) | Drop | Overflow

  /** The box variants' element conversion: int first, then float, then str;
      every other element is dropped; an int outside the C long range makes
      PyLong_AsLong raise. */
  function LongFirstItem(v: PyVal): ItemConv {
    if LongCheck(v) then
      (if FitsLong(LongValue(v)) then Keep(ALong(LongValue(v))) else Overflow)
    else if FloatCheck(v) then Keep(AFloat(v.x))
    else if UnicodeCheck(v) then Keep(ASym(v.s))
    else Drop
  }

  /** The elements the output handlers turn into atoms. */
  predicate Convertible(v: PyVal) {
    LongCheck(v) || FloatCheck(v) || UnicodeCheck(v)
  }

  predicate Overflows(v: PyVal) {
    LongCheck(v) && !FitsLong(LongValue(v))
  }

  /** The number of elements of `items` that are converted, not dropped. */
  function CountConvertible(items: seq<PyVal>): nat {
    if |items| == 0 then 0
    else (if Convertible(items[0]) then 1 else 0) + CountConvertible(items[1..])
  }
}

=== FILE: wrappers.dfy ===
/** Optional values and results with an error, used throughout the model for
    the C code's NULL returns and the interpreter's raised exceptions. */
module Wrappers {

  datatype Option<+T> = None | Some(value: T) {
    function GetOr(default: T): T {
      match this
      case Some(v) => v
      case None => default
    }
  }

  datatype Result<+T, +E> = Ok(value: T) | Err(error: E) {
    predicate IsFailure() {
      Err?
    }

    function PropagateFailure<U>(): Result<U, E>
      requires Err?
    {
      Err(error)
    }

    function Extract(): T
      requires Ok?
    {
      value
    }
  }
}
